=== FILE: README.md ===
# raypy in Dafny: the geometric core of a 2D ray tracer

raypy traces bundles of light rays through planar optical elements: apertures, flat
mirrors, thin lenses, parabolic mirrors, sensors, diffraction gratings and a dispersive
prism. A ray has a position (x, y), a slope `tan_theta` and, in the current package, a
`forward` flag, a group number and a wavelength. Each element sits at an origin, turned
by an angle theta. It traces a batch of rays in five steps:

1. it takes the batch into its own frame of reference;
2. it propagates the rays to its plane x = 0, or, for the parabolic mirror, to its surface;
3. it applies its paraxial (ABCD) matrix to (y, tan_theta), or its own wavelength update;
4. it invalidates every ray outside its diameter by setting its slope to NaN;
5. it takes the batch back to the global frame.

The repository holds three generations of this code:

- the `raypy2d/elements/` package, which works on ray records;
- the single-file `raypy2d/elements.py`, which works on raw arrays;
- the first `raypy/elements.py`, also on raw arrays.

This project models the geometric core of all three generations, except the first
generation's unfinished grating, and proves properties of them. It covers
element construction, frame changes and their round trips, free-space propagation and
the ray fan, and each element kind's matrix, reflection, refraction and intersection with
its surface. It also covers blocking, the wavelength split of the dispersive elements,
the grating equation, the prism's two faces, and the array helpers and element placement
of `raypy2d/utils.py`.

Modelling choices:

- A float is `Num.Num`: an exact real, or NaN. Arithmetic propagates NaN, and every
  ordered comparison with NaN is false.
- Infinities are not represented. A division by zero gives NaN. The default blocker
  diameter `+Inf` is `Bound.PosInf`.
- The transcendental functions (cos, sin, tan, arctan, arcsin, sqrt) are parameters,
  bundled in a `Trig` record. A lemma that needs a law, such as cos² + sin² = 1 or a
  square root that squares back, asks for it at the one argument it uses.
- The exceptions the code raises become `Outcome.Result` errors:
  - the constructor asserts give `AssertionFailed`;
  - `1/f` with f = 0 gives `ZeroDivision`;
  - `default_wavelengths[0]` on an empty list gives `IndexOutOfRange`;
  - the prism's missing SF11 constants give `MissingKey`;
  - a negative NumPy shape gives `NegativeDimension`.
- The package's ray batch is a sequence of `RayData.Ray` records. The older generations
  work on `RayData.Table`, a raw array whose column count matters to the single-file
  grating.
- Where the code has a defect listed under Findings, the model holds both the code as
  written and a corrected version; the table below labels each member "as written" or
  "corrected" where the two differ. The composed traces (`Elements.Trace`,
  `PrismElement.Trace`, `ArrayTracing.Trace` and the steps inside them) take a
  `Readings.Reading`: `AsWritten` composes the pieces as written, `Corrected` the
  corrected pieces. A property that holds under one reading only is stated for that
  reading.
- The two older generations share the trace steps, the frame changes, propagation,
  blocking and the matrices, so one model, `ArrayTracing`, covers both.
  `ArrayTracing.Kind` lists the element classes of either file. The two parabolic
  mirrors have different `intersection_of` formulas, so each has its own kind:
  `Parabolic` for the single-file mirror and `LegacyParabolic` for the first
  generation's. The grating kind is the single-file grating; the first generation's
  grating is unfinished and left out.

Modules:

| module | models |
|---|---|
| `Num`, `Linear`, `Outcome`, `Transcendental`, `RayData` | floats with NaN, 2x2 matrices, exceptions, the transcendental functions, the data model |
| `Readings` | the choice between the code as written and the corrected code |
| `Rays` | `raypy2d/rays.py` |
| `Utils` | `raypy2d/utils.py` |
| `Frame` | `RotateObject` of the raypy2d/elements package |
| `ElementBase`, `ApertureElement`, `MirrorElement`, `LensElement`, `ParabolicMirrorElement`, `SensorElement`, `GratingElement`, `PrismElement` | the raypy2d/elements package's element classes |
| `Wavelengths` | the wavelength split shared by the raypy2d/elements package's grating and prism |
| `Elements` | the raypy2d/elements package's element classes as one tagged record, and their trace |
| `ArrayElements`, `ArrayTracing` | the elements of both older generations |
| `FlatGrating` | the single-file grating |
| `LegacyElements` | the parabolic intersection of `raypy/elements.py` |

`Algebra` holds arithmetic helpers for the nonlinear proofs.

## Model

| member | source | states |
|---|---|---|
| Rays.Propagate | raypy2d/rays.py:4-23 | every ray moves to the plane x and only its height changes, to y + tan_theta (x - x0); the height is NaN exactly when x0, y or tan_theta is NaN |
| Rays.PropagateIdempotent | raypy2d/rays.py:17-21 | propagating twice to the same plane is propagating once |
| Rays.PropagateCompose | raypy2d/rays.py:17-21 | propagating to a and then to c equals propagating straight to c |
| Rays.PropagateInPlace | raypy2d/rays.py:17-21 | rays already on the plane with real slopes do not move |
| Rays.PropagateTable | raypy2d/rays.py:4-23 | on a raw array only columns 0 and 1 change: column 0 becomes x and column 1 becomes y + tan_theta (x - x0), NaN exactly when x0, y or tan_theta is NaN; `stop` has no effect |
| Rays.PropagateTableCompose | raypy2d/rays.py:17-21 | on a raw array, propagating to a and then to c equals propagating straight to c |
| Rays.PropagateMatchesTable | raypy2d/rays.py:4-23 | propagating ray records and propagating their array rows give the same array |
| Rays.FanAngles | raypy2d/rays.py:30-33 | n = -1 is ZeroDivision, from the step's division by n + 1; n < -1 gives no angles, as the empty `arange` does; otherwise the n fan angles are k (a1 - a0) / (n + 1) past a0 for k = 1..n, lie strictly between the two end angles, and increase when a0 < a1 |
| Rays.Steps | raypy2d/rays.py:30-33 | for n not negative: n angles, the i-th (i + 1) (a1 - a0) / (n + 1) past a0, strictly between the end angles and increasing when a0 < a1 |
| Rays.FanAngleFacts | raypy2d/rays.py:30-33 | the same facts for the k-th step of the fan, k = 1..n |
| Rays.RayFan | raypy2d/rays.py:26-35 | fails exactly for a negative n: ZeroDivision for n = -1, NegativeDimension from `np.zeros` below that; otherwise n rows of three columns, each at the origin, with slope tan of the matching fan angle |
| Utils.RotationInverse | raypy2d/utils.py:4-17 | the rotations by theta and by -theta compose to the identity, in either order |
| Utils.AssureColumns | raypy2d/utils.py:65-83 | the array is padded with NaN columns up to n, keeping every original entry, and comes back unchanged when already wide enough |
| Utils.AssureColumnsIdempotent | raypy2d/utils.py:65-83 | padding columns twice is padding once |
| Utils.AssureRows | raypy2d/utils.py:86-104 | the array gains NaN rows up to n, keeping every original row |
| Utils.AssureRowsIdempotent | raypy2d/utils.py:86-104 | padding rows twice is padding once |
| Utils.RollingWindow | raypy2d/utils.py:107-127 | window i holds a[i..i+w]; there are \|a\| - w + 1 windows of length w; a negative resulting shape is an error |
| Utils.RollingWindowOverlap | raypy2d/utils.py:107-127 | neighbouring windows share all but one element |
| Utils.PlaceRelativeTo | raypy2d/utils.py:130-151 | as written: the element's angle grows by theta; the reference's origin moves by the offset; the element lands at its rotated origin plus the moved reference origin |
| Utils.PlaceRelativeToMovesReference | raypy2d/utils.py:139-147 | as written, any non-zero distance moves the reference element |
| Utils.PlaceRelativeToFixed | raypy2d/utils.py:130-151 | corrected: the reference stays put and the element lands where the code puts it |
| Frame.PointToObject | raypy2d/elements/base.py:23-43 | at theta = 0 the point is only translated by -origin; real points stay real |
| Frame.PointToGlobal | raypy2d/elements/base.py:45-65 | at theta = 0 the point is only translated by +origin; real points stay real |
| Frame.RotateBack | raypy2d/elements/base.py:39-60 | rotating a real point by -theta and by theta, in either order, returns it |
| Frame.PointRoundTrip | raypy2d/elements/base.py:23-65 | the two point transforms are inverse to each other, for every point at theta = 0 and for real points otherwise |
| Frame.PointsToObject | raypy2d/elements/base.py:23-43 | the transform acts point by point |
| Frame.PointsToGlobal | raypy2d/elements/base.py:45-65 | the transform acts point by point |
| Frame.TanRoundTrip | raypy2d/elements/base.py:87-111 | the tangent-sum formula undoes the tangent-difference formula wherever the first denominator is not 0, and the other way round |
| Frame.NormalizeRange | raypy2d/elements/base.py:90-91 | the normalised heading lies in [0, 360) and differs from the heading by whole turns |
| Frame.HalfPlane | raypy2d/elements/base.py:93-107 | the flag is +0.5 or -0.5, and -0.5 for a NaN heading |
| Frame.NormalizePeriodic | raypy2d/elements/base.py:90-91 | whole turns do not change the normalised heading |
| Frame.RayToGlobalFixed | raypy2d/elements/base.py:98-112 | corrected: the heading plus theta is normalised before the half-plane test; nothing but `forward` differs from the code as written |
| Frame.GlobalForwardDependsOnTurns | raypy2d/elements/base.py:104-107 | as written, a ray along the axis of an element turned by -120 degrees is flagged forward, while the same turn written as +240 flags it backward |
| Frame.GlobalForwardFixedPeriodic | raypy2d/elements/base.py:104-107 | corrected, the flag depends on theta only modulo whole turns |
| Frame.ToElementFrame | raypy2d/elements/base.py:67-96 | ray by ray: positions move into the element frame, tan_theta by the tangent-difference formula, `forward` is the half-plane flag of the heading minus theta normalised into [0, 360) (-0.5 for a NaN slope); group and wavelength are kept |
| Frame.ToGlobalFrame | raypy2d/elements/base.py:98-112 | as written, ray by ray: positions move back, tan_theta by the tangent-sum formula, `forward` is the half-plane flag of the heading plus theta, not normalised; group and wavelength are kept |
| Frame.ToGlobalFrameFixed | raypy2d/elements/base.py:98-112 | the batch form of `RayToGlobalFixed` |
| Frame.RayToElement | raypy2d/elements/base.py:67-96 | one ray into the element frame: its point by the point transform, tan_theta by the tangent-difference formula, `forward` the half-plane flag of the normalised heading minus theta; group and wavelength kept |
| Frame.RayToGlobal | raypy2d/elements/base.py:98-112 | as written, one ray back: its point by the point transform, tan_theta by the tangent-sum formula, `forward` the half-plane flag of the heading plus theta without normalising; group and wavelength kept |
| Frame.ToGlobal | raypy2d/elements/base.py:98-112 | the way back under a reading: the two readings differ only in `forward`, unnormalised as written and normalised corrected |
| Frame.RayRoundTrip | raypy2d/elements/base.py:67-112 | into the element frame and back, a ray keeps its position, slope, group and wavelength wherever the denominator is not 0 |
| Frame.RayRoundTripFromElement | raypy2d/elements/base.py:67-112 | the same round trip, out to the global frame and back in |
| Frame.BatchRoundTrip | raypy2d/elements/base.py:67-112 | the round trip for every ray of a batch |
| ElementBase.TransformRays | raypy2d/elements/base.py:157-164 | x, group, wavelength and the row count are never touched; each ray goes through the one-ray transform |
| ElementBase.TransformRayReal | raypy2d/elements/base.py:159 | on real (y, tan_theta) the transform is the exact matrix product |
| ElementBase.TransformIdentity | raypy2d/elements/base.py:157-164 | the bare element's identity matrix, without reflection, leaves real rays unchanged |
| ElementBase.EdgesInElementFrame | raypy2d/elements/base.py:135-143 | read back in the element frame, the edges are (0, ∓a/2), the negative one first unless flipped |
| ElementBase.SwapToGlobal | raypy2d/elements/base.py:140-143 | swapping commutes with the point-wise move to the global frame |
| ApertureElement.Check | raypy2d/elements/aperture.py:23-24 | construction succeeds exactly when the diameter is non-negative and the blocker strictly wider; otherwise AssertionFailed |
| ApertureElement.Block | raypy2d/elements/aperture.py:31-35 | only tan_theta changes; it becomes NaN exactly when it was NaN or the height is NaN or outside [-D/2, D/2]; otherwise it stays |
| ApertureElement.BlockIdempotent | raypy2d/elements/aperture.py:31-35 | blocking twice is blocking once |
| ApertureElement.BlockKeepsInside | raypy2d/elements/aperture.py:31-35 | rays inside the aperture pass untouched |
| ApertureElement.BlockZeroDiameter | raypy2d/elements/aperture.py:31-35 | a zero diameter stops exactly the real rays off the axis |
| MirrorElement.Reflect | raypy2d/elements/mirror.py:25-26 | the mirror keeps a real height, negates a real slope and negates `forward` |
| MirrorElement.ReflectInvolution | raypy2d/elements/mirror.py:25-26 | reflecting twice returns every real ray, `forward` included |
| MirrorElement.ReflectBlocked | raypy2d/elements/base.py:159 | a ray with a NaN slope loses its height too, because 0 * NaN is NaN |
| MirrorElement.Edges | raypy2d/elements/mirror.py:28-30 | the mirror's edges are the aperture's edges with `flipped` toggled |
| LensElement.Matrix | raypy2d/elements/lens.py:30-31 | [[1, 0], [c, 1]] with c f = -1; a zero focal length is ZeroDivision |
| LensElement.Refract | raypy2d/elements/lens.py:30-31 | a real ray keeps its height, and its slope drops by y / f |
| LensElement.RefractCentral | raypy2d/elements/lens.py:30-31 | a ray through the centre keeps its slope |
| LensElement.RefractParallel | raypy2d/elements/lens.py:30-31 | a ray parallel to the axis leaves with slope -y / f, aimed at the focal point |
| LensElement.RefractInverse | raypy2d/elements/lens.py:30-31 | a lens of focal length -f undoes a lens of focal length f |
| SensorElement.Transparent | raypy2d/elements/sensor.py:21-22 | real rays pass the sensor's transform unchanged |
| SensorElement.BlockedLosesHeight | raypy2d/elements/sensor.py:21 | a ray with a NaN slope loses its height and nothing else |
| SensorElement.Edges | raypy2d/elements/mirror.py:28-30 | the sensor inherits the mirror's reversed edges |
| ParabolicMirrorElement.Matrix | raypy2d/elements/parabolic_mirror.py:25-27 | the lens matrix with entry [1, 1] set to -1; a zero focal length is an error |
| ParabolicMirrorElement.Reflect | raypy2d/elements/parabolic_mirror.py:25-27 | the slope becomes -(tan_theta + y / f) and the ray turns around, as at a concave mirror |
| ParabolicMirrorElement.XBlocker | raypy2d/elements/parabolic_mirror.py:29 | `x_blocker` is the depth of the parabola at both rim points ±D/2 |
| ParabolicMirrorElement.Depth | raypy2d/elements/parabolic_mirror.py:41-48 | as written: the closed-form root for every slope other than 0; for slope 0, real exactly when y is real and f ≠ 0, and then y² / (4 f), the depth of the parabola at height y |
| ParabolicMirrorElement.RootDepth | raypy2d/elements/parabolic_mirror.py:41-44 | real exactly for a real ray with a non-zero slope a and f (f - a y) ≥ 0; then (2 √(f (f - a y)) + a y - 2 f) / a², and where the root squares back the ray's line meets X = Y² / (4 f) at X = -x |
| ParabolicMirrorElement.MissesRim | raypy2d/elements/parabolic_mirror.py:50-54 | true exactly when the new height y - a x is NaN or outside [-D/2, D/2] |
| ParabolicMirrorElement.Hit | raypy2d/elements/parabolic_mirror.py:50-59 | only the position changes; a ray that misses the rim goes to X = x_blocker, any other to X = -x at a height inside the rim; a real ray lands on its own line Y = y + a X |
| ParabolicMirrorElement.IntersectRay | raypy2d/elements/parabolic_mirror.py:40-61 | as written: only the position changes, a real ray lands on its own line, and it lands inside the rim or on the blocker plane X = x_blocker |
| ParabolicMirrorElement.Intersection | raypy2d/elements/parabolic_mirror.py:40-61 | as written: only positions change, each ray by the one-ray rule |
| ParabolicMirrorElement.RootOnParabola | raypy2d/elements/parabolic_mirror.py:44-58 | the closed-form root puts the ray at a point of X = Y² / (4 f) |
| ParabolicMirrorElement.IntersectOnParabola | raypy2d/elements/parabolic_mirror.py:40-61 | a sloped real ray whose line reaches the parabola inside the rim lands on the mirror surface |
| ParabolicMirrorElement.ParallelOnParabola | raypy2d/elements/parabolic_mirror.py:48 | a parallel ray at height y meets the parabola at depth y² / (4 f) |
| ParabolicMirrorElement.ZeroSlopeOffParabola | raypy2d/elements/parabolic_mirror.py:46-58 | as written, a parallel ray lands at X = -y² / (4 f), off the mirror for every y other than 0 |
| ParabolicMirrorElement.DepthFixed | raypy2d/elements/parabolic_mirror.py:46-48 | corrected: the code's depth for every slope other than 0; for slope 0 and a real height, -y² / (4 f), so that the ray lands at X = y² / (4 f) on the parabola |
| ParabolicMirrorElement.IntersectRayFixed | raypy2d/elements/parabolic_mirror.py:40-61 | corrected: for every slope other than 0 it agrees with the code as written |
| ParabolicMirrorElement.IntersectionFixed | raypy2d/elements/parabolic_mirror.py:40-61 | corrected, batch form: only positions change |
| ParabolicMirrorElement.IntersectFixedOnParabola | raypy2d/elements/parabolic_mirror.py:40-61 | corrected, every real ray reaching the parabola inside the rim lands on it, parallel rays included |
| ParabolicMirrorElement.LocalEdges | raypy2d/elements/parabolic_mirror.py:31-36 | (x_blocker, D/2) then (x_blocker, -D/2), swapped when flipped; both lie on the parabola |
| ParabolicMirrorElement.Edges | raypy2d/elements/parabolic_mirror.py:31-38 | two points; read back in the element frame they are (x_blocker, ±D/2) on the parabola, the upper one first unless flipped |
| GratingElement.Diffract | raypy2d/elements/diffraction_grating.py:49-50 | as written: only tan_theta changes, and it is NaN when the slope or the wavelength is |
| GratingElement.DiffractFixed | raypy2d/elements/diffraction_grating.py:49-50 | corrected, with a single sine: only tan_theta changes, NaN for a NaN slope or wavelength |
| GratingElement.ShiftReal | raypy2d/elements/diffraction_grating.py:50 | the grating term is m λ / d / 1000 for a real wavelength and a non-zero pitch |
| GratingElement.GratingEquation | raypy2d/elements/diffraction_grating.py:49-50 | corrected, the ray leaves with sin(out) = sin(in) - m λ / d whenever that sine lies in (-1, 1) |
| GratingElement.DoubleSineEquation | raypy2d/elements/diffraction_grating.py:49-50 | as written, the outgoing sine is off by sin(s) - s, where s is the true incidence sine |
| GratingElement.DoubleSineAtFortyFive | raypy2d/elements/diffraction_grating.py:49-50 | at 45 degrees, pitch 1 µm, order 1 and 532 nm, the outgoing sine as written falls short of the grating equation's value |
| GratingElement.EvanescentOrderStopped | raypy2d/elements/diffraction_grating.py:49-50 | corrected: a sine pushed outside [-1, 1] leaves the ray with a NaN slope |
| GratingElement.Update | raypy2d/elements/diffraction_grating.py:49-50 | only tan_theta changes: by the double sine as written, by the single sine corrected |
| GratingElement.Transform | raypy2d/elements/diffraction_grating.py:37-52 | under either reading: fails with IndexOutOfRange exactly when the split fails; otherwise one row per row of the split, each given the angle update of the reading: the double sine as written, the single sine corrected |
| GratingElement.TransformKeepsRays | raypy2d/elements/diffraction_grating.py:37-52 | under either reading, every row keeps the position, flag and group of the ray it came from, and carries a wavelength |
| GratingElement.TransformNoSplit | raypy2d/elements/diffraction_grating.py:39-50 | rays that all carry a wavelength are updated in place and none is added: with the double sine as written, with the single sine corrected |
| Wavelengths.UnsetIndices | raypy2d/elements/diffraction_grating.py:39 | the selected row numbers ascend, each names a ray without a wavelength, and every such ray is named |
| Wavelengths.UnsetIndicesByWavelength | raypy2d/elements/diffraction_grating.py:39 | which rows are selected depends on the wavelength column alone |
| Wavelengths.Fill | raypy2d/elements/diffraction_grating.py:41 | unset wavelengths become w and everything else stays |
| Wavelengths.Select | raypy2d/elements/diffraction_grating.py:43 | the selected rows, in order |
| Wavelengths.Relabel | raypy2d/elements/diffraction_grating.py:45-46 | each copy carries wavelength w and is otherwise its source row |
| Wavelengths.BlockStartIsProduct | raypy2d/elements/diffraction_grating.py:44-47 | copy j of n rows starts at j n |
| Wavelengths.Copies | raypy2d/elements/diffraction_grating.py:44-47 | one copy per further wavelength: \|ws\| blocks of \|src\| rows |
| Wavelengths.CopiesAt | raypy2d/elements/diffraction_grating.py:44-47 | row m of block j is source row m with wavelength ws[j] |
| Wavelengths.CopiesIndex | raypy2d/elements/diffraction_grating.py:44-47 | every row of the copies is some source row relabelled with some wavelength |
| Wavelengths.Split | raypy2d/elements/diffraction_grating.py:39-47 | fails with IndexOutOfRange exactly when some wavelength is unset and there are no defaults; nothing changes when every wavelength is set; otherwise \|defaults\| - 1 copies of the unset rays are appended |
| Wavelengths.SplitLength | raypy2d/elements/diffraction_grating.py:39-47 | the split adds (\|defaults\| - 1) rows per unset ray |
| Wavelengths.SplitPrefix | raypy2d/elements/diffraction_grating.py:41 | the first \|b\| rows are the input rays, the unset ones now at defaults[0] |
| Wavelengths.SplitCopyAt | raypy2d/elements/diffraction_grating.py:43-47 | after them, block j - 1 holds every unset ray, in order, with wavelength defaults[j] |
| Wavelengths.SplitComplete | raypy2d/elements/diffraction_grating.py:39-47 | after the split every ray has a wavelength |
| Wavelengths.SplitIdempotent | raypy2d/elements/diffraction_grating.py:39-47 | a second split changes nothing |
| Wavelengths.SplitOrigin | raypy2d/elements/diffraction_grating.py:39-47 | no ray is invented: each row is an input ray, at most relabelled, and a ray that had a wavelength appears unchanged |
| PrismElement.Constants | raypy2d/elements/diffraction_prism.py:19-22 | only BK7 has constants; SF11 is a KeyError |
| PrismElement.Term | raypy2d/elements/diffraction_prism.py:54 | one Sellmeier term: real exactly when w² is real and off the pole c, and then b w² / (w² - c) |
| PrismElement.Index | raypy2d/elements/diffraction_prism.py:50-54 | with w = λ / 1000: real exactly when λ is real, w² is at no pole c_k, and 1 + Σ b_k w² / (w² - c_k) ≥ 0; then the square root of that sum, so n ≥ 0 and n² = 1 + Σ b_k w² / (w² - c_k) wherever the root squares back |
| PrismElement.Refract | raypy2d/elements/diffraction_prism.py:68-71 | only tan_theta changes: divided by the index on entry, multiplied on exit; NaN for a NaN slope or wavelength |
| PrismElement.Transform | raypy2d/elements/diffraction_prism.py:56-73 | fails with IndexOutOfRange when the split fails and with MissingKey for SF11; otherwise every row of the split is refracted |
| PrismElement.RefractRoundTrip | raypy2d/elements/diffraction_prism.py:68-71 | leaving the glass undoes entering it when the index is a non-zero real |
| PrismElement.TransformRoundTrip | raypy2d/elements/diffraction_prism.py:56-73 | rays with wavelengths come out of the exit refraction as they went into the entry refraction |
| PrismElement.TransformSplitRoundTrip | raypy2d/elements/diffraction_prism.py:56-73 | rays still to be split are copied once per default wavelength on entry, and the exit refraction gives back exactly the split rays, without a second split, whenever every split ray has a real slope and a real, non-zero index |
| PrismElement.SecondInterface | raypy2d/elements/diffraction_prism.py:46-48 | the exit face is turned 60 degrees further and, at theta = 0, centred at (√3 a / 4, a / 4) from the origin |
| PrismElement.FacesHalfASideApart | raypy2d/elements/diffraction_prism.py:46-48 | the two faces' centres are half a side apart, as on an equilateral triangle |
| PrismElement.AtFace | raypy2d/elements/diffraction_prism.py:82-83 | each ray, taken into a face's frame and propagated, lies on the face's plane x = 0 and keeps its wavelength |
| PrismElement.SplitAtPlane | raypy2d/elements/diffraction_prism.py:58-66 | the wavelength split of rays on the plane x = 0 leaves every copy on that plane |
| PrismElement.Leaving | raypy2d/elements/diffraction_prism.py:84-86 | after the split, ray i is refracted, blocked and carried to the global frame: at the face's point of its height, with the blocked slope turned back, its group and wavelength, `forward` unnormalised as written |
| PrismElement.Pass | raypy2d/elements/diffraction_prism.py:75-86 | one face: fails with IndexOutOfRange when the split fails and with MissingKey for SF11; otherwise one ray per ray of the split, each at the face's point where it met the face, with the refracted, blocked slope turned back and its group and wavelength |
| PrismElement.Enter | raypy2d/elements/diffraction_prism.py:75-78 | under either reading the entry face fails exactly as the transform does; otherwise ray i of the split comes out with a wavelength, at the point of the face where it met it, with the entry-refracted, aperture-blocked slope turned back into the global frame, and its group |
| PrismElement.Leave | raypy2d/elements/diffraction_prism.py:82-86 | on rays that all have wavelengths, under either reading: the exit face fails only for SF11; ray i leaves at the point of the exit face where it met it, with the exit-refracted, blocked slope turned back into the global frame, its wavelength and group, and stays stopped if stopped |
| PrismElement.Trace | raypy2d/elements/diffraction_prism.py:75-88 | under either reading: fails exactly when the entry face fails; the stored rays are the entry face's rays and the returned rays are the exit face applied to them, one to one in wavelength and group, stopped rays staying stopped |
| PrismElement.EntryRefracts | raypy2d/elements/diffraction_prism.py:68-78 | under either reading, a prism upright at o stores a ray of slope t whose BK7 index n is real and non-zero, meeting the face inside the aperture, at the point (o.x, y + t (o.x - x)) with slope t / n |
| PrismElement.TraceFails | raypy2d/elements/diffraction_prism.py:58-88 | the trace fails exactly when a ray has no wavelength and there are no defaults, or the glass is SF11, with the matching error |
| PrismElement.TraceRows | raypy2d/elements/diffraction_prism.py:75-88 | the stored and the returned batches both have \|b\| + (\|defaults\| - 1) · unset rows |
| Elements.Make | raypy2d/elements/aperture.py:23-24 | construction succeeds exactly when the aperture assertions hold (all kinds but the bare element) and a focal length is non-zero; the error is AssertionFailed or ZeroDivision |
| Elements.Mirroring | raypy2d/elements/diffraction_grating.py:30-32 | exactly the mirror and the parabolic mirror reflect; the grating and the prism clear the flag that `Mirror.__init__` sets |
| Elements.Matrix | raypy2d/elements/base.py:130 | [[1, 0], [c, d]] with c f = -1 for the lens and the parabolic mirror and c = 0 otherwise; d = -1 for the mirror, the grating and the prism, whose constructors run `Mirror.__init__`, and for the parabolic mirror, which negates it, and d = 1 otherwise |
| Elements.Block | raypy2d/elements/base.py:173-174 | only slopes change; the bare element changes nothing; every other kind stops a ray (NaN slope) exactly when its slope or height is NaN or its height lies outside [-D/2, D/2], and keeps the slope of every other ray |
| Elements.Intersection | raypy2d/elements/base.py:176-177 | only positions change, and only for the parabolic mirror: by the one-ray rule as written or the corrected one; the two agree on every ray not parallel to the axis |
| Elements.Transform | raypy2d/elements/base.py:157-164 | only the dispersive kinds can fail, exactly when their split fails or the prism's glass has no constants; the other kinds apply the matrix and the `forward` flip ray by ray, keeping x, group and wavelength; the grating's update follows the reading |
| Elements.InnerTrace | raypy2d/elements/base.py:145-155 | under either reading: fails exactly when the transform fails; every ray left with a real slope has passed inside the aperture; outside the dispersive kinds ray i stays at its surface point, at the matrix's height, with its group and wavelength, `forward` negated exactly when mirroring, and its slope is the matrix's slope, set to NaN exactly when that slope is NaN or, for every kind but the bare element, the height is NaN or outside [-D/2, D/2] |
| Elements.Trace | raypy2d/elements/base.py:166-171 | fails exactly when the inner trace fails, or the prism's entry face; ray i is ray i of the inner trace carried back to the global frame, `forward` unnormalised as written; the prism returns the rays of its own trace |
| Elements.Edges | raypy2d/elements/mirror.py:28-30 | two end points: for the mirror and the sensor, the aperture's edges reversed; for the parabolic mirror, its rim points; for every other kind, the aperture's edges |
| Elements.PlanarTraceAtPlane | raypy2d/elements/base.py:145-155 | under either reading, for every kind but the parabolic mirror each returned ray lies on the plane x = 0, the dispersive copies included |
| Elements.DispersiveTraceRows | raypy2d/elements/base.py:166-171 | under either reading, a dispersive trace adds \|defaults\| - 1 rows per ray without a wavelength |
| Elements.GratingTraceRows | raypy2d/elements/diffraction_grating.py:37-52 | the same count for the grating, under either reading |
| Elements.LensFocusesParallelRays | raypy2d/elements/lens.py:30-31 | under either reading, a lens on the axis sends a parallel ray at height h inside the aperture out at the same height with slope -h / f, through the focal point x = o.x + f |
| Elements.ParabolicReflectsOnSurface | raypy2d/elements/parabolic_mirror.py:40-61 | corrected for every ray, and as written for rays not parallel to the axis: a ray reaching the parabolic mirror inside the rim is reflected at a point of its surface, with a real slope, turned around |
| Elements.ReadingsAgreeOnSlopedRays | raypy2d/elements/base.py:145-155 | for every kind but the grating, the inner traces as written and corrected are equal when no ray is parallel to the axis |
| Elements.ParabolicParallelOffSurface | raypy2d/elements/parabolic_mirror.py:46-58 | as written, a parallel ray at a height y other than 0 inside the rim is reflected at X = -y² / (4 f), at its own height, off the mirror surface |
| ArrayElements.PointToObject | raypy2d/elements.py:22-41 | real points stay real; the rotation is always applied |
| ArrayElements.PointToGlobal | raypy2d/elements.py:43-62 | real points stay real |
| ArrayElements.PointRoundTrip | raypy/elements.py:21-41 | the two point transforms undo each other on real points |
| ArrayElements.AgreesWithPackageAtZero | raypy2d/elements.py:22-62 | where cos 0 = 1 and sin 0 = 0, at theta = 0 the older generations move real points as the raypy2d/elements package does |
| ArrayElements.NaNSpreadsAtZero | raypy2d/elements.py:38-39 | at theta = 0 a NaN x makes y NaN too, while the raypy2d/elements package keeps y |
| ArrayElements.RowToElement | raypy2d/elements.py:64-83 | the row keeps its length and every column from 3 on |
| ArrayElements.RowToGlobal | raypy2d/elements.py:85-94 | the row keeps its length and every column from 3 on |
| ArrayElements.ToElementTable | raypy/elements.py:44-53 | the array keeps its shape, and each row moves by itself |
| ArrayElements.ToGlobalTable | raypy/elements.py:55-64 | the array keeps its shape, and each row moves by itself |
| ArrayElements.RowRoundTrip | raypy2d/elements.py:64-94 | a real row with a non-zero denominator comes back from the element frame as it went in |
| ArrayElements.TableRoundTrip | raypy/elements.py:44-64 | the round trip for a whole array |
| ArrayElements.TransformRow | raypy2d/elements.py:130-135 | x and every column from 3 on stay |
| ArrayElements.TransformTable | raypy/elements.py:96-101 | the array keeps its shape, each row transformed by itself |
| ArrayElements.TransformRowReal | raypy2d/elements.py:133 | on real (y, tan_theta) the matrix product is exact, and nothing else changes |
| ArrayElements.TransformRowShear | raypy2d/elements.py:133 | a matrix [[1, 0], [c, 1]] keeps the height and adds c y to the slope |
| ArrayElements.NegateRow | raypy2d/elements.py:123-124 | only column 2 changes, negated exactly when mirroring |
| ArrayElements.BlockRow | raypy2d/elements.py:188-190 | only the slope can change, to NaN, exactly when it was NaN or a real height lies outside [-D/2, D/2]; a NaN height is never stopped |
| ArrayElements.HitRow | raypy2d/elements.py:328-329 | column 0 becomes -x and columns from 2 on stay; column 1 is real exactly when the height, the slope and x are, and then lies on the row's line Y = y + a X |
| ArrayElements.ParabolaRow | raypy2d/elements.py:318-332 | corrected: a parallel row at a real height y goes to X = y² / (4 f) on the parabola with its height kept; columns from 2 on stay |
| ArrayElements.ParabolaRowOnSurface | raypy2d/elements.py:318-332 | corrected, a real row whose line reaches the parabola lands on it and on its own line Y = y + a X |
| ArrayElements.SlopedParabolaRow | raypy2d/elements.py:322-329 | the sloped case: a real row whose line reaches the parabola lands on it and on its own line |
| ArrayElements.SlopedDepth | raypy2d/elements.py:322-323 | for such a row the corrected depth is a real x with (-x, y - a x) on the parabola |
| ArrayElements.ParabolaRowMisses | raypy2d/elements.py:323 | a sloped line that never reaches the parabola leaves the row with a NaN position |
| ArrayElements.ParabolaRowAsWritten | raypy2d/elements.py:318-332 | as written, it agrees with the corrected hit on every slope other than 0 |
| ArrayElements.ParabolaRowAsWrittenZeroSlope | raypy2d/elements.py:325-329 | as written, a parallel ray at a height other than 0 lands at X = -y² / (4 f), off the mirror |
| ArrayTracing.Make | raypy2d/elements.py:168-264 | construction succeeds exactly when the aperture assertions hold (all kinds but the bare element) and a focal length is non-zero, with AssertionFailed or ZeroDivision |
| ArrayTracing.Matrix | raypy/elements.py:242-325 | [[1, 0], [c, 1]]: c f = -1 for the lens, +1 for both parabolic mirrors, and the identity for the other kinds |
| ArrayTracing.IntersectRow | raypy2d/elements.py:148-149 | only the parabolic mirrors move the ray, the slope and later columns staying: as written by the single-file depth rule or the first generation's formula, corrected by the corrected hit |
| ArrayTracing.BlockRay | raypy2d/elements.py:188-190 | the bare element blocks nothing; otherwise the row is unchanged or loses its slope |
| ArrayTracing.Finish | raypy2d/elements.py:123-126 | after the transform only the slope changes |
| ArrayTracing.AfterHit | raypy2d/elements.py:121-126 | x and every column from 3 on stay |
| ArrayTracing.AtSurface | raypy2d/elements.py:119-126 | every column from 3 on stays; the planar kinds apply the matrix where the ray stands, the parabolic mirrors at the point of the reading's intersection |
| ArrayTracing.Transform | raypy2d/elements.py:384-406 | only the grating can fail, exactly when it must add a wavelength column and has no defaults; the other kinds transform each row by the matrix; the grating is the doubling split as written, the one-copy split corrected |
| ArrayTracing.Hit | raypy2d/elements.py:117-119 | each row is propagated to x = 0 and then moved to the surface of the reading |
| ArrayTracing.InnerTrace | raypy2d/elements.py:114-128 | fails only for the grating, as above; every other kind keeps the shape and traces each row by itself; the grating's rows are those of its transform, each possibly stopped |
| ArrayTracing.Trace | raypy2d/elements.py:137-143 | fails only as the inner trace does; outside the grating row i is row i traced in the element frame and carried back to the global frame |
| ArrayTracing.InnerTraceKeepsColumns | raypy/elements.py:80-94 | under either reading, non-grating kinds keep every column from 3 on, and the planar kinds leave each ray on x = 0 |
| ArrayTracing.GratingTraceRows | raypy2d/elements.py:384-406 | the grating keeps the rows of a five-column array; otherwise N input rows give N · 2^(\|defaults\| - 1) rows as written and \|defaults\| · N corrected |
| ArrayTracing.MirrorReflects | raypy/elements.py:89-92 | under either reading, a ray meeting the flat mirror inside its diameter keeps its height and leaves with the opposite slope |
| ArrayTracing.LensRefracts | raypy/elements.py:256-261 | under either reading, a ray through the lens aperture keeps its height and its slope drops by y / f |
| ArrayTracing.ParabolicReflects | raypy/elements.py:322-325 | for both parabolic mirrors, at its point on the surface a ray's slope becomes -(tan_theta + Y / f) |
| ArrayTracing.LegacyParabolicHitsSwappedLine | raypy/elements.py:327-332 | as written, the first generation's parabolic mirror reflects a ray whose square roots exist at a point of the parabola X = Y² / (4 f) that lies on X = y + a Y, not on the ray's own line |
| ArrayTracing.ParabolicParallelOffSurface | raypy2d/elements.py:325-329 | as written, the single-file parabolic mirror reflects a parallel ray at a height other than 0 at X = -y² / (4 f), off the mirror |
| ArrayTracing.ParabolicCorrectedOnSurface | raypy2d/elements.py:318-332 | corrected, both parabolic mirrors put a real ray whose line reaches the parabola on the parabola and on its own line Y = y + a X |
| FlatGrating.Pad | raypy2d/elements.py:386-397 | three or four columns become five, keeping the originals; column 4 holds the first default, and column 3 is 0 when it was added |
| FlatGrating.Relabel | raypy2d/elements.py:392-393 | each copy sets column 4 to the wavelength and is otherwise its source row |
| FlatGrating.Doubling | raypy2d/elements.py:391-402 | as written, each pass doubles the array: N · 2^k rows after k passes |
| FlatGrating.OneCopyEach | raypy2d/elements.py:391-394 | corrected: one block of N rows per wavelength |
| FlatGrating.OneCopyEachAt | raypy2d/elements.py:391-394 | row m of block j is source row m with wavelength ws[j] |
| FlatGrating.OneCopyEachIndex | raypy2d/elements.py:391-394 | every row of the split is some source row relabelled with some wavelength |
| FlatGrating.RelabelConcat | raypy2d/elements.py:392-393 | relabelling distributes over concatenation |
| FlatGrating.RelabelTwice | raypy2d/elements.py:392-393 | the second relabelling wins |
| FlatGrating.RelabelSame | raypy2d/elements.py:392-393 | relabelling rows with the wavelength they carry changes nothing |
| FlatGrating.DoublingRepeatsLast | raypy2d/elements.py:391-394 | as written, with two further wavelengths the last one gets two copies of the rows |
| FlatGrating.DoublingSnoc | raypy2d/elements.py:391-394 | as written, one more wavelength appends a relabelled copy of everything built so far |
| FlatGrating.DoublingOrigin | raypy2d/elements.py:391-394 | as written, every doubled row is a source row, as it is or with one of the wavelengths in column 4 |
| FlatGrating.OneCopyEachKeepsFirstBlock | raypy2d/elements.py:388-394 | corrected: the padded rows are the first wavelength's block, followed by one block for each further wavelength |
| FlatGrating.Angle | raypy2d/elements.py:404 | only the slope changes, and it is NaN when the slope or the wavelength is |
| FlatGrating.Angles | raypy2d/elements.py:404 | the update acts row by row |
| FlatGrating.AngleGratingEquation | raypy2d/elements.py:404 | the ray leaves with sin(out) = λ / d / 1000 - sin(in) whenever that value lies in (-1, 1): the grating equation with the opposite sign to the raypy2d/elements package's |
| FlatGrating.Transform | raypy2d/elements.py:384-406 | corrected: fails with IndexOutOfRange exactly when a column must be added and there are no defaults; gives five columns or keeps the width; the rows are the diffracted split, or the diffracted input |
| FlatGrating.TransformAsWritten | raypy2d/elements.py:384-406 | as written: fails with IndexOutOfRange exactly when a column must be added and there are no defaults; a five-column array is diffracted row by row; a narrower one is padded, doubled once per further default and diffracted, giving N · 2^(\|defaults\| - 1) rows |
| FlatGrating.TransformRows | raypy2d/elements.py:384-406 | corrected, \|defaults\| rows per input row, or the input count for a five-column array |
| FlatGrating.TransformSplitAt | raypy2d/elements.py:384-406 | corrected: row m of block j is input row m, padded, with wavelength defaults[j], diffracted |
| FlatGrating.DefaultListRows | raypy2d/elements.py:366-406 | with the default list, N three-column rows become 4 N as written and 3 N corrected |
| LegacyElements.Height | raypy/elements.py:328 | real exactly when both square roots exist: real a and y, f ≥ 0 and a² f + y ≥ 0 |
| LegacyElements.HitAsWritten | raypy/elements.py:327-332 | column 1 is the height, column 0 is NaN when the height is, and columns from 2 on stay |
| LegacyElements.HitAsWrittenOnParabola | raypy/elements.py:327-332 | as written, the point is on X = Y² / (4 f) whenever its height is real, and NaN otherwise |
| LegacyElements.HitAsWrittenSwapsLine | raypy/elements.py:327-332 | as written, the point lies on X = y + a Y, the ray's line with the coordinates swapped |
| LegacyElements.HitAsWrittenOffRayLine | raypy/elements.py:327-332 | with f = 1, the row (0, 1, 0), a parallel ray at height 1, becomes (1, 2, 0), off its own line Y = 1 |
| LegacyElements.HeightAtUnit | raypy/elements.py:328 | with f = 1, slope 0 and height 1, where √1 = 1, the height formula gives 2 |

## Left out

- `Utils.RollingWindow`: only a one-dimensional array is modelled; for rank d the source first moves axis 0 to the end, giving windows of shape (n - w + 1, ..., w), and nothing in the traced elements uses that case.
- Plotting (`plot` methods, `raypy2d/plotting.py`), `raypy2d/analysis.py`, `raypy2d/paths.py` and `raypy/paths.py`: drawing and path bookkeeping, outside the geometric core.
- `wavelength_to_rgb` in `raypy2d/utils.py`: a colour table for plotting, with floating-point powers.
- The numeric values of cos, sin, tan, arctan, arcsin and sqrt: they are parameters, and lemmas state the laws they need.
- Floating-point rounding and infinities: values are exact reals or NaN. A division by zero gives NaN, where float64 gives ±Inf unless it is 0/0.
- The `Rays` class of the raypy2d/elements package (`store`, `append`, the column views): it is not in `raypy2d/rays.py`, so it is not part of this model. Its columns are the fields of `RayData.Ray`, and `append` is sequence concatenation.
- NumPy aliasing and in-place updates: operations return new values. The one aliasing effect that changes a result, in `place_relative_to`, is modelled.
- `raypy/rays.py` and `raypy/utils.py` are not part of this model. The first generation is traced with the `propagate` and `rotation_matrix` of `raypy2d`.
- The `stop` argument that `raypy/elements.py:83` passes to `propagate`: the `raypy2d` propagate ignores it (`raypy2d/rays.py:20` is commented out), so no ray is invalidated for running the wrong way.
- `diffraction_angle_for` of the grating and the prism: a helper for users that the trace never calls. The prism's version reads attributes the prism does not have.
- `refractive_index` is modelled as the Sellmeier sum of one wavelength (`PrismElement.Index`), not vectorised over an array.
- The grating of `raypy/elements.py` (from line 373): the file ends inside `transform_rays`, so there is no complete operation to model.
- `ArrayTracing.Trace`: its contract does not state the result of a grating trace row by row. Under the corrected reading, `ArrayTracing.InnerTrace`, `ArrayTracing.GratingTraceRows` and `FlatGrating.TransformSplitAt` state the rows of the grating's transform, their count and each row's content. As written, `FlatGrating.TransformAsWritten`, `FlatGrating.DoublingSnoc` and `FlatGrating.DoublingOrigin` state the rows as the doubled split, their count and where each row comes from, but not row by row which wavelength it carries.
- `Elements.Trace`, `PrismElement.Pass`, `PrismElement.Leaving`: under the corrected reading the contracts do not give `forward` on the way back; `Frame.ToGlobal` and `Frame.RayToGlobalFixed` state it, the normalised half-plane flag, and nothing else differs from the code as written.

## Findings

| source | as written | input that shows it | evidently intended | confidence | as-written member | corrected member |
|---|---|---|---|---|---|---|
| raypy2d/utils.py:139-147 | `offset` is the reference element's own origin array, so `offset += diff` moves the reference element | any `distance` other than 0 | only the placed element moves | not executed | Utils.PlaceRelativeToMovesReference | Utils.PlaceRelativeToFixed |
| raypy2d/elements/parabolic_mirror.py:46-48 | a ray parallel to the axis gets x = +y²/(4f), which the code stores as X = -x | slope 0 at height y ≠ 0 | X = +y²/(4f), on the mirror | not executed | ParabolicMirrorElement.ZeroSlopeOffParabola | ParabolicMirrorElement.IntersectFixedOnParabola |
| raypy2d/elements/base.py:104-107 | the heading plus theta goes to the half-plane test without being normalised into [0, 360) | slope 0, forward ray, theta = -120 | backward, as for theta = +240 | not executed | Frame.GlobalForwardDependsOnTurns | Frame.GlobalForwardFixedPeriodic |
| raypy2d/elements/diffraction_grating.py:49-50 | the incidence sine is taken twice: sin(sin(arctan t)) | tan_theta = 1 at 532 nm with a 1 µm pitch | sin(out) = sin(in) - m λ / d | not executed | GratingElement.DoubleSineEquation | GratingElement.GratingEquation |
| raypy/elements.py:327-332 | the formula solves for the ray's line with x and y exchanged | f = 1, y = 1, slope 0 gives (1, 2) | the point where the line Y = y + a X meets the parabola | not executed | LegacyElements.HitAsWrittenOffRayLine | ArrayTracing.ParabolicCorrectedOnSurface |
| raypy2d/elements.py:391-402 | each pass stacks a copy of all rows so far, so the array doubles | the default list [532, 430, 650] on N rows gives 4 N rows, 2 N of them at 650 nm | one block of N rows per wavelength | not executed | FlatGrating.DoublingRepeatsLast | FlatGrating.TransformRows |
| raypy2d/elements.py:325-329 | the same parallel-ray branch as the raypy2d/elements package's | slope 0 at height y ≠ 0 | X = +y²/(4f) | not executed | ArrayElements.ParabolaRowAsWrittenZeroSlope | ArrayElements.ParabolaRowOnSurface |

=== FILE: algebra.dfy ===
/** Real-number facts the geometry proofs rest on.  Products are written through `Prod`
    where a proof has to cancel a common factor, so that each step is a single rewrite of
    one product. */
module Algebra {
  import opened Num

  function Prod(x: real, y: real): real { x * y }

  /** A product of non-zero numbers is non-zero. */
  lemma ProductNonZero(a: real, b: real)
    requires a != 0.0 && b != 0.0
    ensures Prod(a, b) != 0.0
  {
    assert a * b != 0.0;
  }

  /** A non-zero number has a non-zero square (stated through two factors, since the
      solver reads `a * a` as a power and then misses the unfolded `Prod`). */
  lemma SquareNonZero(a: real)
    requires a != 0.0
    ensures Prod(a, a) != 0.0
  {
    ProductNonZero(a, a);
  }

  /** A common non-zero factor cancels. */
  lemma CancelFactor(p: real, r: real, q: real)
    requires q != 0.0 && Prod(p, q) == Prod(r, q)
    ensures p == r
  {
    assert p * q == r * q;
  }

  /** A common non-zero square factor cancels. */
  lemma CancelSquare(p: real, r: real, a: real)
    requires a != 0.0 && Prod(p, a * a) == Prod(r, a * a)
    ensures p == r
  {
    assert Prod(Prod(p, a), a) == Prod(p, a * a);
    assert Prod(Prod(r, a), a) == Prod(r, a * a);
    CancelFactor(Prod(p, a), Prod(r, a), a);
    CancelFactor(p, r, a);
  }

  /** A float product of two reals, as a `Prod`. */
  lemma MulProd(a: real, b: real)
    ensures Mul(Real(a), Real(b)) == Real(Prod(a, b))
  {
  }
}

=== FILE: aperture.dfy ===
/** `Aperture` of raypy2d/elements/aperture.py: an element that invalidates every ray
    passing outside its diameter.  It is the base of every concrete element kind. */
module ApertureElement {
  import opened Num
  import opened RayData
  import opened Outcome

  /** The constructor's assertions: a non-negative diameter and a blocker strictly wider
      than the diameter (the default blocker, +Inf, is wider than any diameter). */
  function Check(diameter: real, blocker: Bound): (r: Result<()>)
    ensures r.Ok? <==> 0.0 <= diameter && (blocker.Finite? ==> diameter < blocker.v)
    ensures r.Err? ==> r.error == AssertionFailed
  {
    if !(diameter >= 0.0) then Err(AssertionFailed)
    else if !Exceeds(blocker, diameter) then Err(AssertionFailed)
    else Ok(())
  }

  /** `block` reads a NaN |y| as +Inf, so a ray is stopped when its height is NaN or lies
      more than half a diameter from the axis. */
  predicate Outside(y: Num, diameter: real) {
    var h := Abs(y);
    h.NaN? || h.r > diameter / 2.0
  }

  /** A stopped ray is marked by a NaN tan_theta. */
  function BlockRay(diameter: real, r: Ray): Ray {
    if Outside(r.y, diameter) then r.(tanTheta := NaN) else r
  }

  /** `Aperture.block`: a ray is invalidated exactly when its height is NaN or outside
      [-D/2, D/2]; every other column, every other ray and the row count stay. */
  function Block(diameter: real, b: Batch): (r: Batch)
    ensures |r| == |b|
    ensures forall i :: 0 <= i < |b| ==> r[i] == b[i].(tanTheta := r[i].tanTheta)
    ensures forall i :: 0 <= i < |b| ==>
      (r[i].tanTheta.NaN? <==>
        b[i].tanTheta.NaN? || b[i].y.NaN? || b[i].y.r < -diameter / 2.0 || diameter / 2.0 < b[i].y.r)
    ensures forall i :: 0 <= i < |b| && r[i].tanTheta.Real? ==> r[i].tanTheta == b[i].tanTheta
  {
    seq(|b|, i requires 0 <= i < |b| => BlockRay(diameter, b[i]))
  }

  /** Blocking twice is blocking once. */
  lemma BlockIdempotent(diameter: real, b: Batch)
    ensures Block(diameter, Block(diameter, b)) == Block(diameter, b)
  {
    var once := Block(diameter, b);
    var twice := Block(diameter, once);
    forall i | 0 <= i < |b|
      ensures twice[i] == once[i]
    {
      assert once[i].y == b[i].y;
    }
  }

  /** Rays inside the aperture pass untouched. */
  lemma BlockKeepsInside(diameter: real, b: Batch)
    requires forall i :: 0 <= i < |b| ==> b[i].y.Real? && -diameter / 2.0 <= b[i].y.r <= diameter / 2.0
    ensures Block(diameter, b) == b
  {
    var r := Block(diameter, b);
    forall i | 0 <= i < |b|
      ensures r[i] == b[i]
    {
      assert !Outside(b[i].y, diameter);
    }
  }

  /** A zero diameter stops every ray off the axis and lets every ray on it pass. */
  lemma BlockZeroDiameter(b: Batch)
    ensures forall i :: 0 <= i < |b| && b[i].y.Real? ==>
      (Block(0.0, b)[i].tanTheta.NaN? <==> b[i].y.r != 0.0 || b[i].tanTheta.NaN?)
  {
  }
}

=== FILE: array_elements.dfy ===
/** What the two older generations, raypy/elements.py and the single-file
    raypy2d/elements.py, share: elements acting on raw ray arrays whose columns 0, 1 and 2
    are x, y and tan_theta, a `RotateObject` that always rotates (there is no shortcut for
    theta = 0), and an aperture that compares |y| directly, so that a NaN height is never
    stopped. */
module ArrayElements {
  import opened Num
  import opened Linear
  import opened RayData
  import opened Transcendental
  import opened Utils
  import opened Algebra
  import Frame
  import ParabolicMirrorElement

  /** A ray array: rectangular, with at least the columns x, y and tan_theta. */
  predicate RayTable(t: Table) {
    Rectangular(t) && t.cols >= 3
  }

  /** `points_to_object_frame_of_reference`: subtract the origin, then rotate by -theta. */
  function PointToObject(trig: Trig, o: RotateObject, p: Point): (q: Point)
    ensures p.x.Real? && p.y.Real? ==> q.x.Real? && q.y.Real?
  {
    Frame.Rotate(RotationMatrix(trig, -o.theta), Frame.Translate(p, o.origin, -1.0))
  }

  /** `points_to_global_frame_of_reference`: rotate by theta, then add the origin. */
  function PointToGlobal(trig: Trig, o: RotateObject, p: Point): (q: Point)
    ensures p.x.Real? && p.y.Real? ==> q.x.Real? && q.y.Real?
  {
    Frame.Translate(Frame.Rotate(RotationMatrix(trig, o.theta), p), o.origin, 1.0)
  }

  /** The two point transforms undo each other on real points. */
  lemma PointRoundTrip(trig: Trig, o: RotateObject, p: Point)
    requires RotationLaws(trig, o.theta) && p.x.Real? && p.y.Real?
    ensures PointToGlobal(trig, o, PointToObject(trig, o, p)) == p
    ensures PointToObject(trig, o, PointToGlobal(trig, o, p)) == p
  {
    var x, y := p.x.r, p.y.r;
    Frame.RotateBack(trig, o.theta, x - o.origin.x, y - o.origin.y);
    Frame.RotateBack(trig, o.theta, x, y);
    var q := Frame.Rotate(RotationMatrix(trig, o.theta), p);
    assert q.x.Real? && q.y.Real?;
    assert Frame.Translate(Frame.Translate(q, o.origin, 1.0), o.origin, -1.0) == q;
  }

  /** Where cos 0 = 1 and sin 0 = 0 hold, the rotation the raypy2d/elements package skips changes nothing
      on a real point: both generations agree for theta = 0. */
  lemma AgreesWithPackageAtZero(trig: Trig, origin: Vec, p: Point)
    requires trig.cosDeg(0.0) == 1.0 && trig.sinDeg(0.0) == 0.0
    requires p.x.Real? && p.y.Real?
    ensures PointToObject(trig, RotateObject(origin, 0.0), p) == Frame.PointToObject(trig, RotateObject(origin, 0.0), p)
    ensures PointToGlobal(trig, RotateObject(origin, 0.0), p) == Frame.PointToGlobal(trig, RotateObject(origin, 0.0), p)
  {
    assert -0.0 == 0.0;
    assert RotationMatrix(trig, 0.0) == Identity;
    var d := Frame.Translate(p, origin, -1.0);
    Frame.RotateReal(Identity, d.x.r, d.y.r);
    Frame.RotateReal(Identity, p.x.r, p.y.r);
  }

  /** Unlike the raypy2d/elements package, which skips the rotation at theta = 0, a NaN x spoils y too:
      the rotation multiplies it by sin 0 = 0, and 0 * NaN is NaN. */
  lemma NaNSpreadsAtZero(trig: Trig, origin: Vec, y: real)
    ensures PointToObject(trig, RotateObject(origin, 0.0), Point(NaN, Real(y))).y.NaN?
    ensures Frame.PointToObject(trig, RotateObject(origin, 0.0), Point(NaN, Real(y))).y.Real?
  {
  }

  /** `to_element_frame_of_reference` on one row: the point moves, tan_theta follows the
      tangent-difference formula, every further column stays. */
  function RowToElement(trig: Trig, o: RotateObject, row: seq<Num>): (r: seq<Num>)
    requires |row| >= 3
    ensures |r| == |row| && r[3..] == row[3..]
  {
    var p := PointToObject(trig, o, Point(row[0], row[1]));
    row[0 := p.x][1 := p.y][2 := Frame.TanToLocal(trig.tanDeg(o.theta), row[2])]
  }

  /** `to_global_frame_of_reference` on one row: the tangent-sum formula. */
  function RowToGlobal(trig: Trig, o: RotateObject, row: seq<Num>): (r: seq<Num>)
    requires |row| >= 3
    ensures |r| == |row| && r[3..] == row[3..]
  {
    var p := PointToGlobal(trig, o, Point(row[0], row[1]));
    row[0 := p.x][1 := p.y][2 := Frame.TanToGlobal(trig.tanDeg(o.theta), row[2])]
  }

  function ToElementTable(trig: Trig, o: RotateObject, t: Table): (r: Table)
    requires RayTable(t)
    ensures RayTable(r) && r.cols == t.cols && |r.rows| == |t.rows|
    ensures forall i :: 0 <= i < |t.rows| ==> r.rows[i] == RowToElement(trig, o, t.rows[i])
  {
    Table(t.cols, seq(|t.rows|, i requires 0 <= i < |t.rows| => RowToElement(trig, o, t.rows[i])))
  }

  function ToGlobalTable(trig: Trig, o: RotateObject, t: Table): (r: Table)
    requires RayTable(t)
    ensures RayTable(r) && r.cols == t.cols && |r.rows| == |t.rows|
    ensures forall i :: 0 <= i < |t.rows| ==> r.rows[i] == RowToGlobal(trig, o, t.rows[i])
  {
    Table(t.cols, seq(|t.rows|, i requires 0 <= i < |t.rows| => RowToGlobal(trig, o, t.rows[i])))
  }

  /** A row with a real position and slope whose tangent-difference denominator is not 0
      comes back from the element frame as it went in. */
  lemma RowRoundTrip(trig: Trig, o: RotateObject, row: seq<Num>)
    requires |row| >= 3 && row[0].Real? && row[1].Real? && row[2].Real?
    requires RotationLaws(trig, o.theta)
    requires Frame.LocalDenominator(trig.tanDeg(o.theta), row[2].r) != 0.0
    ensures RowToGlobal(trig, o, RowToElement(trig, o, row)) == row
  {
    var p := Point(row[0], row[1]);
    PointRoundTrip(trig, o, p);
    Frame.TanRoundTrip(trig.tanDeg(o.theta), row[2].r);
    var local := RowToElement(trig, o, row);
    var back := RowToGlobal(trig, o, local);
    assert Point(local[0], local[1]) == PointToObject(trig, o, p);
    assert back[0] == row[0] && back[1] == row[1] && back[2] == row[2];
    assert back[3..] == row[3..];
    assert back == back[..3] + back[3..];
    assert row == row[..3] + row[3..];
  }

  /** The round trip on a whole array. */
  lemma TableRoundTrip(trig: Trig, o: RotateObject, t: Table)
    requires RayTable(t) && RotationLaws(trig, o.theta)
    requires forall i :: 0 <= i < |t.rows| ==>
      && t.rows[i][0].Real? && t.rows[i][1].Real? && t.rows[i][2].Real?
      && Frame.LocalDenominator(trig.tanDeg(o.theta), t.rows[i][2].r) != 0.0
    ensures ToGlobalTable(trig, o, ToElementTable(trig, o, t)) == t
  {
    var back := ToGlobalTable(trig, o, ToElementTable(trig, o, t));
    forall i | 0 <= i < |t.rows|
      ensures back.rows[i] == t.rows[i]
    {
      RowRoundTrip(trig, o, t.rows[i]);
    }
  }

  /** `transform_rays` on one row: (y, tan_theta) through the matrix. */
  function TransformRow(m: Mat2, row: seq<Num>): (r: seq<Num>)
    requires |row| >= 3
    ensures |r| == |row| && r[0] == row[0] && r[3..] == row[3..]
  {
    var za := Apply(m, Pair(row[1], row[2]));
    row[1 := za.u][2 := za.v]
  }

  function TransformTable(m: Mat2, t: Table): (r: Table)
    requires RayTable(t)
    ensures RayTable(r) && r.cols == t.cols && |r.rows| == |t.rows|
    ensures forall i :: 0 <= i < |t.rows| ==> r.rows[i] == TransformRow(m, t.rows[i])
  {
    Table(t.cols, seq(|t.rows|, i requires 0 <= i < |t.rows| => TransformRow(m, t.rows[i])))
  }

  /** On a row with real (y, tan_theta) the transform is the exact matrix product. */
  lemma TransformRowReal(m: Mat2, row: seq<Num>)
    requires |row| >= 3 && row[1].Real? && row[2].Real?
    ensures TransformRow(m, row)[1] == Real(m.a * row[1].r + m.b * row[2].r)
    ensures TransformRow(m, row)[2] == Real(m.c * row[1].r + m.d * row[2].r)
    ensures TransformRow(m, row) == row[1 := TransformRow(m, row)[1]][2 := TransformRow(m, row)[2]]
  {
    var u, v := row[1].r, row[2].r;
    assert Pair(row[1], row[2]) == Pair(Real(u), Real(v));
    ApplyReal(m, u, v);
    var za := Apply(m, Pair(row[1], row[2]));
    assert za.u == Real(m.a * u + m.b * v) && za.v == Real(m.c * u + m.d * v);
  }

  /** A matrix [[1, 0], [c, 1]] keeps the height and adds c y to the slope. */
  lemma TransformRowShear(m: Mat2, row: seq<Num>)
    requires m.a == 1.0 && m.b == 0.0 && m.d == 1.0
    requires |row| >= 3 && row[1].Real? && row[2].Real?
    ensures TransformRow(m, row)[2] == Real(m.c * row[1].r + row[2].r)
    ensures TransformRow(m, row) == row[2 := TransformRow(m, row)[2]]
  {
    TransformRowReal(m, row);
    var r := TransformRow(m, row);
    assert m.a * row[1].r + m.b * row[2].r == row[1].r;
    assert m.c * row[1].r + m.d * row[2].r == m.c * row[1].r + row[2].r;
    assert r[1] == row[1];
  }

  /** `rays[:, 2] = -rays[:, 2]` on one row, when the element mirrors. */
  function NegateRow(mirroring: bool, row: seq<Num>): (r: seq<Num>)
    requires |row| >= 3
    ensures r == row[2 := if mirroring then Neg(row[2]) else row[2]]
  {
    if mirroring then row[2 := Neg(row[2])] else row
  }

  /** `Aperture.block` of the older generations on one row: tan_theta becomes NaN where
      |y| > D / 2.  The comparison is false for a NaN height, so such a ray is not
      stopped; nothing else changes. */
  function BlockRow(diameter: real, row: seq<Num>): (r: seq<Num>)
    requires |row| >= 3
    ensures |r| == |row| && (r == row || r == row[2 := NaN])
    ensures r[2].NaN? <==>
      row[2].NaN? || (row[1].Real? && (row[1].r < -diameter / 2.0 || diameter / 2.0 < row[1].r))
    ensures row[1].NaN? ==> r == row
  {
    if Greater(Abs(row[1]), Real(diameter / 2.0)) then row[2 := NaN] else row
  }

  /** The point (X, Y) lies on the line Y = y + a X of a row with real height and slope. */
  predicate OnRowLine(row: seq<Num>, x: real, y: real)
    requires |row| >= 3 && row[1].Real? && row[2].Real?
  {
    y == row[1].r + row[2].r * x
  }

  /** The parabolic mirror's hit for a depth x, as the single-file generation writes it:
      the ray goes to (-x, y - a x), which lies on its own line Y = y + a X. */
  function HitRow(row: seq<Num>, x: Num): (r: seq<Num>)
    requires |row| >= 3
    ensures |r| == |row| && r[2..] == row[2..]
    ensures r[0] == Neg(x)
    ensures r[1].Real? <==> row[1].Real? && row[2].Real? && x.Real?
    ensures r[1].Real? ==> OnRowLine(row, r[0].r, r[1].r)
  {
    row[0 := Neg(x)][1 := Sub(row[1], Mul(row[2], x))]
  }

  /** The parabolic hit with the corrected depth rule: the parallel ray at height y
      goes to X = +y^2 / (4 f) on the parabola, its height kept; the rows' other columns
      stay. */
  function ParabolaRow(trig: Trig, f: real, row: seq<Num>): (r: seq<Num>)
    requires |row| >= 3
    ensures |r| == |row| && r[2..] == row[2..]
    ensures row[2] == Real(0.0) && row[1].Real? && f != 0.0 ==>
      && r[0] == Real(row[1].r * row[1].r / (4.0 * f)) && r[1] == row[1]
      && ParabolicMirrorElement.OnParabola(f, r[0].r, r[1].r)
  {
    HitRow(row, ParabolicMirrorElement.DepthFixed(trig, f, row[2], row[1]))
  }

  /** A real depth x puts a real row at (-x, y - a x). */
  lemma HitRowReal(row: seq<Num>, x: real)
    requires |row| >= 3 && row[1].Real? && row[2].Real?
    ensures HitRow(row, Real(x))[0] == Real(-x)
    ensures HitRow(row, Real(x))[1] == Real(row[1].r - row[2].r * x)
  {
    assert Mul(row[2], Real(x)) == Real(row[2].r * x);
  }

  /** A row with a real height and slope whose line reaches the parabola lands on the
      parabola and on its own line. */
  lemma ParabolaRowOnSurface(trig: Trig, f: real, row: seq<Num>)
    requires f != 0.0 && |row| >= 3 && row[1].Real? && row[2].Real?
    requires row[2].r != 0.0 ==>
      && ParabolicMirrorElement.Discriminant(f, row[2].r, row[1].r) >= 0.0
      && RootLaw(trig, ParabolicMirrorElement.Discriminant(f, row[2].r, row[1].r))
    ensures ParabolaRow(trig, f, row)[0].Real? && ParabolaRow(trig, f, row)[1].Real?
    ensures ParabolicMirrorElement.OnParabola(f, ParabolaRow(trig, f, row)[0].r, ParabolaRow(trig, f, row)[1].r)
    ensures ParabolaRow(trig, f, row)[1].r == row[1].r + row[2].r * ParabolaRow(trig, f, row)[0].r
  {
    if row[2].r != 0.0 {
      SlopedParabolaRow(trig, f, row);
    }
  }

  /** The sloped case: the corrected depth is the root, and HitRow puts the ray at
      (-x, y - a x). */
  lemma SlopedParabolaRow(trig: Trig, f: real, row: seq<Num>)
    requires f != 0.0 && |row| >= 3 && row[1].Real? && row[2].Real? && row[2].r != 0.0
    requires ParabolicMirrorElement.Discriminant(f, row[2].r, row[1].r) >= 0.0
    requires RootLaw(trig, ParabolicMirrorElement.Discriminant(f, row[2].r, row[1].r))
    ensures ParabolaRow(trig, f, row)[0].Real? && ParabolaRow(trig, f, row)[1].Real?
    ensures ParabolicMirrorElement.OnParabola(f, ParabolaRow(trig, f, row)[0].r, ParabolaRow(trig, f, row)[1].r)
    ensures ParabolaRow(trig, f, row)[1].r == row[1].r + row[2].r * ParabolaRow(trig, f, row)[0].r
  {
    var x := SlopedDepth(trig, f, row);
    HitRowReal(row, x);
    assert ParabolaRow(trig, f, row) == HitRow(row, Real(x));
    assert row[1].r - row[2].r * x == row[1].r + row[2].r * -x;
  }

  /** The corrected depth of a sloped row whose line reaches the parabola is the real root,
      which puts the ray on the parabola at (-x, y - a x). */
  lemma SlopedDepth(trig: Trig, f: real, row: seq<Num>) returns (x: real)
    requires f != 0.0 && |row| >= 3 && row[1].Real? && row[2].Real? && row[2].r != 0.0
    requires ParabolicMirrorElement.Discriminant(f, row[2].r, row[1].r) >= 0.0
    requires RootLaw(trig, ParabolicMirrorElement.Discriminant(f, row[2].r, row[1].r))
    ensures ParabolicMirrorElement.DepthFixed(trig, f, row[2], row[1]) == Real(x)
    ensures ParabolicMirrorElement.OnParabola(f, -x, row[1].r - row[2].r * x)
  {
    var d := ParabolicMirrorElement.DepthFixed(trig, f, row[2], row[1]);
    assert d == ParabolicMirrorElement.RootDepth(trig, f, row[2], row[1]);
    x := d.r;
  }

  /** Conversely a sloped line that never reaches the parabola (negative discriminant)
      leaves the ray with a NaN position. */
  lemma ParabolaRowMisses(trig: Trig, f: real, row: seq<Num>)
    requires |row| >= 3 && row[1].Real? && row[2].Real? && row[2].r != 0.0
    requires ParabolicMirrorElement.Discriminant(f, row[2].r, row[1].r) < 0.0
    ensures ParabolaRow(trig, f, row)[0].NaN? && ParabolaRow(trig, f, row)[1].NaN?
  {
    var a, y := row[2].r, row[1].r;
    assert Mul(row[2], row[1]) == Real(a * y);
    assert Mul(Real(f), Sub(Real(f), Real(a * y))) == Real(ParabolicMirrorElement.Discriminant(f, a, y));
  }

  /** `ParabolicMirror.intersection_of` of the single-file generation as written: the
      same depth rule as the raypy2d/elements package, parallel-ray branch included; it differs from the
      corrected hit on parallel rays only. */
  function ParabolaRowAsWritten(trig: Trig, f: real, row: seq<Num>): (r: seq<Num>)
    requires |row| >= 3
    ensures |r| == |row| && r[2..] == row[2..]
    ensures !Same(row[2], Real(0.0)) ==> r == ParabolaRow(trig, f, row)
  {
    HitRow(row, ParabolicMirrorElement.Depth(trig, f, row[2], row[1]))
  }

  /** As written, a ray parallel to the axis at a height y other than 0 is put at
      X = -y^2 / (4 f), on the mirror image of the parabola and off the mirror. */
  lemma ParabolaRowAsWrittenZeroSlope(trig: Trig, f: real, row: seq<Num>)
    requires f != 0.0 && |row| >= 3 && row[1].Real? && row[1].r != 0.0 && row[2] == Real(0.0)
    ensures ParabolaRowAsWritten(trig, f, row)[0] == Real(-(row[1].r * row[1].r / (4.0 * f)))
    ensures ParabolaRowAsWritten(trig, f, row)[1] == row[1]
    ensures !ParabolicMirrorElement.OnParabola(f, ParabolaRowAsWritten(trig, f, row)[0].r, row[1].r)
  {
    var y := row[1].r;
    var x := y * y / (4.0 * f);
    assert Mul(row[1], row[1]) == Real(y * y);
    assert ParabolicMirrorElement.Depth(trig, f, row[2], row[1]) == Real(x);
    assert Mul(row[2], Real(x)) == Real(0.0);
    ParabolicMirrorElement.MirrorImageOffParabola(f, y);
  }
}

=== FILE: array_tracing.dfy ===
/** The element tracing of the two older generations, raypy/elements.py and the single-file
    raypy2d/elements.py, on raw ray arrays: `Element`, `Aperture`, `Mirror`, `Lens`, the
    `ParabolicMirror` of each generation and, in the single-file generation only,
    `DiffractionGrating`.  The mirror keeps the identity matrix and owes its reflection to
    the sign flip of tan_theta; the lens runs `Aperture.__init__` and so does not mirror;
    both parabolic mirrors negate the lens matrix's entry [1, 0] and differ in
    `intersection_of`; the grating runs `Mirror.__init__` and then switches mirroring off
    again.  Every trace takes a reading: the code as written, or corrected. */
module ArrayTracing {
  import opened Num
  import opened Linear
  import opened RayData
  import opened Outcome
  import opened Transcendental
  import opened Rays
  import opened ArrayElements
  import ApertureElement
  import LensElement
  import FlatGrating
  import LegacyElements
  import ParabolicMirrorElement
  import opened Algebra
  import opened Readings

  datatype Kind =
    | Plain              // Element
    | Aperture           // Aperture
    | Mirror             // Mirror
    | Lens(f: real)      // Lens
    | Parabolic(f: real) // ParabolicMirror, single-file generation
    | LegacyParabolic(f: real)  // ParabolicMirror, raypy/elements.py
    | Grating(pitch: real, defaults: seq<real>)  // DiffractionGrating, single-file generation

  /** `diameter` and `blocker` are ignored for `Plain`, which has neither. */
  datatype Element = Element(frame: RotateObject, diameter: real, blocker: Bound, kind: Kind)

  /** The two parabolic mirrors. */
  predicate Parabola(k: Kind) {
    k.Parabolic? || k.LegacyParabolic?
  }

  predicate Focal(k: Kind) {
    k.Lens? || Parabola(k)
  }

  predicate Valid(e: Element) {
    && (e.kind.Plain? || ApertureElement.Check(e.diameter, e.blocker).Ok?)
    && (Focal(e.kind) ==> e.kind.f != 0.0)
  }

  /** The constructors: the aperture assertions first (every kind but the bare element),
      then the lens matrix's 1 / f.  The grating's pitch is not checked: a zero pitch
      only makes its slopes NaN. */
  function Make(kind: Kind, diameter: real, frame: RotateObject, blocker: Bound): (r: Result<Element>)
    ensures r.Ok? <==>
      && (kind.Plain? || (0.0 <= diameter && (blocker.Finite? ==> diameter < blocker.v)))
      && (Focal(kind) ==> kind.f != 0.0)
    ensures r.Ok? ==> Valid(r.value) && r.value == Element(frame, diameter, blocker, kind)
    ensures r.Err? && !kind.Plain? && ApertureElement.Check(diameter, blocker).Err? ==>
      r.error == AssertionFailed
    ensures r.Err? && ApertureElement.Check(diameter, blocker).Ok? ==> r.error == ZeroDivision
  {
    var _ :- if kind.Plain? then Ok(()) else ApertureElement.Check(diameter, blocker);
    var _ :- if Focal(kind) then LensElement.Matrix(kind.f) else Ok(Identity);
    Ok(Element(frame, diameter, blocker, kind))
  }

  /** `self.mirroring`: set by `Mirror.__init__` and by `ParabolicMirror.__init__`, and
      cleared again by `DiffractionGrating.__init__`. */
  predicate Mirroring(k: Kind) {
    k.Mirror? || Parabola(k)
  }

  /** `self.matrix`: the lens matrix [[1, 0], [-1/f, 1]], that matrix with entry [1, 0]
      negated for the parabolic mirror, the identity otherwise. */
  function Matrix(e: Element): (m: Mat2)
    requires Valid(e)
    ensures m.a == 1.0 && m.b == 0.0 && m.d == 1.0
    ensures e.kind.Lens? ==> m.c * e.kind.f == -1.0
    ensures Parabola(e.kind) ==> m.c * e.kind.f == 1.0
    ensures !Focal(e.kind) ==> m == Identity
  {
    if e.kind.Lens? then LensElement.Matrix(e.kind.f).value
    else if Parabola(e.kind) then
      var m := LensElement.Matrix(e.kind.f).value;
      m.(c := -m.c)
    else Identity
  }

  /** `intersection_of` on one row: the single-file parabolic mirror's depth rule, as
      written or corrected; the first generation's formula as written, or the corrected
      hit in its place; the other kinds leave the position alone. */
  function IntersectRow(trig: Trig, v: Reading, e: Element, row: seq<Num>): (r: seq<Num>)
    requires |row| >= 3
    ensures |r| == |row| && r[2..] == row[2..]
    ensures !Parabola(e.kind) ==> r == row
    ensures e.kind.Parabolic? && v.AsWritten? ==> r == ParabolaRowAsWritten(trig, e.kind.f, row)
    ensures e.kind.LegacyParabolic? && v.AsWritten? ==> r == LegacyElements.HitAsWritten(trig, e.kind.f, row)
    ensures Parabola(e.kind) && v.Corrected? ==> r == ParabolaRow(trig, e.kind.f, row)
  {
    if !Parabola(e.kind) then row
    else if v.Corrected? then ParabolaRow(trig, e.kind.f, row)
    else if e.kind.Parabolic? then ParabolaRowAsWritten(trig, e.kind.f, row)
    else LegacyElements.HitAsWritten(trig, e.kind.f, row)
  }

  /** `block`: the aperture kinds stop rays outside the diameter, the bare element none. */
  function BlockRay(e: Element, row: seq<Num>): (r: seq<Num>)
    requires |row| >= 3
    ensures |r| == |row| && (r == row || r == row[2 := NaN])
    ensures e.kind.Plain? ==> r == row
  {
    if e.kind.Plain? then row else BlockRow(e.diameter, row)
  }

  /** The steps after `transform_rays`: flip tan_theta when mirroring, then block. */
  function Finish(e: Element, row: seq<Num>): (r: seq<Num>)
    requires |row| >= 3
    ensures |r| == |row| && r == row[2 := r[2]]
  {
    BlockRay(e, NegateRow(Mirroring(e.kind), row))
  }

  /** The steps after the move to the surface, for a kind that applies its matrix. */
  function AfterHit(e: Element, h: seq<Num>): (r: seq<Num>)
    requires Valid(e) && |h| >= 3
    ensures |r| == |h| && r[0] == h[0] && r[3..] == h[3..]
  {
    var m := TransformRow(Matrix(e), h);
    var r := Finish(e, m);
    assert r[3..] == m[3..];
    r
  }

  /** Everything after the propagation, on one row of a kind that applies its matrix:
      the move to the surface, then the steps after it. */
  function AtSurface(trig: Trig, v: Reading, e: Element, row: seq<Num>): (r: seq<Num>)
    requires Valid(e) && |row| >= 3
    ensures |r| == |row| && r[3..] == row[3..]
    ensures r[0] == IntersectRow(trig, v, e, row)[0]
    ensures !Parabola(e.kind) ==> r == AfterHit(e, row)
    ensures Parabola(e.kind) ==> r == AfterHit(e, IntersectRow(trig, v, e, row))
  {
    var h := IntersectRow(trig, v, e, row);
    assert h[3..] == row[3..];
    AfterHit(e, h)
  }

  /** `transform_rays`: the matrix on (y, tan_theta), or the grating's own update, with
      the doubling split as written or the one-copy-per-wavelength split corrected. */
  function Transform(trig: Trig, v: Reading, e: Element, t: Table): (r: Result<Table>)
    requires Valid(e) && RayTable(t)
    ensures r.Err? <==> e.kind.Grating? && t.cols < 5 && |e.kind.defaults| == 0
    ensures r.Ok? ==> RayTable(r.value)
    ensures !e.kind.Grating? ==> r == Ok(TransformTable(Matrix(e), t))
    ensures e.kind.Grating? && v.AsWritten? ==>
      r == FlatGrating.TransformAsWritten(trig, e.kind.pitch, e.kind.defaults, t)
    ensures e.kind.Grating? && v.Corrected? ==>
      r == FlatGrating.Transform(trig, e.kind.pitch, e.kind.defaults, t)
  {
    if !e.kind.Grating? then Ok(TransformTable(Matrix(e), t))
    else if v.AsWritten? then FlatGrating.TransformAsWritten(trig, e.kind.pitch, e.kind.defaults, t)
    else FlatGrating.Transform(trig, e.kind.pitch, e.kind.defaults, t)
  }

  /** The array after the propagation to the plane x = 0 and the move to the surface. */
  function Hit(trig: Trig, v: Reading, e: Element, t: Table): (r: Table)
    requires RayTable(t)
    ensures RayTable(r) && r.cols == t.cols && |r.rows| == |t.rows|
    ensures forall i :: 0 <= i < |t.rows| ==>
      r.rows[i] == IntersectRow(trig, v, e, PropagateTable(t, 0.0, 1).rows[i])
  {
    var p := PropagateTable(t, 0.0, 1);
    Table(t.cols, seq(|t.rows|, i requires 0 <= i < |t.rows| => IntersectRow(trig, v, e, p.rows[i])))
  }

  /** `trace_in_element_frame_of_reference`: propagate to the plane x = 0, move to the
      surface, transform, flip tan_theta when mirroring, block.  Only the grating can
      fail, and only the grating changes the shape of the array: its rows are those of
      its own transform, each only possibly stopped by the aperture. */
  function InnerTrace(trig: Trig, v: Reading, e: Element, t: Table): (r: Result<Table>)
    requires Valid(e) && RayTable(t)
    ensures r.Err? <==> e.kind.Grating? && t.cols < 5 && |e.kind.defaults| == 0
    ensures r.Ok? ==> RayTable(r.value)
    ensures !e.kind.Grating? ==> r.Ok? && r.value.cols == t.cols && |r.value.rows| == |t.rows|
    ensures !e.kind.Grating? ==> forall i :: 0 <= i < |t.rows| ==>
      r.value.rows[i] == AtSurface(trig, v, e, PropagateTable(t, 0.0, 1).rows[i])
    ensures e.kind.Grating? && r.Ok? ==>
      var g := Transform(trig, v, e, Hit(trig, v, e, t)).value;
      && r.value.cols == g.cols && |r.value.rows| == |g.rows|
      && forall i :: 0 <= i < |g.rows| ==> r.value.rows[i] == BlockRay(e, g.rows[i])
  {
    var h := Hit(trig, v, e, t);
    var m :- Transform(trig, v, e, h);
    Ok(Table(m.cols, seq(|m.rows|, i requires 0 <= i < |m.rows| => Finish(e, m.rows[i]))))
  }

  /** `Element.trace`: into the element frame, through the element, back out; outside the
      grating row i of the result is row i of the inner trace turned back into the global
      frame. */
  function Trace(trig: Trig, v: Reading, e: Element, t: Table): (r: Result<Table>)
    requires Valid(e) && RayTable(t)
    ensures r.Err? <==> e.kind.Grating? && t.cols < 5 && |e.kind.defaults| == 0
    ensures r.Ok? ==> RayTable(r.value)
    ensures !e.kind.Grating? ==> r.Ok? && r.value.cols == t.cols && |r.value.rows| == |t.rows|
    ensures !e.kind.Grating? ==> forall i :: 0 <= i < |t.rows| ==>
      var local := ToElementTable(trig, e.frame, t);
      r.value.rows[i] == RowToGlobal(trig, e.frame, AtSurface(trig, v, e, PropagateTable(local, 0.0, 1).rows[i]))
  {
    var local := ToElementTable(trig, e.frame, t);
    var inner := InnerTrace(trig, v, e, local);
    if inner.Ok? then Ok(ToGlobalTable(trig, e.frame, inner.value)) else inner
  }

  /** Every kind but the grating keeps the columns from 3 on, and the planar kinds leave
      every ray on the plane x = 0 of the element frame. */
  lemma InnerTraceKeepsColumns(trig: Trig, v: Reading, e: Element, t: Table)
    requires Valid(e) && RayTable(t) && !e.kind.Grating?
    ensures forall i :: 0 <= i < |t.rows| ==> InnerTrace(trig, v, e, t).value.rows[i][3..] == t.rows[i][3..]
    ensures !Parabola(e.kind) ==> forall i :: 0 <= i < |t.rows| ==>
      InnerTrace(trig, v, e, t).value.rows[i][0] == Real(0.0)
  {
    var p := PropagateTable(t, 0.0, 1);
    forall i | 0 <= i < |t.rows|
      ensures InnerTrace(trig, v, e, t).value.rows[i][3..] == t.rows[i][3..]
      ensures !Parabola(e.kind) ==> InnerTrace(trig, v, e, t).value.rows[i][0] == Real(0.0)
    {
      assert p.rows[i][3..] == t.rows[i][3..];
      assert p.rows[i][0] == Real(0.0);
    }
  }

  /** With a wavelength column already present the grating keeps the rows.  Without, as
      written the doubling loop gives N 2^(|defaults| - 1) rows for N input rows, and
      corrected one row per default wavelength and input row. */
  lemma GratingTraceRows(trig: Trig, v: Reading, e: Element, t: Table)
    requires Valid(e) && RayTable(t) && e.kind.Grating? && Trace(trig, v, e, t).Ok?
    ensures t.cols >= 5 ==> |Trace(trig, v, e, t).value.rows| == |t.rows|
    ensures t.cols < 5 && v.AsWritten? ==>
      |Trace(trig, v, e, t).value.rows| == |t.rows| * FlatGrating.Pow2(|e.kind.defaults| - 1)
    ensures t.cols < 5 && v.Corrected? ==>
      |Trace(trig, v, e, t).value.rows| == |e.kind.defaults| * |t.rows|
  {
    var local := ToElementTable(trig, e.frame, t);
    var h := Hit(trig, v, e, local);
    var g := Transform(trig, v, e, h);
    assert InnerTrace(trig, v, e, local).Ok? && |InnerTrace(trig, v, e, local).value.rows| == |g.value.rows|;
    if v.Corrected? {
      FlatGrating.TransformRows(trig, e.kind.pitch, e.kind.defaults, h);
    }
  }

  /** A ray inside the diameter with a real slope is not blocked. */
  lemma FinishInside(e: Element, n: seq<Num>)
    requires Valid(e) && !e.kind.Plain? && |n| >= 3 && n[1].Real? && n[2].Real?
    requires -e.diameter / 2.0 <= n[1].r <= e.diameter / 2.0
    ensures Finish(e, n) == NegateRow(Mirroring(e.kind), n)
  {
    var g := NegateRow(Mirroring(e.kind), n);
    assert g[1] == n[1] && g[2].Real?;
  }

  /** The flat mirror: a ray meeting it inside the diameter keeps its height and leaves
      with the opposite slope. */
  lemma MirrorReflects(trig: Trig, v: Reading, e: Element, row: seq<Num>)
    requires Valid(e) && e.kind.Mirror? && |row| >= 3 && row[1].Real? && row[2].Real?
    requires -e.diameter / 2.0 <= row[1].r <= e.diameter / 2.0
    ensures AtSurface(trig, v, e, row)[2] == Real(-row[2].r)
    ensures AtSurface(trig, v, e, row) == row[2 := AtSurface(trig, v, e, row)[2]]
  {
    TransformRowShear(Identity, row);
    assert 0.0 * row[1].r + row[2].r == row[2].r;
  }

  /** The lens: a ray through the aperture keeps its height, and its slope drops by y / f. */
  lemma LensRefracts(trig: Trig, v: Reading, e: Element, row: seq<Num>)
    requires Valid(e) && e.kind.Lens? && |row| >= 3 && row[1].Real? && row[2].Real?
    requires -e.diameter / 2.0 <= row[1].r <= e.diameter / 2.0
    ensures AtSurface(trig, v, e, row)[2] == Real(row[2].r - row[1].r / e.kind.f)
    ensures AtSurface(trig, v, e, row) == row[2 := AtSurface(trig, v, e, row)[2]]
  {
    var f, m := e.kind.f, Matrix(e);
    var y, t := row[1].r, row[2].r;
    TransformRowShear(m, row);
    assert m.c * y == -(y / f) by {
      assert m == LensElement.Matrix(f).value;
      assert m.c == -1.0 / f;
    }
    var n := TransformRow(m, row);
    assert n[2] == Real(t - y / f);
    FinishInside(e, n);
    assert AtSurface(trig, v, e, row) == n;
  }

  /** Both parabolic mirrors: at the point h where the ray meets the surface its slope
      becomes -(tan_theta + Y / f), the reflection law of the concave mirror that the
      package's own parabolic mirror obeys with its different matrix. */
  lemma ParabolicReflects(e: Element, h: seq<Num>)
    requires Valid(e) && Parabola(e.kind) && |h| >= 3 && h[1].Real? && h[2].Real?
    requires -e.diameter / 2.0 <= h[1].r <= e.diameter / 2.0
    ensures AfterHit(e, h)[2] == Real(-(h[2].r + h[1].r / e.kind.f))
    ensures AfterHit(e, h) == h[2 := AfterHit(e, h)[2]]
  {
    var f, m := e.kind.f, Matrix(e);
    TransformRowShear(m, h);
    assert m.c * h[1].r == h[1].r / f by {
      assert m.c == 1.0 / f;
    }
  }

  /** The first generation's parabolic mirror as written: a ray with real height y and
      slope a whose square roots exist is reflected at a point of the parabola
      X = Y^2 / (4 f), but of the line X = y + a Y, its own line with the coordinates
      exchanged. */
  lemma LegacyParabolicHitsSwappedLine(trig: Trig, e: Element, row: seq<Num>)
    requires Valid(e) && e.kind.LegacyParabolic? && e.kind.f > 0.0
    requires |row| >= 3 && row[1].Real? && row[2].Real?
    requires Prod(Prod(row[2].r, row[2].r), e.kind.f) + row[1].r >= 0.0
    requires RootLaw(trig, e.kind.f) && RootLaw(trig, Prod(Prod(row[2].r, row[2].r), e.kind.f) + row[1].r)
    ensures var r := AtSurface(trig, AsWritten, e, row);
      && r[0].Real? && r[1].Real?
      && ParabolicMirrorElement.OnParabola(e.kind.f, r[0].r, r[1].r)
      && r[0].r == row[1].r + row[2].r * r[1].r
  {
    var f := e.kind.f;
    var h := LegacyElements.HitAsWritten(trig, f, row);
    LegacyElements.HitAsWrittenSwapsLine(trig, f, row);
    LegacyElements.HitAsWrittenOnParabola(trig, f, row);
    assert h[2] == row[2];
    TransformRowShear(Matrix(e), h);
    var r := AtSurface(trig, AsWritten, e, row);
    assert r[1] == h[1];
  }

  /** The single-file parabolic mirror as written: a ray parallel to the axis at a height
      y other than 0 is reflected at X = -y^2 / (4 f), off the mirror. */
  lemma ParabolicParallelOffSurface(trig: Trig, e: Element, row: seq<Num>)
    requires Valid(e) && e.kind.Parabolic?
    requires |row| >= 3 && row[1].Real? && row[1].r != 0.0 && row[2] == Real(0.0)
    ensures var r := AtSurface(trig, AsWritten, e, row);
      && r[0] == Real(-(row[1].r * row[1].r / (4.0 * e.kind.f)))
      && !ParabolicMirrorElement.OnParabola(e.kind.f, r[0].r, row[1].r)
  {
    ParabolaRowAsWrittenZeroSlope(trig, e.kind.f, row);
  }

  /** Corrected, both parabolic mirrors put a ray whose line reaches the parabola on the
      parabola and on its own line Y = y + a X. */
  lemma ParabolicCorrectedOnSurface(trig: Trig, e: Element, row: seq<Num>)
    requires Valid(e) && Parabola(e.kind) && |row| >= 3 && row[1].Real? && row[2].Real?
    requires row[2].r != 0.0 ==>
      && ParabolicMirrorElement.Discriminant(e.kind.f, row[2].r, row[1].r) >= 0.0
      && RootLaw(trig, ParabolicMirrorElement.Discriminant(e.kind.f, row[2].r, row[1].r))
    ensures var h := IntersectRow(trig, Corrected, e, row);
      && h[0].Real? && h[1].Real?
      && ParabolicMirrorElement.OnParabola(e.kind.f, h[0].r, h[1].r)
      && h[1].r == row[1].r + row[2].r * h[0].r
  {
    ParabolaRowOnSurface(trig, e.kind.f, row);
  }
}

=== FILE: base.dfy ===
/** The generic optical element of raypy2d/elements/base.py: a frame, an aperture width,
    an ABCD matrix acting on the column pair (y, tan_theta), and whether the element
    reflects.  The per-kind overrides live in their own modules; the trace that strings
    them together is in `Elements`. */
module ElementBase {
  import opened Num
  import opened Linear
  import opened RayData
  import opened Transcendental
  import opened Frame

  /** `transform_rays` on one ray: (y, tan_theta) through the matrix as a NumPy product,
      `forward` negated when the element reflects. */
  function TransformRay(m: Mat2, mirroring: bool, r: Ray): Ray {
    var za := Apply(m, Pair(r.y, r.tanTheta));
    r.(y := za.u, tanTheta := za.v, forward := if mirroring then Neg(r.forward) else r.forward)
  }

  /** `transform_rays`: x, group and wavelength are never touched, and the row count
      stays. */
  function TransformRays(m: Mat2, mirroring: bool, b: Batch): (r: Batch)
    ensures |r| == |b|
    ensures forall i :: 0 <= i < |b| ==>
      && r[i].x == b[i].x && r[i].group == b[i].group && r[i].wavelength == b[i].wavelength
    ensures forall i :: 0 <= i < |b| ==> r[i] == TransformRay(m, mirroring, b[i])
  {
    seq(|b|, i requires 0 <= i < |b| => TransformRay(m, mirroring, b[i]))
  }

  /** On real (y, tan_theta) the transform is the exact matrix product. */
  lemma TransformRayReal(m: Mat2, mirroring: bool, r: Ray)
    requires r.y.Real? && r.tanTheta.Real?
    ensures TransformRay(m, mirroring, r).y == Real(m.a * r.y.r + m.b * r.tanTheta.r)
    ensures TransformRay(m, mirroring, r).tanTheta == Real(m.c * r.y.r + m.d * r.tanTheta.r)
  {
    ApplyReal(m, r.y.r, r.tanTheta.r);
  }

  /** The identity matrix without reflection leaves every ray with real (y, tan_theta)
      exactly as it was. */
  lemma TransformIdentity(b: Batch)
    requires forall i :: 0 <= i < |b| ==> b[i].y.Real? && b[i].tanTheta.Real?
    ensures TransformRays(Identity, false, b) == b
  {
    var r := TransformRays(Identity, false, b);
    forall i | 0 <= i < |b|
      ensures r[i] == b[i]
    {
      TransformRayReal(Identity, false, b[i]);
    }
  }

  /** `points[::-1, :]` on a two-row array. */
  function Swap(ps: seq<Point>): (qs: seq<Point>)
    requires |ps| == 2
    ensures |qs| == 2 && qs[0] == ps[1] && qs[1] == ps[0]
  {
    [ps[1], ps[0]]
  }

  /** The local end points of `Element.edges`: (0, -a/2) then (0, a/2), swapped when
      flipped. */
  function LocalEdges(aperture: real, flipped: bool): (ps: seq<Point>)
    ensures |ps| == 2
  {
    var ends := [Point(Real(0.0), Real(-aperture / 2.0)), Point(Real(0.0), Real(aperture / 2.0))];
    if flipped then Swap(ends) else ends
  }

  /** `Element.edges`: the end points of the aperture in the global frame. */
  function Edges(trig: Trig, o: RotateObject, aperture: real, flipped: bool): (e: seq<Point>)
    ensures |e| == 2
  {
    PointsToGlobal(trig, o, LocalEdges(aperture, flipped))
  }

  /** Read back in the element frame the edges lie on the local y axis, half an
      aperture either side of the origin, the negative one first unless flipped. */
  lemma EdgesInElementFrame(trig: Trig, o: RotateObject, aperture: real, flipped: bool)
    requires o.theta == 0.0 || RotationLaws(trig, o.theta)
    ensures var local := PointsToObject(trig, o, Edges(trig, o, aperture, flipped));
      && local[0] == Point(Real(0.0), Real(if flipped then aperture / 2.0 else -aperture / 2.0))
      && local[1] == Point(Real(0.0), Real(if flipped then -aperture / 2.0 else aperture / 2.0))
  {
    var ends := LocalEdges(aperture, flipped);
    PointRoundTrip(trig, o, ends[0]);
    PointRoundTrip(trig, o, ends[1]);
  }

  /** Swapping commutes with moving to the global frame, which acts point by point. */
  lemma SwapToGlobal(trig: Trig, o: RotateObject, ps: seq<Point>)
    requires |ps| == 2
    ensures Swap(PointsToGlobal(trig, o, ps)) == PointsToGlobal(trig, o, Swap(ps))
  {
  }
}

=== FILE: diffraction_grating.dfy ===
/** `DiffractionGrating` of raypy2d/elements/diffraction_grating.py: a transmission grating
    of pitch `grating` micrometres used in diffraction order `interference`.  It replaces
    the matrix step by the wavelength split followed by the grating equation on every
    ray. */
module GratingElement {
  import opened Num
  import opened RayData
  import opened Outcome
  import opened Transcendental
  import opened Wavelengths
  import opened Readings

  /** The grating does not reflect: `forward` is never touched. */
  const Mirroring: bool := false

  /** The grating term m lambda / d, with lambda converted from nanometres to
      micrometres; it is NaN for a NaN wavelength or a zero pitch (float64 gives an
      infinity there, and the arcsine below turns it into NaN anyway). */
  function Shift(grating: real, interference: real, wavelength: Num): Num {
    Div(Div(Mul(Real(interference), wavelength), Real(grating)), Real(1000.0))
  }

  /** The new slope for a given sine of the incidence angle: tan(arcsin(sine - shift)). */
  function Outgoing(trig: Trig, sine: Num, shift: Num): Num {
    Lift(trig.tan, Asin(trig, Sub(sine, shift)))
  }

  /** The sine of the incidence angle as the code computes it: sin applied twice to
      arctan(tan_theta). */
  function DoubleSine(trig: Trig, t: Num): Num {
    Lift(trig.sin, Lift(trig.sin, Lift(trig.atan, t)))
  }

  /** The sine of the incidence angle: sin(arctan(tan_theta)). */
  function IncidenceSine(trig: Trig, t: Num): Num {
    Lift(trig.sin, Lift(trig.atan, t))
  }

  /** The angle update of `transform_rays`, as written. */
  function Diffract(trig: Trig, grating: real, interference: real, r: Ray): (d: Ray)
    ensures d == r.(tanTheta := d.tanTheta)
    ensures r.tanTheta.NaN? || r.wavelength.NaN? ==> d.tanTheta.NaN?
  {
    r.(tanTheta := Outgoing(trig, DoubleSine(trig, r.tanTheta), Shift(grating, interference, r.wavelength)))
  }

  /** The angle update as the grating equation has it, with a single sine. */
  function DiffractFixed(trig: Trig, grating: real, interference: real, r: Ray): (d: Ray)
    ensures d == r.(tanTheta := d.tanTheta)
    ensures r.tanTheta.NaN? || r.wavelength.NaN? ==> d.tanTheta.NaN?
  {
    r.(tanTheta := Outgoing(trig, IncidenceSine(trig, r.tanTheta), Shift(grating, interference, r.wavelength)))
  }

  /** On a real wavelength and a non-zero pitch the shift is the real m lambda / d / 1000. */
  lemma ShiftReal(grating: real, interference: real, w: real)
    requires grating != 0.0
    ensures Shift(grating, interference, Real(w)) == Real(interference * w / grating / 1000.0)
  {
    assert Mul(Real(interference), Real(w)) == Real(interference * w);
  }

  /** The arcsine and arctangent undo the sine and tangent at the one value used. */
  predicate InverseLaws(trig: Trig, v: real) {
    trig.sin(trig.asin(v)) == v && trig.atan(trig.tan(trig.asin(v))) == trig.asin(v)
  }

  /** Corrected, the ray leaves at the angle the grating equation gives:
      sin(out) = sin(in) - m lambda / d, whenever that sine is strictly inside (-1, 1). */
  lemma GratingEquation(trig: Trig, grating: real, interference: real, r: Ray)
    requires r.tanTheta.Real? && r.wavelength.Real? && grating != 0.0
    requires var v := trig.sin(trig.atan(r.tanTheta.r)) - interference * r.wavelength.r / grating / 1000.0;
      -1.0 < v < 1.0 && InverseLaws(trig, v)
    ensures var d := DiffractFixed(trig, grating, interference, r);
      && d.tanTheta.Real?
      && trig.sin(trig.atan(d.tanTheta.r))
         == trig.sin(trig.atan(r.tanTheta.r)) - interference * r.wavelength.r / grating / 1000.0
  {
    ShiftReal(grating, interference, r.wavelength.r);
    var sine := trig.sin(trig.atan(r.tanTheta.r));
    var sh := interference * r.wavelength.r / grating / 1000.0;
    assert IncidenceSine(trig, r.tanTheta) == Real(sine);
    assert Shift(grating, interference, r.wavelength) == Real(sh);
    assert Sub(Real(sine), Real(sh)) == Real(sine - sh);
    assert Asin(trig, Real(sine - sh)) == Real(trig.asin(sine - sh));
    var d := DiffractFixed(trig, grating, interference, r);
    assert d.tanTheta == Real(trig.tan(trig.asin(sine - sh)));
  }

  /** As written, the outgoing sine is off by sin(s) - s, where s is the true incidence
      sine: the code obeys sin(out) = sin(s) - m lambda / d instead. */
  lemma DoubleSineEquation(trig: Trig, grating: real, interference: real, r: Ray)
    requires r.tanTheta.Real? && r.wavelength.Real? && grating != 0.0
    requires var s := trig.sin(trig.atan(r.tanTheta.r));
      var v := trig.sin(s) - interference * r.wavelength.r / grating / 1000.0;
      -1.0 < v < 1.0 && InverseLaws(trig, v)
    ensures var d := Diffract(trig, grating, interference, r);
      var s := trig.sin(trig.atan(r.tanTheta.r));
      && d.tanTheta.Real?
      && trig.sin(trig.atan(d.tanTheta.r)) - s
         == (trig.sin(s) - s) - interference * r.wavelength.r / grating / 1000.0
  {
    ShiftReal(grating, interference, r.wavelength.r);
    var sine := trig.sin(trig.sin(trig.atan(r.tanTheta.r)));
    var sh := interference * r.wavelength.r / grating / 1000.0;
    assert DoubleSine(trig, r.tanTheta) == Real(sine);
    assert Shift(grating, interference, r.wavelength) == Real(sh);
    assert Sub(Real(sine), Real(sh)) == Real(sine - sh);
    assert Asin(trig, Real(sine - sh)) == Real(trig.asin(sine - sh));
    var d := Diffract(trig, grating, interference, r);
    assert d.tanTheta == Real(trig.tan(trig.asin(sine - sh)));
  }

  /** The ray at 45 degrees in the test's set-up (pitch 1 um, order 1, 532 nm): since the
      sine of a positive angle is below the angle, the double sine makes the outgoing sine
      fall short of the grating equation's value. */
  lemma DoubleSineAtFortyFive(trig: Trig, r: Ray)
    requires r.tanTheta == Real(1.0) && r.wavelength == Real(532.0)
    requires var s := trig.sin(trig.atan(1.0));
      && 0.0 < s && trig.sin(s) < s
      && -1.0 < trig.sin(s) - 0.532 < 1.0 && InverseLaws(trig, trig.sin(s) - 0.532)
    ensures var d := Diffract(trig, 1.0, 1.0, r);
      d.tanTheta.Real? && trig.sin(trig.atan(d.tanTheta.r)) < trig.sin(trig.atan(1.0)) - 0.532
  {
    DoubleSineEquation(trig, 1.0, 1.0, r);
  }

  /** A shift that pushes the sine out of [-1, 1] has no real order: the ray is stopped. */
  lemma EvanescentOrderStopped(trig: Trig, grating: real, interference: real, r: Ray)
    requires r.tanTheta.Real? && r.wavelength.Real? && grating != 0.0
    requires var v := trig.sin(trig.atan(r.tanTheta.r)) - interference * r.wavelength.r / grating / 1000.0;
      v < -1.0 || 1.0 < v
    ensures DiffractFixed(trig, grating, interference, r).tanTheta.NaN?
  {
    ShiftReal(grating, interference, r.wavelength.r);
    var sine := trig.sin(trig.atan(r.tanTheta.r));
    var sh := interference * r.wavelength.r / grating / 1000.0;
    assert IncidenceSine(trig, r.tanTheta) == Real(sine);
    assert Shift(grating, interference, r.wavelength) == Real(sh);
    assert Sub(Real(sine), Real(sh)) == Real(sine - sh);
  }

  /** The angle update under a reading: the double sine as written, the single sine
      corrected.  Both move only tan_theta. */
  function Update(trig: Trig, v: Reading, grating: real, interference: real, r: Ray): (d: Ray)
    ensures d == r.(tanTheta := d.tanTheta)
    ensures v.AsWritten? ==> d == Diffract(trig, grating, interference, r)
    ensures v.Corrected? ==> d == DiffractFixed(trig, grating, interference, r)
  {
    if v.AsWritten? then Diffract(trig, grating, interference, r)
    else DiffractFixed(trig, grating, interference, r)
  }

  /** `transform_rays`: the split, then the angle update on every row; the split's
      IndexError for an empty default list is the only failure. */
  function Transform(trig: Trig, v: Reading, grating: real, interference: real, defaults: seq<real>, b: Batch)
    : (r: Result<Batch>)
    ensures r.Err? <==> Split(b, defaults).Err?
    ensures r.Err? ==> r.error == IndexOutOfRange
    ensures r.Ok? ==> |r.value| == |Split(b, defaults).value|
    ensures r.Ok? ==> forall i :: 0 <= i < |r.value| ==>
      r.value[i] == Update(trig, v, grating, interference, Split(b, defaults).value[i])
  {
    var s :- Split(b, defaults);
    Ok(seq(|s|, i requires 0 <= i < |s| => Update(trig, v, grating, interference, s[i])))
  }

  /** The grating moves no ray: every row keeps the position, direction flag and group of
      the ray it was split from, and every row carries a wavelength. */
  lemma TransformKeepsRays(trig: Trig, v: Reading, grating: real, interference: real, defaults: seq<real>, b: Batch)
    requires Transform(trig, v, grating, interference, defaults, b).Ok?
    ensures var r := Transform(trig, v, grating, interference, defaults, b).value;
      var s := Split(b, defaults).value;
      forall i :: 0 <= i < |r| ==>
        && r[i] == s[i].(tanTheta := r[i].tanTheta)
        && r[i].wavelength.Real?
  {
    SplitComplete(b, defaults);
  }

  /** Rays already carrying a wavelength are diffracted in place, with the double sine as
      written and the single sine corrected, and nothing is added. */
  lemma TransformNoSplit(trig: Trig, v: Reading, grating: real, interference: real, defaults: seq<real>, b: Batch)
    requires forall i :: 0 <= i < |b| ==> !Unset(b[i])
    ensures var r := Transform(trig, v, grating, interference, defaults, b);
      && r.Ok? && |r.value| == |b|
      && (v.AsWritten? ==> forall i :: 0 <= i < |b| ==> r.value[i] == Diffract(trig, grating, interference, b[i]))
      && (v.Corrected? ==> forall i :: 0 <= i < |b| ==> r.value[i] == DiffractFixed(trig, grating, interference, b[i]))
  {
  }
}

=== FILE: diffraction_prism.dfy ===
/** `DiffractionPrism` of raypy2d/elements/diffraction_prism.py: an equilateral glass
    prism of side `diameter`.  The entry face is the element itself; the exit face is a
    second aperture turned by 60 degrees.  Rays are refracted in the paraxial way, dividing
    tan_theta by the refractive index on entry and multiplying by it on exit, with the
    index taken from the Sellmeier formula of the glass. */
module PrismElement {
  import opened Num
  import opened RayData
  import opened Outcome
  import opened Transcendental
  import opened Algebra
  import opened Frame
  import opened Rays
  import opened ApertureElement
  import opened Wavelengths
  import opened Readings

  datatype Glass = BK7 | SF11

  /** The three Sellmeier terms b_k lambda^2 / (lambda^2 - c_k), lambda in micrometres. */
  datatype Sellmeier = Sellmeier(b1: real, b2: real, b3: real, c1: real, c2: real, c3: real)

  /** The class's constant table, which lists BK7 only: looking up SF11 is a KeyError. */
  function Constants(glass: Glass): (r: Result<Sellmeier>)
    ensures r.Err? <==> glass == SF11
    ensures r.Err? ==> r.error == MissingKey
  {
    match glass
    case BK7 => Ok(Sellmeier(1.03961212, 0.231792344, 1.01046945, 0.00600069867, 0.0200179144, 103.560653))
    case SF11 => Err(MissingKey)
  }

  /** The squared wavelength in micrometres, from nanometres. */
  function W2(wavelength: real): real {
    (wavelength * 0.001) * (wavelength * 0.001)
  }

  /** A squared wavelength at which one of the three terms divides by zero. */
  predicate AtPole(k: Sellmeier, w2: real) {
    w2 == k.c1 || w2 == k.c2 || w2 == k.c3
  }

  /** One Sellmeier term, b w2 / (w2 - c). */
  function Share(b: real, c: real, w2: real): real
    requires w2 != c
  {
    b * w2 / (w2 - c)
  }

  /** The Sellmeier formula for n^2: 1 + sum of b_k w2 / (w2 - c_k). */
  function SellmeierSquare(k: Sellmeier, w2: real): real
    requires !AtPole(k, w2)
  {
    1.0 + Share(k.b1, k.c1, w2) + Share(k.b2, k.c2, w2) + Share(k.b3, k.c3, w2)
  }

  /** One term as the code computes it: NaN for a NaN w2 or at the pole. */
  function Term(b: real, c: real, w2: Num): (t: Num)
    ensures t.Real? <==> w2.Real? && w2.r != c
    ensures t.Real? ==> t.r == Share(b, c, w2.r)
  {
    Div(Mul(Real(b), w2), Sub(w2, Real(c)))
  }

  /** n is the non-negative square root of v. */
  predicate SquareRoot(n: real, v: real) {
    n >= 0.0 && n * n == v
  }

  /** `refractive_index` for one wavelength in nanometres:
      sqrt(1 + sum_k b_k w2 / (w2 - c_k)) with w2 = (lambda / 1000)^2; NaN for a NaN
      wavelength, at a pole of the formula, or where the sum is below -1. */
  function Index(trig: Trig, k: Sellmeier, wavelength: Num): (n: Num)
    ensures n.Real? <==>
      wavelength.Real? && !AtPole(k, W2(wavelength.r)) && SellmeierSquare(k, W2(wavelength.r)) >= 0.0
    ensures n.Real? ==> n == Real(trig.sqrt(SellmeierSquare(k, W2(wavelength.r))))
    ensures n.Real? && RootLaw(trig, SellmeierSquare(k, W2(wavelength.r))) ==>
      SquareRoot(n.r, SellmeierSquare(k, W2(wavelength.r)))
  {
    var w := Mul(wavelength, Real(0.001));
    var w2 := Mul(w, w);
    var sum := Add(Add(Term(k.b1, k.c1, w2), Term(k.b2, k.c2, w2)), Term(k.b3, k.c3, w2));
    assert wavelength.Real? ==> w2 == Real(W2(wavelength.r));
    assert sum.Real? <==> wavelength.Real? && !AtPole(k, W2(wavelength.r));
    assert sum.Real? ==> sum.r + 1.0 == SellmeierSquare(k, W2(wavelength.r));
    Sqrt(trig, Add(sum, Real(1.0)))
  }

  /** The refraction at one face: tan_theta / n on the way in, tan_theta n on the way out;
      nothing else about the ray changes. */
  function Refract(trig: Trig, k: Sellmeier, out: bool, r: Ray): (d: Ray)
    ensures d == r.(tanTheta := d.tanTheta)
    ensures var n := Index(trig, k, r.wavelength);
      n.Real? && n.r != 0.0 && r.tanTheta.Real? ==>
        d.tanTheta == Real(if out then n.r * r.tanTheta.r else r.tanTheta.r / n.r)
    ensures r.tanTheta.NaN? || r.wavelength.NaN? ==> d.tanTheta.NaN?
  {
    var n := Index(trig, k, r.wavelength);
    assert n.Real? && n.r != 0.0 && r.tanTheta.Real? ==> 1.0 / n.r * r.tanTheta.r == r.tanTheta.r / n.r;
    r.(tanTheta := if out then Mul(n, r.tanTheta) else Mul(Div(Real(1.0), n), r.tanTheta))
  }

  /** `transform_rays(rays, out)`: the wavelength split, then the index lookup (which
      fails for SF11 even on an empty batch), then the refraction of every row. */
  function Transform(trig: Trig, glass: Glass, defaults: seq<real>, out: bool, b: Batch): (r: Result<Batch>)
    ensures r.Err? <==> Split(b, defaults).Err? || glass == SF11
    ensures Split(b, defaults).Err? ==> r == Err(IndexOutOfRange)
    ensures Split(b, defaults).Ok? && glass == SF11 ==> r == Err(MissingKey)
    ensures r.Ok? ==> |r.value| == |Split(b, defaults).value|
    ensures r.Ok? ==> forall i :: 0 <= i < |r.value| ==>
      r.value[i] == Refract(trig, Constants(glass).value, out, Split(b, defaults).value[i])
  {
    var s :- Split(b, defaults);
    var k :- Constants(glass);
    Ok(seq(|s|, i requires 0 <= i < |s| => Refract(trig, k, out, s[i])))
  }

  /** On one ray, leaving the glass undoes entering it when the index is a non-zero
      real. */
  lemma RefractRoundTrip(trig: Trig, k: Sellmeier, r: Ray)
    requires r.tanTheta.Real?
    requires Index(trig, k, r.wavelength).Real? && Index(trig, k, r.wavelength).r != 0.0
    ensures Refract(trig, k, true, Refract(trig, k, false, r)) == r
  {
    var n := Index(trig, k, r.wavelength).r;
    var t := r.tanTheta.r;
    var inner := Refract(trig, k, false, r);
    assert inner.tanTheta == Real(t / n) && inner.wavelength == r.wavelength;
    assert Refract(trig, k, true, inner).tanTheta == Mul(Real(n), Real(t / n));
    MulProd(n, t / n);
    assert Prod(n, t / n) == t;
    assert Refract(trig, k, true, inner).tanTheta == Real(t);
    assert Refract(trig, k, true, inner) == inner.(tanTheta := Real(t));
    assert inner.(tanTheta := Real(t)) == r;
  }

  /** A batch whose rays all carry a wavelength with a non-zero real index, and a real
      slope, comes out of the exit refraction as it went into the entry refraction. */
  lemma TransformRoundTrip(trig: Trig, defaults: seq<real>, b: Batch)
    requires forall i :: 0 <= i < |b| ==> !Unset(b[i]) && b[i].tanTheta.Real?
    requires forall i :: 0 <= i < |b| ==>
      Index(trig, Constants(BK7).value, b[i].wavelength).Real? &&
      Index(trig, Constants(BK7).value, b[i].wavelength).r != 0.0
    ensures Transform(trig, BK7, defaults, false, b).Ok?
    ensures Transform(trig, BK7, defaults, true, Transform(trig, BK7, defaults, false, b).value) == Ok(b)
  {
    var k := Constants(BK7).value;
    assert Split(b, defaults) == Ok(b);
    var inside := Transform(trig, BK7, defaults, false, b).value;
    assert |inside| == |b|;
    assert forall i :: 0 <= i < |b| ==> inside[i] == Refract(trig, k, false, b[i]);
    assert forall i :: 0 <= i < |inside| ==> !Unset(inside[i]);
    assert Split(inside, defaults) == Ok(inside);
    var back := Transform(trig, BK7, defaults, true, inside).value;
    forall i | 0 <= i < |b|
      ensures back[i] == b[i]
    {
      RefractRoundTrip(trig, k, b[i]);
    }
    assert back == b;
  }

  /** With rays still to be split: the entry refraction copies each such ray once per
      default wavelength, and the exit refraction gives back exactly those copies,
      without splitting again. */
  lemma {:induction false} TransformSplitRoundTrip(trig: Trig, defaults: seq<real>, b: Batch)
    requires Split(b, defaults).Ok?
    requires var s := Split(b, defaults).value;
      forall i :: 0 <= i < |s| ==> s[i].tanTheta.Real?
    requires var s := Split(b, defaults).value;
      forall i :: 0 <= i < |s| ==>
        Index(trig, Constants(BK7).value, s[i].wavelength).Real? &&
        Index(trig, Constants(BK7).value, s[i].wavelength).r != 0.0
    ensures Transform(trig, BK7, defaults, false, b).Ok?
    ensures Transform(trig, BK7, defaults, true, Transform(trig, BK7, defaults, false, b).value) ==
      Split(b, defaults)
  {
    var k := Constants(BK7).value;
    var s := Split(b, defaults).value;
    SplitComplete(b, defaults);
    var inside := Transform(trig, BK7, defaults, false, b).value;
    assert |inside| == |s|;
    assert forall i :: 0 <= i < |inside| ==> inside[i] == Refract(trig, k, false, s[i]);
    assert forall i :: 0 <= i < |inside| ==> !Unset(inside[i]);
    assert Split(inside, defaults) == Ok(inside);
    var back := Transform(trig, BK7, defaults, true, inside).value;
    forall i | 0 <= i < |s|
      ensures back[i] == s[i]
    {
      RefractRoundTrip(trig, k, s[i]);
    }
    assert |back| == |s|;
    assert back == s;
  }

  /** The exit face:an aperture of the same width, centred at (sqrt(3) a / 4, a / 4) of
      the prism frame and turned by a further 60 degrees. */
  function SecondInterface(trig: Trig, o: RotateObject, diameter: real): (s: RotateObject)
    ensures s.theta == o.theta + 60.0
    ensures o.theta == 0.0 ==>
      s.origin == Vec(o.origin.x + trig.sqrt(3.0) * diameter / 4.0, o.origin.y + diameter / 4.0)
  {
    var p := PointToGlobal(trig, o, Point(Real(trig.sqrt(3.0) * diameter / 4.0), Real(diameter / 4.0)));
    RotateObject(Vec(p.x.r, p.y.r), o.theta + 60.0)
  }

  /** Rotations keep lengths. */
  lemma RotationKeepsLength(c: real, s: real, x: real, y: real)
    requires c * c + s * s == 1.0
    ensures (c * x - s * y) * (c * x - s * y) + (s * x + c * y) * (s * x + c * y) == x * x + y * y
  {
    assert (c * x - s * y) * (c * x - s * y) + (s * x + c * y) * (s * x + c * y)
        == Prod(c * c + s * s, x * x + y * y);
  }

  /** The exit face's centre lies half a side from the entry face's centre, as the
      midpoints of two sides of an equilateral triangle of side a do. */
  lemma FacesHalfASideApart(trig: Trig, o: RotateObject, diameter: real)
    requires RootLaw(trig, 3.0)
    requires o.theta == 0.0 || RotationLaws(trig, o.theta)
    ensures var s := SecondInterface(trig, o, diameter);
      var dx, dy := s.origin.x - o.origin.x, s.origin.y - o.origin.y;
      dx * dx + dy * dy == diameter * diameter / 4.0
  {
    var x, y := trig.sqrt(3.0) * diameter / 4.0, diameter / 4.0;
    assert x * x + y * y == diameter * diameter / 4.0 by {
      assert x * x == Prod(trig.sqrt(3.0), trig.sqrt(3.0)) * diameter * diameter / 16.0;
    }
    if o.theta != 0.0 {
      var c, sn := trig.cosDeg(o.theta), trig.sinDeg(o.theta);
      RotateReal(Utils.RotationMatrix(trig, o.theta), x, y);
      RotationKeepsLength(c, sn, x, y);
    }
  }

  /** What `trace` hands back: the rays stored after the entry face, and the rays leaving
      the exit face, both in the global frame. */
  datatype PrismTrace = PrismTrace(stored: Batch, rays: Batch)

  /** The rays of a batch taken into the frame of a face and to its plane x = 0. */
  function AtFace(trig: Trig, face: RotateObject, b: Batch): (r: Batch)
    ensures |r| == |b|
    ensures forall i :: 0 <= i < |b| ==> r[i].x == Real(0.0) && r[i].wavelength == b[i].wavelength
  {
    Propagate(ToElementFrame(trig, face, b), 0.0)
  }

  /** One face of the prism, the entry face (`out` false) or the exit face: to the face's
      plane, the split and the refraction, the face's aperture, back to the global frame.
      Every ray comes out at the point of the face where it met it, with the refracted
      slope turned back into the global frame, or NaN where the aperture stopped it. */
  function Pass(trig: Trig, v: Reading, face: RotateObject, diameter: real, glass: Glass,
                defaults: seq<real>, out: bool, b: Batch): (r: Result<Batch>)
    ensures r.Err? <==> Split(b, defaults).Err? || glass == SF11
    ensures Split(b, defaults).Err? ==> r == Err(IndexOutOfRange)
    ensures Split(b, defaults).Ok? && glass == SF11 ==> r == Err(MissingKey)
    ensures r.Ok? ==> |r.value| == |Split(AtFace(trig, face, b), defaults).value|
    ensures r.Ok? ==> forall i :: 0 <= i < |r.value| ==>
      var s := Split(AtFace(trig, face, b), defaults).value;
      var m := ApertureElement.BlockRay(diameter, Refract(trig, Constants(glass).value, out, s[i]));
      && r.value[i].Points() == PointToGlobal(trig, face, Point(Real(0.0), s[i].y))
      && r.value[i].tanTheta == TanToGlobal(trig.tanDeg(face.theta), m.tanTheta)
      && r.value[i].group == s[i].group && r.value[i].wavelength == s[i].wavelength
      && !Unset(r.value[i])
      && (v.AsWritten? ==> r.value[i].forward == HalfPlane(Add(Heading(trig, m), Real(face.theta))))
  {
    var first := AtFace(trig, face, b);
    UnsetIndicesByWavelength(first, b);
    var s :- Split(first, defaults);
    var k :- Constants(glass);
    SplitComplete(first, defaults);
    SplitAtPlane(first, defaults);
    Ok(Leaving(trig, v, face, diameter, k, out, s))
  }

  /** The split of rays on a plane x = 0 stays on it. */
  lemma SplitAtPlane(b: Batch, defaults: seq<real>)
    requires Split(b, defaults).Ok?
    requires forall i :: 0 <= i < |b| ==> b[i].x == Real(0.0)
    ensures forall i :: 0 <= i < |Split(b, defaults).value| ==> Split(b, defaults).value[i].x == Real(0.0)
  {
    var s := Split(b, defaults).value;
    SplitOrigin(b, defaults);
    forall i | 0 <= i < |s|
      ensures s[i].x == Real(0.0)
    {
      var k :| 0 <= k < |b| && s[i] == b[k].(wavelength := s[i].wavelength);
    }
  }

  /** The rays of a face's plane after the split: refracted, blocked by the face's
      aperture, carried back to the global frame. */
  function Leaving(trig: Trig, v: Reading, face: RotateObject, diameter: real, k: Sellmeier, out: bool,
                   s: Batch): (r: Batch)
    requires forall i :: 0 <= i < |s| ==> s[i].x == Real(0.0) && !Unset(s[i])
    ensures |r| == |s|
    ensures forall i :: 0 <= i < |s| ==>
      var m := ApertureElement.BlockRay(diameter, Refract(trig, k, out, s[i]));
      && r[i].Points() == PointToGlobal(trig, face, Point(Real(0.0), s[i].y))
      && r[i].tanTheta == TanToGlobal(trig.tanDeg(face.theta), m.tanTheta)
      && r[i].group == s[i].group && r[i].wavelength == s[i].wavelength
      && !Unset(r[i])
      && (v.AsWritten? ==> r[i].forward == HalfPlane(Add(Heading(trig, m), Real(face.theta))))
  {
    var blocked := seq(|s|, i requires 0 <= i < |s| => ApertureElement.BlockRay(diameter, Refract(trig, k, out, s[i])));
    var r := ToGlobal(trig, v, face, blocked);
    forall i | 0 <= i < |s|
      ensures r[i].Points() == PointToGlobal(trig, face, Point(Real(0.0), s[i].y))
      ensures r[i].tanTheta == TanToGlobal(trig.tanDeg(face.theta), blocked[i].tanTheta)
      ensures r[i].group == s[i].group && r[i].wavelength == s[i].wavelength
      ensures !Unset(r[i])
    {
      assert blocked[i].Points() == Point(Real(0.0), s[i].y);
      assert r[i].Points() == ToGlobalFrame(trig, face, blocked)[i].Points();
      assert !Unset(s[i]) && r[i].wavelength == s[i].wavelength;
    }
    r
  }

  /** The entry face: the prism frame, the entry refraction and the prism's aperture
      (`trace_in_element_frame_of_reference`, which for this flat face does not move the
      rays off the plane), back to the global frame.  The rays come out as the split made
      them, every one with a wavelength, each at the point of the face where it entered. */
  function Enter(trig: Trig, v: Reading, o: RotateObject, diameter: real, glass: Glass, defaults: seq<real>,
                 b: Batch): (r: Result<Batch>)
    ensures r.Err? <==> Split(b, defaults).Err? || glass == SF11
    ensures Split(b, defaults).Err? ==> r == Err(IndexOutOfRange)
    ensures Split(b, defaults).Ok? && glass == SF11 ==> r == Err(MissingKey)
    ensures r.Ok? ==> |r.value| == |Split(b, defaults).value|
    ensures r.Ok? ==> forall i :: 0 <= i < |r.value| ==> !Unset(r.value[i])
    ensures r.Ok? ==> |r.value| == |Split(AtFace(trig, o, b), defaults).value|
    ensures r.Ok? ==> forall i :: 0 <= i < |r.value| ==>
      var s := Split(AtFace(trig, o, b), defaults).value;
      var m := ApertureElement.BlockRay(diameter, Refract(trig, Constants(glass).value, false, s[i]));
      && r.value[i].Points() == PointToGlobal(trig, o, Point(Real(0.0), s[i].y))
      && r.value[i].tanTheta == TanToGlobal(trig.tanDeg(o.theta), m.tanTheta)
      && r.value[i].group == s[i].group && r.value[i].wavelength == s[i].wavelength
  {
    var at := AtFace(trig, o, b);
    UnsetIndicesByWavelength(at, b);
    Pass(trig, v, o, diameter, glass, defaults, false, b)
  }

  /** The exit face: the second interface's frame, the exit refraction and its aperture,
      back to the global frame.  A batch in which every ray has a wavelength is not split
      again: ray i leaves at the point of the exit face where it met it, keeps its
      wavelength and group, and a ray stopped before the exit stays stopped. */
  function Leave(trig: Trig, v: Reading, o: RotateObject, diameter: real, glass: Glass, defaults: seq<real>,
                 b: Batch): (r: Result<Batch>)
    ensures (forall i :: 0 <= i < |b| ==> !Unset(b[i])) ==> (r.Err? <==> glass == SF11)
    ensures (forall i :: 0 <= i < |b| ==> !Unset(b[i])) && r.Ok? ==>
      && |r.value| == |b|
      && forall i :: 0 <= i < |b| ==>
        var s := SecondInterface(trig, o, diameter);
        var m := ApertureElement.BlockRay(diameter, Refract(trig, Constants(glass).value, true, AtFace(trig, s, b)[i]));
        && r.value[i].Points() == PointToGlobal(trig, s, Point(Real(0.0), AtFace(trig, s, b)[i].y))
        && r.value[i].tanTheta == TanToGlobal(trig.tanDeg(s.theta), m.tanTheta)
        && r.value[i].wavelength == b[i].wavelength && r.value[i].group == b[i].group
        && (b[i].tanTheta.NaN? ==> r.value[i].tanTheta.NaN?)
  {
    var s := SecondInterface(trig, o, diameter);
    var second := AtFace(trig, s, b);
    UnsetIndicesByWavelength(second, b);
    assert (forall i :: 0 <= i < |b| ==> !Unset(b[i])) ==> Split(second, defaults) == Ok(second);
    Pass(trig, v, s, diameter, glass, defaults, true, b)
  }

  /** `DiffractionPrism.trace`: the entry face, the snapshot of its rays, the exit face
      applied to that snapshot.  Only the entry face can fail: it leaves no ray without a
      wavelength and the glass has constants once it has passed.  The exit face keeps each
      stored ray's wavelength and group, and a ray stopped at the entry face stays
      stopped. */
  function Trace(trig: Trig, v: Reading, o: RotateObject, diameter: real, glass: Glass, defaults: seq<real>,
                 b: Batch): (r: Result<PrismTrace>)
    ensures r.Err? <==> Enter(trig, v, o, diameter, glass, defaults, b).Err?
    ensures r.Ok? ==> r.value.stored == Enter(trig, v, o, diameter, glass, defaults, b).value
    ensures r.Ok? ==> Leave(trig, v, o, diameter, glass, defaults, r.value.stored) == Ok(r.value.rays)
    ensures r.Ok? ==>
      && |r.value.rays| == |r.value.stored|
      && forall i :: 0 <= i < |r.value.rays| ==>
        && !Unset(r.value.rays[i])
        && r.value.rays[i].wavelength == r.value.stored[i].wavelength
        && r.value.rays[i].group == r.value.stored[i].group
        && (r.value.stored[i].tanTheta.NaN? ==> r.value.rays[i].tanTheta.NaN?)
  {
    var stored :- Enter(trig, v, o, diameter, glass, defaults, b);
    var exit := Leave(trig, v, o, diameter, glass, defaults, stored);
    Ok(PrismTrace(stored, exit.value))
  }

  /** A prism standing upright at `o` (theta 0): a ray with slope t and a wavelength whose
      index n is a non-zero real, meeting the entry face inside the aperture, is stored at
      the point where it meets the face with slope t / n. */
  lemma EntryRefracts(trig: Trig, v: Reading, o: Vec, diameter: real, r: Ray, t: real)
    requires trig.tanDeg(0.0) == 0.0
    requires r.x.Real? && r.y.Real? && r.tanTheta == Real(t) && !Unset(r)
    requires Index(trig, Constants(BK7).value, r.wavelength).Real?
    requires Index(trig, Constants(BK7).value, r.wavelength).r != 0.0
    requires -diameter / 2.0 <= r.y.r + t * (o.x - r.x.r) - o.y <= diameter / 2.0
    ensures var out := Enter(trig, v, RotateObject(o, 0.0), diameter, BK7, [], [r]);
      && out.Ok? && |out.value| == 1
      && out.value[0].x == Real(o.x) && out.value[0].y == Real(r.y.r + t * (o.x - r.x.r))
      && out.value[0].tanTheta == Real(t / Index(trig, Constants(BK7).value, r.wavelength).r)
  {
    var face := RotateObject(o, 0.0);
    var n := Index(trig, Constants(BK7).value, r.wavelength).r;
    var local := ToElementFrame(trig, face, [r]);
    assert local[0].Points() == Point(Real(r.x.r - o.x), Real(r.y.r - o.y));
    assert local[0].tanTheta == Real(t) by {
      assert TanToLocal(0.0, Real(t)) == Real((t - 0.0) / (1.0 + 0.0 * t));
    }
    var at := AtFace(trig, face, [r]);
    var y := r.y.r - o.y + t * (0.0 - (r.x.r - o.x));
    assert at[0].y == Real(y);
    assert y == r.y.r + t * (o.x - r.x.r) - o.y;
    assert Split(at, []) == Ok(at);
    var m := ApertureElement.BlockRay(diameter, Refract(trig, Constants(BK7).value, false, at[0]));
    assert m.tanTheta == Real(t / n);
    assert TanToGlobal(0.0, Real(t / n)) == Real(t / n) by {
      assert TanToGlobal(0.0, Real(t / n)) == Real((0.0 + t / n) / (1.0 - 0.0 * (t / n)));
    }
  }

  /** The trace fails exactly when a ray has no wavelength and there is no default (an
      IndexError), or when the glass has no constants (a KeyError). */
  lemma TraceFails(trig: Trig, v: Reading, o: RotateObject, diameter: real, glass: Glass, defaults: seq<real>, b: Batch)
    ensures var r := Trace(trig, v, o, diameter, glass, defaults, b);
      && (r.Err? <==> ((exists i :: 0 <= i < |b| && Unset(b[i])) && |defaults| == 0) || glass == SF11)
      && (r.Err? && glass == BK7 ==> r.error == IndexOutOfRange)
      && (r.Err? && |defaults| > 0 ==> r.error == MissingKey)
  {
    var ix := UnsetIndices(b);
    assert (exists i :: 0 <= i < |b| && Unset(b[i])) <==> |ix| > 0 by {
      if |ix| > 0 {
        assert Unset(b[ix[0]]);
      }
    }
  }

  /** A successful trace stores one row per ray after the split, that is |defaults| - 1
      more per ray without a wavelength, and returns as many. */
  lemma TraceRows(trig: Trig, v: Reading, o: RotateObject, diameter: real, glass: Glass, defaults: seq<real>, b: Batch)
    requires Trace(trig, v, o, diameter, glass, defaults, b).Ok?
    ensures |Trace(trig, v, o, diameter, glass, defaults, b).value.stored| == |b| + (|defaults| - 1) * |UnsetIndices(b)|
    ensures |Trace(trig, v, o, diameter, glass, defaults, b).value.rays| == |b| + (|defaults| - 1) * |UnsetIndices(b)|
  {
    var stored := Enter(trig, v, o, diameter, glass, defaults, b).value;
    assert |stored| == |Split(b, defaults).value|;
    if |UnsetIndices(b)| > 0 {
      SplitLength(b, defaults);
    }
  }
}

=== FILE: elements.dfy ===
/** The element classes of the raypy2d/elements package as one tagged record: a frame, an
    aperture width, a blocker width, the `flipped` flag, and the kind with its own
    parameters.  Every method the classes override is a dispatch on the kind to the
    module of that class, and the trace of raypy2d/elements/base.py strings them
    together. */
module Elements {
  import opened Num
  import opened Linear
  import opened RayData
  import opened Outcome
  import opened Transcendental
  import opened Algebra
  import opened Frame
  import opened Rays
  import opened ElementBase
  import opened Wavelengths
  import opened Readings
  import ApertureElement
  import MirrorElement
  import LensElement
  import ParabolicMirrorElement
  import SensorElement
  import GratingElement
  import PrismElement

  datatype Kind =
    | Plain                                                  // Element
    | Aperture
    | Mirror
    | Lens(f: real)
    | Parabolic(f: real)                                     // ParabolicMirror
    | Sensor
    | Grating(pitch: real, interference: real, defaults: seq<real>)  // DiffractionGrating
    | Prism(glass: PrismElement.Glass, defaults: seq<real>)          // DiffractionPrism

  datatype Element = Element(frame: RotateObject, aperture: real, blocker: Bound, flipped: bool, kind: Kind)

  /** The kinds built on a focal length, whose matrix divides by it. */
  predicate Focal(k: Kind) {
    k.Lens? || k.Parabolic?
  }

  /** The kinds that split rays by wavelength. */
  predicate Dispersive(k: Kind) {
    k.Grating? || k.Prism?
  }

  /** What a constructed element satisfies. */
  predicate Valid(e: Element) {
    && (e.kind.Plain? || ApertureElement.Check(e.aperture, e.blocker).Ok?)
    && (Focal(e.kind) ==> e.kind.f != 0.0)
  }

  /** The constructors: every kind but the bare `Element` runs the aperture assertions
      first; the lens and the parabolic mirror then divide by the focal length. */
  function Make(kind: Kind, diameter: real, frame: RotateObject, blocker: Bound, flipped: bool)
    : (r: Result<Element>)
    ensures r.Ok? <==>
      && (kind.Plain? || (0.0 <= diameter && (blocker.Finite? ==> diameter < blocker.v)))
      && (Focal(kind) ==> kind.f != 0.0)
    ensures r.Ok? ==> Valid(r.value) && r.value == Element(frame, diameter, blocker, flipped, kind)
    ensures r.Err? && !kind.Plain? && ApertureElement.Check(diameter, blocker).Err? ==>
      r.error == AssertionFailed
    ensures r.Err? && ApertureElement.Check(diameter, blocker).Ok? ==> r.error == ZeroDivision
  {
    var _ :- if kind.Plain? then Ok(()) else ApertureElement.Check(diameter, blocker);
    var _ :- match kind
      case Lens(f) => LensElement.Matrix(f)
      case Parabolic(f) => ParabolicMirrorElement.Matrix(f)
      case _ => Ok(Identity);
    Ok(Element(frame, diameter, blocker, flipped, kind))
  }

  /** `self.matrix`.  The grating and the prism run `Mirror.__init__`, so theirs is the
      mirror's, which their own `transform_rays` never reads. */
  function Matrix(e: Element): (m: Mat2)
    requires Valid(e)
    ensures m.a == 1.0 && m.b == 0.0
    ensures Focal(e.kind) ==> m.c * e.kind.f == -1.0
    ensures !Focal(e.kind) ==> m.c == 0.0
    ensures m.d == (if e.kind.Mirror? || e.kind.Parabolic? || Dispersive(e.kind) then -1.0 else 1.0)
  {
    match e.kind
    case Mirror => MirrorElement.Matrix
    case Lens(f) => LensElement.Matrix(f).value
    case Parabolic(f) => ParabolicMirrorElement.Matrix(f).value
    case Sensor => SensorElement.Matrix
    case Grating(_, _, _) => MirrorElement.Matrix
    case Prism(_, _) => MirrorElement.Matrix
    case _ => Identity
  }

  /** `self.mirroring`: the grating and the prism reset the mirror's flag to False. */
  function Mirroring(e: Element): (m: bool)
    ensures m <==> e.kind.Mirror? || e.kind.Parabolic?
  {
    match e.kind
    case Mirror => MirrorElement.Mirroring
    case Lens(_) => LensElement.Mirroring
    case Parabolic(_) => ParabolicMirrorElement.Mirroring
    case Sensor => SensorElement.Mirroring
    case Grating(_, _, _) => GratingElement.Mirroring
    case Prism(_, _) => false
    case _ => false
  }

  /** `block`: the bare element lets everything through, every other kind is an aperture. */
  function Block(e: Element, b: Batch): (r: Batch)
    ensures |r| == |b|
    ensures forall i :: 0 <= i < |b| ==> r[i] == b[i].(tanTheta := r[i].tanTheta)
    ensures e.kind.Plain? ==> r == b
    ensures !e.kind.Plain? ==> forall i :: 0 <= i < |b| ==>
      (r[i].tanTheta.NaN? <==>
        b[i].tanTheta.NaN? || b[i].y.NaN? || b[i].y.r < -e.aperture / 2.0 || e.aperture / 2.0 < b[i].y.r)
    ensures forall i :: 0 <= i < |b| && r[i].tanTheta.Real? ==> r[i].tanTheta == b[i].tanTheta
    ensures !e.kind.Plain? ==> forall i :: 0 <= i < |b| && r[i].tanTheta.Real? ==>
      r[i].y.Real? && -e.aperture / 2.0 <= r[i].y.r <= e.aperture / 2.0
  {
    if e.kind.Plain? then b else ApertureElement.Block(e.aperture, b)
  }

  /** `intersection_with`: the plane x = 0 for every kind but the parabolic mirror, which
      moves each ray to its surface, with the code's depth rule as written or with the
      corrected one.  The two readings agree on every ray that is not parallel to the
      axis. */
  function Intersection(trig: Trig, v: Reading, e: Element, b: Batch): (r: Batch)
    requires Valid(e)
    ensures |r| == |b|
    ensures forall i :: 0 <= i < |b| ==> r[i] == b[i].(x := r[i].x, y := r[i].y)
    ensures !e.kind.Parabolic? ==> r == b
    ensures e.kind.Parabolic? && v.AsWritten? ==> forall i :: 0 <= i < |b| ==>
      r[i] == ParabolicMirrorElement.IntersectRay(trig, e.kind.f, e.aperture, b[i])
    ensures e.kind.Parabolic? && v.Corrected? ==> forall i :: 0 <= i < |b| ==>
      r[i] == ParabolicMirrorElement.IntersectRayFixed(trig, e.kind.f, e.aperture, b[i])
    ensures e.kind.Parabolic? ==> forall i :: 0 <= i < |b| && !Same(b[i].tanTheta, Real(0.0)) ==>
      r[i] == ParabolicMirrorElement.IntersectRay(trig, e.kind.f, e.aperture, b[i])
  {
    if !e.kind.Parabolic? then b
    else if v.AsWritten? then ParabolicMirrorElement.Intersection(trig, e.kind.f, e.aperture, b)
    else ParabolicMirrorElement.IntersectionFixed(trig, e.kind.f, e.aperture, b)
  }

  /** `transform_rays`: the ABCD matrix for the plain kinds, which never fails and acts on
      (y, tan_theta) ray by ray, turning `forward` round when the element mirrors; the
      wavelength split and the angle update for the grating; the split and the entry
      refraction for the prism. */
  function Transform(trig: Trig, v: Reading, e: Element, b: Batch): (r: Result<Batch>)
    requires Valid(e)
    ensures r.Err? <==>
      && Dispersive(e.kind)
      && (Split(b, e.kind.defaults).Err? || (e.kind.Prism? && e.kind.glass == PrismElement.SF11))
    ensures !Dispersive(e.kind) ==> r.Ok? && |r.value| == |b|
    ensures !Dispersive(e.kind) ==> forall i :: 0 <= i < |b| ==>
      && r.value[i].x == b[i].x && r.value[i].group == b[i].group
      && r.value[i].wavelength == b[i].wavelength
      && r.value[i] == TransformRay(Matrix(e), Mirroring(e), b[i])
    ensures e.kind.Grating? ==>
      r == GratingElement.Transform(trig, v, e.kind.pitch, e.kind.interference, e.kind.defaults, b)
    ensures e.kind.Prism? ==> r == PrismElement.Transform(trig, e.kind.glass, e.kind.defaults, false, b)
  {
    match e.kind
    case Grating(pitch, interference, defaults) => GratingElement.Transform(trig, v, pitch, interference, defaults, b)
    case Prism(glass, defaults) => PrismElement.Transform(trig, glass, defaults, false, b)
    case _ => Ok(TransformRays(Matrix(e), Mirroring(e), b))
  }

  /** `trace_in_element_frame_of_reference`: to the plane x = 0, onto the surface, through
      the element, then the aperture.  Every ray left with a real slope has passed inside
      the aperture; outside the dispersive kinds ray i stays at the point where it met the
      surface, with its group and wavelength, and turns round when the element mirrors. */
  function InnerTrace(trig: Trig, v: Reading, e: Element, b: Batch): (r: Result<Batch>)
    requires Valid(e)
    ensures r.Err? <==> Transform(trig, v, e, Intersection(trig, v, e, Propagate(b, 0.0))).Err?
    ensures r.Ok? && !e.kind.Plain? ==> forall i :: 0 <= i < |r.value| && r.value[i].tanTheta.Real? ==>
      r.value[i].y.Real? && -e.aperture / 2.0 <= r.value[i].y.r <= e.aperture / 2.0
    ensures r.Ok? ==> |r.value| == |Transform(trig, v, e, Intersection(trig, v, e, Propagate(b, 0.0))).value|
    ensures !Dispersive(e.kind) ==> r.Ok? && |r.value| == |b| && forall i :: 0 <= i < |b| ==>
      var h := Intersection(trig, v, e, Propagate(b, 0.0))[i];
      && r.value[i].x == h.x
      && r.value[i].y == TransformRay(Matrix(e), Mirroring(e), h).y
      && r.value[i].group == b[i].group && r.value[i].wavelength == b[i].wavelength
      && r.value[i].forward == (if Mirroring(e) then Neg(b[i].forward) else b[i].forward)
    ensures !Dispersive(e.kind) ==> r.Ok? && |r.value| == |b| && forall i :: 0 <= i < |b| ==>
      var t := TransformRay(Matrix(e), Mirroring(e), Intersection(trig, v, e, Propagate(b, 0.0))[i]);
      && (r.value[i].tanTheta.NaN? <==>
           t.tanTheta.NaN? || (!e.kind.Plain? && (t.y.NaN? || t.y.r < -e.aperture / 2.0 || e.aperture / 2.0 < t.y.r)))
      && (r.value[i].tanTheta.Real? ==> r.value[i].tanTheta == t.tanTheta)
  {
    var t :- Transform(trig, v, e, Intersection(trig, v, e, Propagate(b, 0.0)));
    Ok(Block(e, t))
  }

  /** `trace`: into the element frame, the inner trace, back to the global frame; the
      prism has a `trace` of its own.  Ray i of the result is ray i of the inner trace
      carried back: its point and tan_theta turned and moved, its group and wavelength
      kept, and as written `forward` read from the heading plus theta unnormalised. */
  function Trace(trig: Trig, v: Reading, e: Element, b: Batch): (r: Result<Batch>)
    requires Valid(e)
    ensures !e.kind.Prism? ==> (r.Err? <==> InnerTrace(trig, v, e, ToElementFrame(trig, e.frame, b)).Err?)
    ensures e.kind.Prism? ==>
      (r.Err? <==> PrismElement.Enter(trig, v, e.frame, e.aperture, e.kind.glass, e.kind.defaults, b).Err?)
    ensures !Dispersive(e.kind) ==> r.Ok? && |r.value| == |b|
    ensures !e.kind.Prism? && r.Ok? ==>
      var inner := InnerTrace(trig, v, e, ToElementFrame(trig, e.frame, b)).value;
      && |r.value| == |inner|
      && forall i :: 0 <= i < |inner| ==>
        && r.value[i].Points() == PointToGlobal(trig, e.frame, inner[i].Points())
        && r.value[i].tanTheta == TanToGlobal(trig.tanDeg(e.frame.theta), inner[i].tanTheta)
        && r.value[i].group == inner[i].group && r.value[i].wavelength == inner[i].wavelength
        && (v.AsWritten? ==> r.value[i].forward == HalfPlane(Add(Heading(trig, inner[i]), Real(e.frame.theta))))
    ensures e.kind.Prism? && r.Ok? ==>
      r.value == PrismElement.Trace(trig, v, e.frame, e.aperture, e.kind.glass, e.kind.defaults, b).value.rays
  {
    match e.kind
    case Prism(glass, defaults) =>
      var t :- PrismElement.Trace(trig, v, e.frame, e.aperture, glass, defaults, b);
      Ok(t.rays)
    case _ =>
      var inner := InnerTrace(trig, v, e, ToElementFrame(trig, e.frame, b));
      if inner.Ok? then Ok(ToGlobal(trig, v, e.frame, inner.value)) else inner
  }

  /** `edges`: the aperture ends for the element, the aperture, the lens, the grating and
      the prism; reversed for the mirror and the sensor (a subclass of `Mirror`); the rim
      points for the parabolic mirror. */
  function Edges(trig: Trig, e: Element): (ps: seq<Point>)
    requires Valid(e)
    ensures |ps| == 2
    ensures e.kind.Mirror? || e.kind.Sensor? ==>
      ps == ElementBase.Edges(trig, e.frame, e.aperture, !e.flipped)
    ensures e.kind.Parabolic? ==>
      ps == ParabolicMirrorElement.Edges(trig, e.frame, e.kind.f, e.aperture, e.flipped)
    ensures !(e.kind.Mirror? || e.kind.Sensor? || e.kind.Parabolic?) ==>
      ps == ElementBase.Edges(trig, e.frame, e.aperture, e.flipped)
  {
    match e.kind
    case Mirror => MirrorElement.Edges(trig, e.frame, e.aperture, e.flipped)
    case Sensor => SensorElement.Edges(trig, e.frame, e.aperture, e.flipped)
    case Parabolic(f) => ParabolicMirrorElement.Edges(trig, e.frame, f, e.aperture, e.flipped)
    case _ => ElementBase.Edges(trig, e.frame, e.aperture, e.flipped)
  }

  /** For every kind but the parabolic mirror the surface is the plane x = 0 of the
      element frame, so each ray the inner trace returns sits on it, the copies the
      dispersive kinds add included, under either reading. */
  lemma PlanarTraceAtPlane(trig: Trig, v: Reading, e: Element, b: Batch)
    requires Valid(e) && !e.kind.Parabolic?
    requires InnerTrace(trig, v, e, b).Ok?
    ensures forall i :: 0 <= i < |InnerTrace(trig, v, e, b).value| ==> InnerTrace(trig, v, e, b).value[i].x == Real(0.0)
  {
    var at := Propagate(b, 0.0);
    assert Intersection(trig, v, e, at) == at;
    var t := Transform(trig, v, e, at).value;
    forall i | 0 <= i < |t|
      ensures t[i].x == Real(0.0)
    {
      if Dispersive(e.kind) {
        var s := Split(at, e.kind.defaults).value;
        SplitOrigin(at, e.kind.defaults);
        var k :| 0 <= k < |at| && s[i] == at[k].(wavelength := s[i].wavelength);
        assert s[i].x == Real(0.0);
      }
    }
  }

  /** The two readings give the same inner trace for every kind but the grating as long
      as no ray is parallel to the axis of the element frame: they differ only in the
      parabolic depth of such rays, in the grating's angle update and in `forward` on the
      way back to the global frame. */
  lemma ReadingsAgreeOnSlopedRays(trig: Trig, e: Element, b: Batch)
    requires Valid(e) && !e.kind.Grating?
    requires forall i :: 0 <= i < |b| ==> !Same(b[i].tanTheta, Real(0.0))
    ensures InnerTrace(trig, AsWritten, e, b) == InnerTrace(trig, Corrected, e, b)
  {
    var at := Propagate(b, 0.0);
    assert Intersection(trig, AsWritten, e, at) == Intersection(trig, Corrected, e, at);
  }

  /** A dispersive element's trace adds |defaults| - 1 rows per ray without a wavelength. */
  lemma DispersiveTraceRows(trig: Trig, v: Reading, e: Element, b: Batch)
    requires Valid(e) && Dispersive(e.kind)
    requires Trace(trig, v, e, b).Ok?
    ensures |Trace(trig, v, e, b).value| == |b| + (|e.kind.defaults| - 1) * |UnsetIndices(b)|
  {
    if e.kind.Prism? {
      PrismElement.TraceRows(trig, v, e.frame, e.aperture, e.kind.glass, e.kind.defaults, b);
    } else {
      GratingTraceRows(trig, v, e, b);
    }
  }

  /** The grating's trace returns the rays of the split, |defaults| - 1 more per ray
      without a wavelength. */
  lemma GratingTraceRows(trig: Trig, v: Reading, e: Element, b: Batch)
    requires Valid(e) && e.kind.Grating?
    requires Trace(trig, v, e, b).Ok?
    ensures |Trace(trig, v, e, b).value| == |b| + (|e.kind.defaults| - 1) * |UnsetIndices(b)|
  {
    var local := ToElementFrame(trig, e.frame, b);
    var at := Propagate(local, 0.0);
    UnsetIndicesByWavelength(at, b);
    assert Intersection(trig, v, e, at) == at;
    var n := |Split(at, e.kind.defaults).value|;
    assert |InnerTrace(trig, v, e, local).value| == n;
    if |UnsetIndices(b)| > 0 {
      SplitLength(at, e.kind.defaults);
    }
  }

  /** A thin lens centred at `o` on the axis of the global frame sends a ray parallel to
      the axis at height h inside the aperture through its focal point: the ray leaves the
      lens plane at the same height with slope -h / f and crosses the axis at x = o.x + f. */
  lemma LensFocusesParallelRays(trig: Trig, v: Reading, o: Vec, diameter: real, blocker: Bound, flipped: bool,
                                f: real, r: Ray, h: real)
    requires Valid(Element(RotateObject(o, 0.0), diameter, blocker, flipped, Lens(f)))
    requires trig.tanDeg(0.0) == 0.0
    requires r.x.Real? && r.y == Real(o.y + h) && r.tanTheta == Real(0.0)
    requires -diameter / 2.0 <= h <= diameter / 2.0
    ensures var out := Trace(trig, v, Element(RotateObject(o, 0.0), diameter, blocker, flipped, Lens(f)), [r]);
      && out.Ok? && |out.value| == 1
      && out.value[0].x == Real(o.x) && out.value[0].y == Real(o.y + h)
      && out.value[0].tanTheta == Real(-h / f)
      && PropagateRay(out.value[0], o.x + f).y == Real(o.y)
  {
    var e := Element(RotateObject(o, 0.0), diameter, blocker, flipped, Lens(f));
    var local := ToElementFrame(trig, e.frame, [r]);
    assert local[0].x == Real(r.x.r - o.x) && local[0].y == Real(h);
    assert local[0].tanTheta == Real(0.0);
    var at := Propagate(local, 0.0);
    assert at[0] == local[0].(x := Real(0.0));
    LensElement.Refract(f, at[0]);
    var t := Transform(trig, v, e, at).value;
    assert t[0] == at[0].(tanTheta := Real(0.0 - h / f));
    assert 0.0 - h / f == -h / f;
    var blocked := Block(e, t);
    assert blocked == t;
    var out := ToGlobal(trig, v, e.frame, blocked);
    assert Trace(trig, v, e, [r]) == Ok(out);
    assert out[0].x == Real(o.x) && out[0].y == Real(o.y + h);
    assert out[0].tanTheta == Real(-h / f);
    assert (-h / f) * (o.x + f - o.x) == -h by {
      assert o.x + f - o.x == f;
      DivTimes(-h, f);
    }
  }

  /** A ray that reaches the parabolic mirror inside its rim is reflected at a point of
      the surface X = Y^2 / (4 f) of the element frame: the inner trace leaves it there,
      with a real slope and turned around.  Corrected this holds for every such ray; as
      written only for rays not parallel to the axis (see `ParabolicParallelOffSurface`). */
  lemma ParabolicReflectsOnSurface(trig: Trig, v: Reading, e: Element, r: Ray)
    requires Valid(e) && e.kind.Parabolic?
    requires r.x.Real? && r.y.Real? && r.tanTheta.Real?
    requires v.Corrected? || r.tanTheta.r != 0.0
    requires r.tanTheta.r != 0.0 ==>
      && ParabolicMirrorElement.Discriminant(e.kind.f, r.tanTheta.r, PropagateRay(r, 0.0).y.r) >= 0.0
      && RootLaw(trig, ParabolicMirrorElement.Discriminant(e.kind.f, r.tanTheta.r, PropagateRay(r, 0.0).y.r))
    requires !ParabolicMirrorElement.MissesRim(e.aperture, PropagateRay(r, 0.0),
                        ParabolicMirrorElement.DepthFixed(trig, e.kind.f, r.tanTheta, PropagateRay(r, 0.0).y))
    ensures var out := InnerTrace(trig, v, e, [r]);
      && out.Ok? && |out.value| == 1
      && out.value[0].x.Real? && out.value[0].y.Real? && ParabolicMirrorElement.OnParabola(e.kind.f, out.value[0].x.r, out.value[0].y.r)
      && out.value[0].tanTheta.Real? && out.value[0].forward == Neg(r.forward)
  {
    var f := e.kind.f;
    var at := Propagate([r], 0.0);
    assert at[0] == PropagateRay(r, 0.0);
    var hit := ParabolicMirrorElement.IntersectRayFixed(trig, f, e.aperture, at[0]);
    assert Intersection(trig, v, e, at) == [hit];
    ParabolicMirrorElement.IntersectFixedOnParabola(trig, f, e.aperture, at[0]);

    ParabolicMirrorElement.Reflect(f, hit);
    var t := Transform(trig, v, e, [hit]).value;
    assert t[0] == TransformRay(Matrix(e), Mirroring(e), hit);
    ApertureElement.BlockKeepsInside(e.aperture, t);
    assert InnerTrace(trig, v, e, [r]) == Ok(t);
  }

  /** As written, a ray parallel to the axis at a height y other than 0 inside the rim is
      reflected at X = -y^2 / (4 f), on the mirror image of the surface and not on it. */
  lemma ParabolicParallelOffSurface(trig: Trig, e: Element, r: Ray)
    requires Valid(e) && e.kind.Parabolic?
    requires r.x.Real? && r.y.Real? && r.tanTheta == Real(0.0)
    requires r.y.r != 0.0 && -e.aperture / 2.0 <= r.y.r <= e.aperture / 2.0
    ensures var out := InnerTrace(trig, AsWritten, e, [r]);
      && out.Ok? && |out.value| == 1
      && out.value[0].x == Real(-(r.y.r * r.y.r / (4.0 * e.kind.f))) && out.value[0].y == r.y
      && !ParabolicMirrorElement.OnParabola(e.kind.f, out.value[0].x.r, out.value[0].y.r)
  {
    var f := e.kind.f;
    var at := Propagate([r], 0.0);
    assert at[0] == PropagateRay(r, 0.0);
    assert at[0].y == r.y && at[0].tanTheta == r.tanTheta;
    var hit := ParabolicMirrorElement.IntersectRay(trig, f, e.aperture, at[0]);
    assert Intersection(trig, AsWritten, e, at) == [hit];
    ParabolicMirrorElement.ZeroSlopeOffParabola(trig, f, e.aperture, at[0]);
    ParabolicMirrorElement.Reflect(f, hit);
    var t := Transform(trig, AsWritten, e, [hit]).value;
    assert t[0] == TransformRay(Matrix(e), Mirroring(e), hit);
    ApertureElement.BlockKeepsInside(e.aperture, t);
    assert InnerTrace(trig, AsWritten, e, [r]) == Ok(t);
  }
}

=== FILE: flat_grating.dfy ===
/** `DiffractionGrating.transform_rays` of the single-file generation, raypy2d/elements.py:
    an array with fewer than five columns gets a wavelength column (column 4) holding the
    first default wavelength, is split into one block per default wavelength, and every
    row's slope then follows the first-order grating equation
    sin(out) = lambda / d / 1000 - sin(in), with d in micrometres and lambda in nanometres. */
module FlatGrating {
  import opened Num
  import opened RayData
  import opened Outcome
  import opened Transcendental
  import opened Wavelengths
  import GratingElement

  /** Every row has n columns. */
  predicate Width(rows: seq<seq<Num>>, n: nat) {
    forall i :: 0 <= i < |rows| ==> |rows[i]| == n
  }

  /** The `np.hstack` of the wavelength column onto a 3- or 4-column array: three columns
      get two more, of which column 3 is then zeroed; four columns get one.  Column 4
      holds w. */
  function Pad(rows: seq<seq<Num>>, cols: nat, w: real): (r: seq<seq<Num>>)
    requires Width(rows, cols) && 3 <= cols < 5
    ensures Width(r, 5) && |r| == |rows|
    ensures forall i :: 0 <= i < |rows| ==> r[i][..cols] == rows[i] && r[i][4] == Real(w)
    ensures cols == 3 ==> forall i :: 0 <= i < |rows| ==> r[i][3] == Real(0.0)
  {
    seq(|rows|, i requires 0 <= i < |rows| =>
      rows[i] + (if cols == 3 then [Real(0.0), Real(w)] else [Real(w)]))
  }

  /** `rays_new[:, 4] = l`. */
  function Relabel(rows: seq<seq<Num>>, w: real): (r: seq<seq<Num>>)
    requires Width(rows, 5)
    ensures Width(r, 5) && |r| == |rows|
    ensures forall i :: 0 <= i < |rows| ==> r[i] == rows[i][4 := Real(w)]
  {
    seq(|rows|, i requires 0 <= i < |rows| => rows[i][4 := Real(w)])
  }

  function Pow2(n: nat): nat {
    if n == 0 then 1 else 2 * Pow2(n - 1)
  }

  /** The loop over `default_wavelengths[1:]` as written: every pass stacks a relabelled
      copy of all rows so far, so the array doubles each time. */
  function Doubling(rows: seq<seq<Num>>, ws: seq<real>): (r: seq<seq<Num>>)
    requires Width(rows, 5)
    ensures Width(r, 5) && |r| == |rows| * Pow2(|ws|)
    decreases |ws|
  {
    if |ws| == 0 then rows
    else
      var next := rows + Relabel(rows, ws[0]);
      var r := Doubling(next, ws[1..]);
      assert |next| * Pow2(|ws| - 1) == |rows| * Pow2(|ws|);
      r
  }

  /** The split as evidently intended: one relabelled copy of the rows per wavelength. */
  function OneCopyEach(rows: seq<seq<Num>>, ws: seq<real>): (r: seq<seq<Num>>)
    requires Width(rows, 5)
    ensures Width(r, 5) && |r| == BlockStart(|rows|, |ws|)
  {
    if |ws| == 0 then [] else Relabel(rows, ws[0]) + OneCopyEach(rows, ws[1..])
  }

  /** Row m of block j is source row m with wavelength ws[j]. */
  lemma {:induction false} OneCopyEachAt(rows: seq<seq<Num>>, ws: seq<real>, j: nat, m: nat)
    requires Width(rows, 5) && j < |ws| && m < |rows|
    ensures BlockStart(|rows|, j) + m < |OneCopyEach(rows, ws)|
    ensures OneCopyEach(rows, ws)[BlockStart(|rows|, j) + m] == rows[m][4 := Real(ws[j])]
  {
    if j > 0 {
      OneCopyEachAt(rows, ws[1..], j - 1, m);
      BlockStartShift(|rows|, j - 1);
      assert ws[1..][j - 1] == ws[j];
    }
  }

  /** Conversely every row of the split is a source row relabelled with one of the
      wavelengths. */
  lemma {:induction false} OneCopyEachIndex(rows: seq<seq<Num>>, ws: seq<real>, k: nat)
    requires Width(rows, 5) && k < |OneCopyEach(rows, ws)|
    ensures exists j, m ::
      && 0 <= j < |ws| && 0 <= m < |rows| && k == BlockStart(|rows|, j) + m
      && OneCopyEach(rows, ws)[k] == rows[m][4 := Real(ws[j])]
  {
    if k < |rows| {
      assert OneCopyEach(rows, ws)[k] == rows[k][4 := Real(ws[0])];
      assert k == BlockStart(|rows|, 0) + k;
    } else {
      OneCopyEachIndex(rows, ws[1..], k - |rows|);
      var j, m :| 0 <= j < |ws[1..]| && 0 <= m < |rows| && k - |rows| == BlockStart(|rows|, j) + m &&
        OneCopyEach(rows, ws[1..])[k - |rows|] == rows[m][4 := Real(ws[1..][j])];
      BlockStartShift(|rows|, j);
      assert OneCopyEach(rows, ws)[k] == rows[m][4 := Real(ws[j + 1])];
    }
  }

  lemma RelabelConcat(a: seq<seq<Num>>, b: seq<seq<Num>>, w: real)
    requires Width(a, 5) && Width(b, 5)
    ensures Width(a + b, 5) && Relabel(a + b, w) == Relabel(a, w) + Relabel(b, w)
  {
    assert Width(a + b, 5);
    var l, r := Relabel(a + b, w), Relabel(a, w) + Relabel(b, w);
    forall i | 0 <= i < |l|
      ensures l[i] == r[i]
    {
      if i < |a| {
        assert (a + b)[i] == a[i];
      } else {
        assert (a + b)[i] == b[i - |a|];
      }
    }
  }

  lemma RelabelTwice(a: seq<seq<Num>>, v: real, w: real)
    requires Width(a, 5)
    ensures Relabel(Relabel(a, v), w) == Relabel(a, w)
  {
    forall i | 0 <= i < |a|
      ensures Relabel(Relabel(a, v), w)[i] == Relabel(a, w)[i]
    {
      assert a[i][4 := Real(v)][4 := Real(w)] == a[i][4 := Real(w)];
    }
  }

  /** Relabelling rows with the wavelength they already carry changes nothing. */
  lemma RelabelSame(a: seq<seq<Num>>, w: real)
    requires Width(a, 5) && forall i :: 0 <= i < |a| ==> a[i][4] == Real(w)
    ensures Relabel(a, w) == a
  {
    forall i | 0 <= i < |a|
      ensures Relabel(a, w)[i] == a[i]
    {
      assert a[i][4 := Real(w)] == a[i];
    }
  }

  /** As written, one more wavelength w appends a copy of everything the earlier passes
      built, every row of it relabelled with w: the last wavelength always carries half
      of the rows. */
  lemma {:induction false} DoublingSnoc(rows: seq<seq<Num>>, ws: seq<real>, w: real)
    requires Width(rows, 5)
    ensures Doubling(rows, ws + [w]) == Doubling(rows, ws) + Relabel(Doubling(rows, ws), w)
    decreases |ws|
  {
    if |ws| == 0 {
      assert ws + [w] == [w];
      assert [w][1..] == [];
    } else {
      var next := rows + Relabel(rows, ws[0]);
      assert (ws + [w])[0] == ws[0];
      assert (ws + [w])[1..] == ws[1..] + [w];
      DoublingSnoc(next, ws[1..], w);
    }
  }

  /** x is one of the rows, as it is or with column 4 set to one of the wavelengths. */
  predicate FromSource(rows: seq<seq<Num>>, ws: seq<real>, x: seq<Num>)
    requires Width(rows, 5)
  {
    exists m :: 0 <= m < |rows| && (x == rows[m] || exists j :: 0 <= j < |ws| && x == rows[m][4 := Real(ws[j])])
  }

  /** As written, no row is invented either: every row of the doubled array is a source
      row, left as it was or relabelled with one of the wavelengths. */
  lemma {:induction false} DoublingOrigin(rows: seq<seq<Num>>, ws: seq<real>, k: nat)
    requires Width(rows, 5) && k < |Doubling(rows, ws)|
    ensures FromSource(rows, ws, Doubling(rows, ws)[k])
    decreases |ws|
  {
    if |ws| == 0 {
      assert Doubling(rows, ws)[k] == rows[k];
    } else {
      var init, w := ws[..|ws| - 1], ws[|ws| - 1];
      assert ws == init + [w];
      DoublingSnoc(rows, init, w);
      var d := Doubling(rows, init);
      if k < |d| {
        DoublingOrigin(rows, init, k);
        var m :| 0 <= m < |rows| &&
          (d[k] == rows[m] || exists j :: 0 <= j < |init| && d[k] == rows[m][4 := Real(init[j])]);
        if d[k] != rows[m] {
          var j :| 0 <= j < |init| && d[k] == rows[m][4 := Real(init[j])];
          assert ws[j] == init[j];
        }
      } else {
        DoublingOrigin(rows, init, k - |d|);
        var m :| 0 <= m < |rows| &&
          (d[k - |d|] == rows[m] ||
           exists j :: 0 <= j < |init| && d[k - |d|] == rows[m][4 := Real(init[j])]);
        assert Doubling(rows, ws)[k] == d[k - |d|][4 := Real(w)];
        if d[k - |d|] != rows[m] {
          var j :| 0 <= j < |init| && d[k - |d|] == rows[m][4 := Real(init[j])];
          assert rows[m][4 := Real(init[j])][4 := Real(w)] == rows[m][4 := Real(w)];
        }
        assert Doubling(rows, ws)[k] == rows[m][4 := Real(ws[|ws| - 1])];
      }
    }
  }

  /** As written, with the default list [532, 430, 650] the loop runs for 430 and 650
      and the second pass copies the 430 block too: 650 nm ends up with twice as many
      rays as each of the other two wavelengths. */
  lemma DoublingRepeatsLast(rows: seq<seq<Num>>, v: real, w: real)
    requires Width(rows, 5)
    ensures Doubling(rows, [v, w]) == rows + Relabel(rows, v) + Relabel(rows, w) + Relabel(rows, w)
  {
    var once := rows + Relabel(rows, v);
    assert [v, w][1..] == [w];
    assert [w][1..] == [];
    assert Doubling(rows, [v, w]) == Doubling(once, [w]);
    assert Doubling(once, [w]) == once + Relabel(once, w);
    RelabelConcat(rows, Relabel(rows, v), w);
    RelabelTwice(rows, v, w);
  }

  /** Corrected, the padded rows, which already carry the first wavelength, form the first
      block, and each further wavelength gets exactly one copy. */
  lemma OneCopyEachKeepsFirstBlock(rows: seq<seq<Num>>, w0: real, ws: seq<real>)
    requires Width(rows, 5) && forall i :: 0 <= i < |rows| ==> rows[i][4] == Real(w0)
    ensures OneCopyEach(rows, [w0] + ws) == rows + OneCopyEach(rows, ws)
  {
    assert ([w0] + ws)[1..] == ws;
    RelabelSame(rows, w0);
  }

  /** The angle update of every row: tan(arcsin(lambda / d / 1000 - sin(arctan(tan_theta)))). */
  function Angle(trig: Trig, pitch: real, row: seq<Num>): (r: seq<Num>)
    requires |row| >= 5
    ensures |r| == |row| && r == row[2 := r[2]]
    ensures row[2].NaN? || row[4].NaN? ==> r[2].NaN?
  {
    row[2 := Lift(trig.tan, Asin(trig, Sub(Div(Div(row[4], Real(pitch)), Real(1000.0)),
                                         GratingElement.IncidenceSine(trig, row[2]))))]
  }

  function Angles(trig: Trig, pitch: real, rows: seq<seq<Num>>): (r: seq<seq<Num>>)
    requires forall i :: 0 <= i < |rows| ==> |rows[i]| >= 5
    ensures |r| == |rows| && forall i :: 0 <= i < |rows| ==> r[i] == Angle(trig, pitch, rows[i])
  {
    seq(|rows|, i requires 0 <= i < |rows| => Angle(trig, pitch, rows[i]))
  }

  /** The single-file grating obeys the first-order grating equation with the opposite
      sign convention to the raypy2d/elements package's: sin(out) = lambda / d / 1000 - sin(in), whenever
      that sine is strictly inside (-1, 1).  Where `GratingElement.GratingEquation` holds
      for order 1, the outgoing sine here is the negation of the raypy2d/elements package's. */
  lemma AngleGratingEquation(trig: Trig, pitch: real, row: seq<Num>)
    requires |row| >= 5 && row[2].Real? && row[4].Real? && pitch != 0.0
    requires var v := row[4].r / pitch / 1000.0 - trig.sin(trig.atan(row[2].r));
      -1.0 < v < 1.0 && GratingElement.InverseLaws(trig, v)
    ensures Angle(trig, pitch, row)[2].Real?
    ensures trig.sin(trig.atan(Angle(trig, pitch, row)[2].r))
      == row[4].r / pitch / 1000.0 - trig.sin(trig.atan(row[2].r))
  {
    var sine := trig.sin(trig.atan(row[2].r));
    var sh := row[4].r / pitch / 1000.0;
    assert GratingElement.IncidenceSine(trig, row[2]) == Real(sine);
    assert Div(Div(row[4], Real(pitch)), Real(1000.0)) == Real(sh);
    assert Sub(Real(sh), Real(sine)) == Real(sh - sine);
    assert Asin(trig, Real(sh - sine)) == Real(trig.asin(sh - sine));
    assert Angle(trig, pitch, row)[2] == Real(trig.tan(trig.asin(sh - sine)));
  }

  /** `transform_rays`, with the split corrected: a wavelength column is added and the
      rows are split when the array has fewer than five columns; reading the first default
      of an empty list is an IndexError, whatever the rows. */
  function Transform(trig: Trig, pitch: real, defaults: seq<real>, t: Table): (r: Result<Table>)
    requires Rectangular(t) && t.cols >= 3
    ensures r.Err? <==> t.cols < 5 && |defaults| == 0
    ensures r.Err? ==> r.error == IndexOutOfRange
    ensures r.Ok? ==> Rectangular(r.value) && r.value.cols == (if t.cols < 5 then 5 else t.cols)
    ensures r.Ok? && t.cols >= 5 ==> r.value.rows == Angles(trig, pitch, t.rows)
    ensures r.Ok? && t.cols < 5 ==>
      r.value.rows == Angles(trig, pitch, OneCopyEach(Pad(t.rows, t.cols, defaults[0]), defaults))
  {
    if t.cols >= 5 then Ok(Table(t.cols, Angles(trig, pitch, t.rows)))
    else if |defaults| == 0 then Err(IndexOutOfRange)
    else Ok(Table(5, Angles(trig, pitch, OneCopyEach(Pad(t.rows, t.cols, defaults[0]), defaults))))
  }

  /** `transform_rays` as written, with the doubling loop. */
  function TransformAsWritten(trig: Trig, pitch: real, defaults: seq<real>, t: Table): (r: Result<Table>)
    requires Rectangular(t) && t.cols >= 3
    ensures r.Err? <==> t.cols < 5 && |defaults| == 0
    ensures r.Err? ==> r.error == IndexOutOfRange
    ensures r.Ok? ==> Rectangular(r.value) && r.value.cols == (if t.cols < 5 then 5 else t.cols)
    ensures r.Ok? && t.cols >= 5 ==> r.value.rows == Angles(trig, pitch, t.rows)
    ensures r.Ok? && t.cols < 5 ==>
      r.value.rows == Angles(trig, pitch, Doubling(Pad(t.rows, t.cols, defaults[0]), defaults[1..]))
    ensures r.Ok? && t.cols < 5 ==> |r.value.rows| == |t.rows| * Pow2(|defaults| - 1)
  {
    if t.cols >= 5 then Ok(Table(t.cols, Angles(trig, pitch, t.rows)))
    else if |defaults| == 0 then Err(IndexOutOfRange)
    else Ok(Table(5, Angles(trig, pitch, Doubling(Pad(t.rows, t.cols, defaults[0]), defaults[1..]))))
  }

  /** Corrected, the split gives |defaults| rows per input row, and an array that already
      has a wavelength column keeps its rows. */
  lemma TransformRows(trig: Trig, pitch: real, defaults: seq<real>, t: Table)
    requires Rectangular(t) && t.cols >= 3 && Transform(trig, pitch, defaults, t).Ok?
    ensures |Transform(trig, pitch, defaults, t).value.rows| ==
      if t.cols >= 5 then |t.rows| else |defaults| * |t.rows|
  {
    BlockStartIsProduct(|t.rows|, |defaults|);
  }

  /** Row m of block j of the corrected split is input row m, padded, with wavelength
      defaults[j], diffracted. */
  lemma TransformSplitAt(trig: Trig, pitch: real, defaults: seq<real>, t: Table, j: nat, m: nat)
    requires Rectangular(t) && 3 <= t.cols < 5 && j < |defaults| && m < |t.rows|
    ensures BlockStart(|t.rows|, j) + m < |Transform(trig, pitch, defaults, t).value.rows|
    ensures Transform(trig, pitch, defaults, t).value.rows[BlockStart(|t.rows|, j) + m]
      == Angle(trig, pitch, Pad(t.rows, t.cols, defaults[0])[m][4 := Real(defaults[j])])
  {
    OneCopyEachAt(Pad(t.rows, t.cols, defaults[0]), defaults, j, m);
  }

  /** With the default list, a three-column array of N rows becomes 4 N rows as written,
      of which 2 N carry 650 nm, against 3 N rows, one block per wavelength, corrected. */
  lemma DefaultListRows(trig: Trig, pitch: real, t: Table)
    requires Rectangular(t) && t.cols == 3
    ensures |TransformAsWritten(trig, pitch, [532.0, 430.0, 650.0], t).value.rows| == 4 * |t.rows|
    ensures |Transform(trig, pitch, [532.0, 430.0, 650.0], t).value.rows| == 3 * |t.rows|
  {
    assert Pow2(2) == 4;
    TransformRows(trig, pitch, [532.0, 430.0, 650.0], t);
  }
}

=== FILE: frame.dfy ===
/** `RotateObject` of raypy2d/elements/base.py: moving points and rays between the global
    frame and the frame of an element at `origin`, turned by `theta` degrees. */
module Frame {
  import opened Num
  import opened Linear
  import opened RayData
  import opened Transcendental
  import opened Utils
  import opened Readings

  function Rotate(m: Mat2, p: Point): Point {
    var q := Apply(m, Pair(p.x, p.y));
    Point(q.u, q.v)
  }

  function Translate(p: Point, v: Vec, sign: real): Point {
    Point(Add(p.x, Real(sign * v.x)), Add(p.y, Real(sign * v.y)))
  }

  /** `points_to_object_frame_of_reference`: subtract the origin, then rotate by -theta;
      the rotation is skipped when theta is 0. */
  function PointToObject(trig: Trig, o: RotateObject, p: Point): (q: Point)
    ensures o.theta == 0.0 ==> q == Point(Sub(p.x, Real(o.origin.x)), Sub(p.y, Real(o.origin.y)))
    ensures p.x.Real? && p.y.Real? ==> q.x.Real? && q.y.Real?
  {
    var d := Translate(p, o.origin, -1.0);
    if o.theta != 0.0 then Rotate(RotationMatrix(trig, -o.theta), d) else d
  }

  /** `points_to_global_frame_of_reference`: rotate by theta (skipped when theta is 0),
      then add the origin. */
  function PointToGlobal(trig: Trig, o: RotateObject, p: Point): (q: Point)
    ensures o.theta == 0.0 ==> q == Point(Add(p.x, Real(o.origin.x)), Add(p.y, Real(o.origin.y)))
    ensures p.x.Real? && p.y.Real? ==> q.x.Real? && q.y.Real?
  {
    var r := if o.theta != 0.0 then Rotate(RotationMatrix(trig, o.theta), p) else p;
    Translate(r, o.origin, 1.0)
  }

  lemma RotateReal(m: Mat2, x: real, y: real)
    ensures Rotate(m, Point(Real(x), Real(y))) == Point(Real(m.a * x + m.b * y), Real(m.c * x + m.d * y))
  {
    ApplyReal(m, x, y);
    var q := Rotate(m, Point(Real(x), Real(y)));
    assert q.x == Real(m.a * x + m.b * y);
    assert q.y == Real(m.c * x + m.d * y);
  }

  /** Rotating a real point by -theta and then by theta (or the other way round) gives it back. */
  lemma RotateBack(trig: Trig, theta: real, x: real, y: real)
    requires RotationLaws(trig, theta)
    ensures Rotate(RotationMatrix(trig, theta), Rotate(RotationMatrix(trig, -theta), Point(Real(x), Real(y))))
         == Point(Real(x), Real(y))
    ensures Rotate(RotationMatrix(trig, -theta), Rotate(RotationMatrix(trig, theta), Point(Real(x), Real(y))))
         == Point(Real(x), Real(y))
  {
    var c, s := trig.cosDeg(theta), trig.sinDeg(theta);
    assert RotationMatrix(trig, theta) == Mat2(c, -s, s, c);
    assert RotationMatrix(trig, -theta) == Mat2(c, s, -s, c);
    TurnBack(c, s, x, y);
    assert (-s) * (-s) == s * s;
    TurnBack(c, -s, x, y);
    assert Mat2(c, - -s, -s, c) == Mat2(c, s, -s, c);
  }

  /** Turning by the unit vector (c, -s) and then by (c, s) is the identity. */
  lemma TurnBack(c: real, s: real, x: real, y: real)
    requires c * c + s * s == 1.0
    ensures Rotate(Mat2(c, -s, s, c), Rotate(Mat2(c, s, -s, c), Point(Real(x), Real(y)))) == Point(Real(x), Real(y))
  {
    var lx, ly := c * x + s * y, -s * x + c * y;
    RotateReal(Mat2(c, s, -s, c), x, y);
    RotateReal(Mat2(c, -s, s, c), lx, ly);
    UnitRotation(c, s, x, y, lx, ly);
  }

  /** Turning by (c, s) and back by (c, -s) is the identity on the unit circle. */
  lemma UnitRotation(c: real, s: real, x: real, y: real, lx: real, ly: real)
    requires c * c + s * s == 1.0
    requires lx == c * x + s * y && ly == -s * x + c * y
    ensures c * lx + -s * ly == x
    ensures s * lx + c * ly == y
  {
    assert c * lx == c * c * x + c * s * y;
    assert -s * ly == s * s * x - s * c * y;
    assert c * c * x + s * s * x == (c * c + s * s) * x;
    assert s * lx == s * c * x + s * s * y;
    assert c * ly == -(c * s * x) + c * c * y;
    assert s * s * y + c * c * y == (c * c + s * s) * y;
  }

  /** The two point transforms are inverse to each other: for every point when theta is 0,
      for real points when cos and sin obey the rotation laws. */
  lemma PointRoundTrip(trig: Trig, o: RotateObject, p: Point)
    requires o.theta == 0.0 || (RotationLaws(trig, o.theta) && p.x.Real? && p.y.Real?)
    ensures PointToGlobal(trig, o, PointToObject(trig, o, p)) == p
    ensures PointToObject(trig, o, PointToGlobal(trig, o, p)) == p
  {
    if o.theta != 0.0 {
      var x, y := p.x.r, p.y.r;
      RotateBack(trig, o.theta, x - o.origin.x, y - o.origin.y);
      RotateBack(trig, o.theta, x, y);
      var q := Rotate(RotationMatrix(trig, o.theta), p);
      assert q.x.Real? && q.y.Real?;
      assert Translate(Translate(q, o.origin, 1.0), o.origin, -1.0) == q;
    }
  }

  function PointsToObject(trig: Trig, o: RotateObject, ps: seq<Point>): (qs: seq<Point>)
    ensures |qs| == |ps|
    ensures forall i :: 0 <= i < |ps| ==> qs[i] == PointToObject(trig, o, ps[i])
  {
    seq(|ps|, i requires 0 <= i < |ps| => PointToObject(trig, o, ps[i]))
  }

  function PointsToGlobal(trig: Trig, o: RotateObject, ps: seq<Point>): (qs: seq<Point>)
    ensures |qs| == |ps|
    ensures forall i :: 0 <= i < |ps| ==> qs[i] == PointToGlobal(trig, o, ps[i])
  {
    seq(|ps|, i requires 0 <= i < |ps| => PointToGlobal(trig, o, ps[i]))
  }

  /** tan_theta seen from a frame turned by an angle whose tangent is `tt`:
      the tangent-difference formula. */
  function TanToLocal(tt: real, t: Num): Num {
    Div(Sub(t, Real(tt)), Add(Real(1.0), Mul(Real(tt), t)))
  }

  /** tan_theta seen from the global frame: the tangent-sum formula. */
  function TanToGlobal(tt: real, t: Num): Num {
    Div(Add(Real(tt), t), Sub(Real(1.0), Mul(Real(tt), t)))
  }

  /** The denominator of the tangent-difference formula for a real tan_theta `t`. */
  function LocalDenominator(tt: real, t: real): real { 1.0 + tt * t }

  /** The denominator of the tangent-sum formula for a real tan_theta `t`. */
  function GlobalDenominator(tt: real, t: real): real { 1.0 - tt * t }

  /** The tangent-sum formula undoes the tangent-difference formula wherever the first
      denominator is not 0; the second one then equals (1 + tt^2) / (1 + tt * t), never 0.
      Symmetrically the other way round. */
  lemma TanRoundTrip(tt: real, t: real)
    ensures LocalDenominator(tt, t) != 0.0 ==> TanToGlobal(tt, TanToLocal(tt, Real(t))) == Real(t)
    ensures GlobalDenominator(tt, t) != 0.0 ==> TanToLocal(tt, TanToGlobal(tt, Real(t))) == Real(t)
  {
    if LocalDenominator(tt, t) != 0.0 {
      TanBackFromLocal(tt, t);
    }
    if GlobalDenominator(tt, t) != 0.0 {
      TanBackFromGlobal(tt, t);
    }
  }

  lemma TanBackFromLocal(tt: real, t: real)
    requires LocalDenominator(tt, t) != 0.0
    ensures TanToGlobal(tt, TanToLocal(tt, Real(t))) == Real(t)
  {
    var d := 1.0 + tt * t;
    var l := (t - tt) / d;
    assert TanToLocal(tt, Real(t)) == Real(l);
    DivTimes(t - tt, d);
    var u := 1.0 - tt * l;
    var v := tt + l;
    // u * d = 1 + tt^2 and v * d = t * (1 + tt^2)
    assert u * d == d - tt * (l * d);
    assert u * d == 1.0 + tt * tt;
    assert v * d == tt * d + l * d;
    assert v * d == t * (1.0 + tt * tt);
    assert u != 0.0;
    Cancel(v, t * u, d);
    assert TanToGlobal(tt, Real(l)) == Real(v / u);
    assert v / u == t;
  }

  lemma TanBackFromGlobal(tt: real, t: real)
    requires GlobalDenominator(tt, t) != 0.0
    ensures TanToLocal(tt, TanToGlobal(tt, Real(t))) == Real(t)
  {
    var e := 1.0 - tt * t;
    var g := (tt + t) / e;
    assert TanToGlobal(tt, Real(t)) == Real(g);
    DivTimes(tt + t, e);
    var u := 1.0 + tt * g;
    var v := g - tt;
    assert u * e == e + tt * (g * e);
    assert u * e == 1.0 + tt * tt;
    assert v * e == g * e - tt * e;
    assert v * e == t * (1.0 + tt * tt);
    assert u != 0.0;
    Cancel(v, t * u, e);
    assert TanToLocal(tt, Real(g)) == Real(v / u);
    assert v / u == t;
  }

  lemma DivTimes(a: real, d: real)
    requires d != 0.0
    ensures (a / d) * d == a
  {
  }

  lemma Cancel(a: real, b: real, d: real)
    requires d != 0.0 && a * d == b * d
    ensures a == b
  {
    assert (a - b) * d == 0.0;
  }

  /** The absolute heading of a ray in degrees: arctan of tan_theta, plus 180 when the ray
      runs backwards (`forward < 0`; a NaN forward counts as not backwards). */
  function Heading(trig: Trig, r: Ray): Num {
    Add(Lift(trig.atanDeg, r.tanTheta), Real(if Less(r.forward, Real(0.0)) then 180.0 else 0.0))
  }

  /** `a - floor(a / 360) * 360`. */
  function Normalize(a: Num): Num {
    if a.Real? then Real(a.r - ((a.r / 360.0).Floor as real) * 360.0) else NaN
  }

  /** Normalising lands in [0, 360) and differs from the heading by whole turns. */
  lemma NormalizeRange(a: real)
    ensures Normalize(Real(a)).Real?
    ensures 0.0 <= Normalize(Real(a)).r < 360.0
    ensures var turns := (a - Normalize(Real(a)).r) / 360.0; turns.Floor as real == turns
  {
    var q := a / 360.0;
    var f := q.Floor;
    assert f as real <= q < f as real + 1.0;
    assert a == q * 360.0;
    assert f as real * 360.0 <= a;
    assert a < f as real * 360.0 + 360.0;
    assert Normalize(Real(a)).r == a - f as real * 360.0;
  }

  /** The half-plane flag: +0.5 for headings below 90 or above 270 degrees, -0.5
      otherwise; a NaN heading is read as 90 and so gives -0.5. */
  function HalfPlane(a: Num): (f: Num)
    ensures f == Real(0.5) || f == Real(-0.5)
    ensures a.NaN? ==> f == Real(-0.5)
  {
    var h := if a.NaN? then 90.0 else a.r;
    Real(if h < 90.0 || h > 270.0 then 0.5 else -0.5)
  }

  /** One ray into the element frame: the point and tan_theta move, `forward` is the
      half-plane flag of the heading minus theta normalised into [0, 360), and group and
      wavelength stay. */
  function RayToElement(trig: Trig, o: RotateObject, r: Ray): (l: Ray)
    ensures l.Points() == PointToObject(trig, o, r.Points())
    ensures l.tanTheta == TanToLocal(trig.tanDeg(o.theta), r.tanTheta)
    ensures l.forward == HalfPlane(Normalize(Sub(Heading(trig, r), Real(o.theta))))
    ensures l.group == r.group && l.wavelength == r.wavelength
  {
    var p := PointToObject(trig, o, r.Points());
    var heading := Normalize(Sub(Heading(trig, r), Real(o.theta)));
    r.(x := p.x, y := p.y, tanTheta := TanToLocal(trig.tanDeg(o.theta), r.tanTheta),
       forward := HalfPlane(heading))
  }

  /** One ray back to the global frame: the point and tan_theta move, `forward` is the
      half-plane flag of the heading plus theta, not normalised, and group and wavelength
      stay. */
  function RayToGlobal(trig: Trig, o: RotateObject, r: Ray): (g: Ray)
    ensures g.Points() == PointToGlobal(trig, o, r.Points())
    ensures g.tanTheta == TanToGlobal(trig.tanDeg(o.theta), r.tanTheta)
    ensures g.forward == HalfPlane(Add(Heading(trig, r), Real(o.theta)))
    ensures g.group == r.group && g.wavelength == r.wavelength
  {
    var p := PointToGlobal(trig, o, r.Points());
    var heading := Add(Heading(trig, r), Real(o.theta));
    r.(x := p.x, y := p.y, tanTheta := TanToGlobal(trig.tanDeg(o.theta), r.tanTheta),
       forward := HalfPlane(heading))
  }

  /** Whole turns do not change the normalised heading. */
  lemma NormalizePeriodic(a: real, k: int)
    ensures Normalize(Real(a + 360.0 * k as real)) == Normalize(Real(a))
  {
    var q := a / 360.0;
    var q2 := (a + 360.0 * k as real) / 360.0;
    assert q2 == q + k as real;
    assert q2.Floor == q.Floor + k;
  }

  /** `to_global_frame_of_reference` as evidently intended: the heading plus theta is
      normalised into [0, 360) before the half-plane test, as on the way into the element
      frame.  Nothing but `forward` differs from the code as written. */
  function RayToGlobalFixed(trig: Trig, o: RotateObject, r: Ray): (g: Ray)
    ensures g == RayToGlobal(trig, o, r).(forward := g.forward)
    ensures g.forward == HalfPlane(Normalize(Add(Heading(trig, r), Real(o.theta))))
  {
    var p := PointToGlobal(trig, o, r.Points());
    var heading := Normalize(Add(Heading(trig, r), Real(o.theta)));
    r.(x := p.x, y := p.y, tanTheta := TanToGlobal(trig.tanDeg(o.theta), r.tanTheta),
       forward := HalfPlane(heading))
  }

  /** As written, a heading that leaves [-90, 450) is misread: a forward ray along the axis
      of an element turned by -120 degrees runs at 240 degrees, that is backwards, but is
      flagged forward, while the same element turned by +240 degrees flags it backwards. */
  lemma GlobalForwardDependsOnTurns(trig: Trig, origin: Vec, r: Ray)
    requires trig.atanDeg(0.0) == 0.0
    requires r.tanTheta == Real(0.0) && r.forward == Real(0.5)
    ensures RayToGlobal(trig, RotateObject(origin, -120.0), r).forward == Real(0.5)
    ensures RayToGlobal(trig, RotateObject(origin, 240.0), r).forward == Real(-0.5)
  {
    assert Heading(trig, r) == Real(0.0);
  }

  /** Corrected, the flag depends on theta only modulo whole turns. */
  lemma GlobalForwardFixedPeriodic(trig: Trig, o: RotateObject, r: Ray, k: int)
    ensures RayToGlobalFixed(trig, o.(theta := o.theta + 360.0 * k as real), r).forward
         == RayToGlobalFixed(trig, o, r).forward
  {
    var h := Heading(trig, r);
    if h.Real? {
      NormalizePeriodic(h.r + o.theta, k);
      assert h.r + (o.theta + 360.0 * k as real) == (h.r + o.theta) + 360.0 * k as real;
    }
  }

  /** `to_element_frame_of_reference`: positions move into the element frame, tan_theta by
      the tangent-difference formula, and `forward` is recomputed from the heading minus
      theta normalised into [0, 360); group and wavelength are kept. */
  function ToElementFrame(trig: Trig, o: RotateObject, b: Batch): (r: Batch)
    ensures |r| == |b|
    ensures forall i :: 0 <= i < |b| ==>
      && r[i].Points() == PointToObject(trig, o, b[i].Points())
      && r[i].tanTheta == TanToLocal(trig.tanDeg(o.theta), b[i].tanTheta)
      && r[i].group == b[i].group && r[i].wavelength == b[i].wavelength
    ensures forall i :: 0 <= i < |b| ==>
      r[i].forward == HalfPlane(Normalize(Sub(Heading(trig, b[i]), Real(o.theta))))
    ensures forall i :: 0 <= i < |b| ==> r[i].forward == Real(0.5) || r[i].forward == Real(-0.5)
    ensures forall i :: 0 <= i < |b| && b[i].tanTheta.NaN? ==> r[i].forward == Real(-0.5)
  {
    seq(|b|, i requires 0 <= i < |b| => RayToElement(trig, o, b[i]))
  }

  /** `to_global_frame_of_reference`: positions move back to the global frame, tan_theta by
      the tangent-sum formula, and `forward` is recomputed from the heading plus theta,
      without normalising it first; group and wavelength are kept. */
  function ToGlobalFrame(trig: Trig, o: RotateObject, b: Batch): (r: Batch)
    ensures |r| == |b|
    ensures forall i :: 0 <= i < |b| ==>
      && r[i].Points() == PointToGlobal(trig, o, b[i].Points())
      && r[i].tanTheta == TanToGlobal(trig.tanDeg(o.theta), b[i].tanTheta)
      && r[i].group == b[i].group && r[i].wavelength == b[i].wavelength
    ensures forall i :: 0 <= i < |b| ==>
      r[i].forward == HalfPlane(Add(Heading(trig, b[i]), Real(o.theta)))
    ensures forall i :: 0 <= i < |b| ==> r[i].forward == Real(0.5) || r[i].forward == Real(-0.5)
    ensures forall i :: 0 <= i < |b| && b[i].tanTheta.NaN? ==> r[i].forward == Real(-0.5)
  {
    seq(|b|, i requires 0 <= i < |b| => RayToGlobal(trig, o, b[i]))
  }

  /** `to_global_frame_of_reference` with the heading normalised; see `RayToGlobalFixed`. */
  function ToGlobalFrameFixed(trig: Trig, o: RotateObject, b: Batch): (r: Batch)
    ensures |r| == |b|
    ensures forall i :: 0 <= i < |b| ==> r[i] == ToGlobalFrame(trig, o, b)[i].(forward := r[i].forward)
    ensures forall i :: 0 <= i < |b| ==>
      r[i].forward == HalfPlane(Normalize(Add(Heading(trig, b[i]), Real(o.theta))))
  {
    seq(|b|, i requires 0 <= i < |b| => RayToGlobalFixed(trig, o, b[i]))
  }

  /** The way back to the global frame under a reading: as written, or with the heading
      normalised.  The readings differ in `forward` only. */
  function ToGlobal(trig: Trig, v: Reading, o: RotateObject, b: Batch): (r: Batch)
    ensures |r| == |b|
    ensures forall i :: 0 <= i < |b| ==> r[i] == ToGlobalFrame(trig, o, b)[i].(forward := r[i].forward)
    ensures v.AsWritten? ==> forall i :: 0 <= i < |b| ==>
      r[i].forward == HalfPlane(Add(Heading(trig, b[i]), Real(o.theta)))
    ensures v.Corrected? ==> forall i :: 0 <= i < |b| ==>
      r[i].forward == HalfPlane(Normalize(Add(Heading(trig, b[i]), Real(o.theta))))
  {
    if v.AsWritten? then ToGlobalFrame(trig, o, b) else ToGlobalFrameFixed(trig, o, b)
  }

  /** A ray taken into the element frame and back keeps its position, its tan_theta, its
      group and its wavelength, whenever the tangent-difference denominator is not 0. */
  lemma RayRoundTrip(trig: Trig, o: RotateObject, r: Ray)
    requires o.theta == 0.0 || RotationLaws(trig, o.theta)
    requires r.x.Real? && r.y.Real? && r.tanTheta.Real?
    requires LocalDenominator(trig.tanDeg(o.theta), r.tanTheta.r) != 0.0
    ensures var back := RayToGlobal(trig, o, RayToElement(trig, o, r));
      back.Points() == r.Points() && back.tanTheta == r.tanTheta
      && back.group == r.group && back.wavelength == r.wavelength
  {
    var local := RayToElement(trig, o, r);
    var back := RayToGlobal(trig, o, local);
    assert local.Points() == PointToObject(trig, o, r.Points());
    PointRoundTrip(trig, o, r.Points());
    assert back.Points() == PointToGlobal(trig, o, local.Points());
    assert r.tanTheta == Real(r.tanTheta.r);
    TanBackFromLocal(trig.tanDeg(o.theta), r.tanTheta.r);
  }

  /** The same the other way round: out to the global frame and back into the element. */
  lemma RayRoundTripFromElement(trig: Trig, o: RotateObject, r: Ray)
    requires o.theta == 0.0 || RotationLaws(trig, o.theta)
    requires r.x.Real? && r.y.Real? && r.tanTheta.Real?
    requires GlobalDenominator(trig.tanDeg(o.theta), r.tanTheta.r) != 0.0
    ensures var back := RayToElement(trig, o, RayToGlobal(trig, o, r));
      back.Points() == r.Points() && back.tanTheta == r.tanTheta
      && back.group == r.group && back.wavelength == r.wavelength
  {
    var global := RayToGlobal(trig, o, r);
    var back := RayToElement(trig, o, global);
    assert global.Points() == PointToGlobal(trig, o, r.Points());
    PointRoundTrip(trig, o, r.Points());
    assert back.Points() == PointToObject(trig, o, global.Points());
    assert r.tanTheta == Real(r.tanTheta.r);
    TanBackFromGlobal(trig.tanDeg(o.theta), r.tanTheta.r);
  }

  /** Batch form of the round trip: every ray with real fields and a non-zero denominator
      comes back to where it was, pointing where it pointed. */
  lemma BatchRoundTrip(trig: Trig, o: RotateObject, b: Batch)
    requires o.theta == 0.0 || RotationLaws(trig, o.theta)
    requires forall i :: 0 <= i < |b| ==>
      b[i].x.Real? && b[i].y.Real? && b[i].tanTheta.Real?
      && LocalDenominator(trig.tanDeg(o.theta), b[i].tanTheta.r) != 0.0
    ensures var back := ToGlobalFrame(trig, o, ToElementFrame(trig, o, b));
      |back| == |b| &&
      forall i :: 0 <= i < |b| ==>
        back[i].Points() == b[i].Points() && back[i].tanTheta == b[i].tanTheta
        && back[i].group == b[i].group && back[i].wavelength == b[i].wavelength
  {
    var local := ToElementFrame(trig, o, b);
    var back := ToGlobalFrame(trig, o, local);
    forall i | 0 <= i < |b|
      ensures back[i].Points() == b[i].Points() && back[i].tanTheta == b[i].tanTheta
      ensures back[i].group == b[i].group && back[i].wavelength == b[i].wavelength
    {
      assert local[i] == RayToElement(trig, o, b[i]);
      assert back[i] == RayToGlobal(trig, o, local[i]);
      RayRoundTrip(trig, o, b[i]);
    }
  }
}

=== FILE: legacy_elements.dfy ===
/** `ParabolicMirror.intersection_of` of the first generation, raypy/elements.py, as
    written.  Its elements otherwise behave like those of the single-file generation (see
    `ArrayTracing`); this formula alone differs, and it does not solve for the point where
    the ray's own line meets the parabola. */
module LegacyElements {
  import opened Num
  import opened Transcendental
  import opened Algebra
  import ParabolicMirrorElement

  /** The height the parabolic mirror computes, 2 (sqrt(f) sqrt(a^2 f + y) + a f): real
      exactly when both square roots exist. */
  function Height(trig: Trig, f: real, a: Num, y: Num): (h: Num)
    ensures h.Real? <==> a.Real? && y.Real? && f >= 0.0 && Prod(Prod(a.r, a.r), f) + y.r >= 0.0
  {
    assert a.Real? && y.Real? ==> Add(Mul(Mul(a, a), Real(f)), y) == Real(Prod(Prod(a.r, a.r), f) + y.r) by {
      if a.Real? && y.Real? { MulProd(a.r, a.r); MulProd(Prod(a.r, a.r), f); }
    }
    Mul(Real(2.0), Add(Mul(Sqrt(trig, Real(f)), Sqrt(trig, Add(Mul(Mul(a, a), Real(f)), y))), Mul(a, Real(f))))
  }

  /** `ParabolicMirror.intersection_of` on one row, as written: the height above goes to
      column 1 and its depth on the parabola, 1 / (4 f) Y Y, to column 0. */
  function HitAsWritten(trig: Trig, f: real, row: seq<Num>): (r: seq<Num>)
    requires |row| >= 3
    ensures |r| == |row| && r[2..] == row[2..]
    ensures r[1] == Height(trig, f, row[2], row[1])
    ensures r[1].NaN? ==> r[0].NaN?
  {
    var h := Height(trig, f, row[2], row[1]);
    row[0 := Mul(Mul(Div(Real(1.0), Real(4.0 * f)), h), h)][1 := h]
  }

  /** On real inputs whose square roots exist the height is the real formula. */
  lemma HeightReal(trig: Trig, f: real, a: real, y: real)
    requires f >= 0.0 && Prod(Prod(a, a), f) + y >= 0.0
    ensures Height(trig, f, Real(a), Real(y)) ==
      Real(2.0 * (Prod(trig.sqrt(f), trig.sqrt(Prod(Prod(a, a), f) + y)) + Prod(a, f)))
  {
    var q := Prod(Prod(a, a), f) + y;
    MulProd(a, a);
    MulProd(Prod(a, a), f);
    MulProd(a, f);
    MulProd(trig.sqrt(f), trig.sqrt(q));
    assert Sqrt(trig, Add(Mul(Mul(Real(a), Real(a)), Real(f)), Real(y))) == Real(trig.sqrt(q));
  }

  /** A real height h puts the ray at depth 1 / (4 f) h h. */
  lemma HitAsWrittenReal(trig: Trig, f: real, row: seq<Num>, h: real)
    requires f != 0.0 && |row| >= 3 && Height(trig, f, row[2], row[1]) == Real(h)
    ensures HitAsWritten(trig, f, row)[1] == Real(h)
    ensures HitAsWritten(trig, f, row)[0] == Real(Prod(Prod(1.0 / (4.0 * f), h), h))
  {
    assert Div(Real(1.0), Real(4.0 * f)) == Real(1.0 / (4.0 * f));
    MulProd(1.0 / (4.0 * f), h);
    MulProd(Prod(1.0 / (4.0 * f), h), h);
  }

  /** 4 f (1 / (4 f) h h) = h h. */
  lemma QuarterDepth(f: real, h: real)
    requires f != 0.0
    ensures Prod(4.0 * f, Prod(Prod(1.0 / (4.0 * f), h), h)) == Prod(h, h)
  {
    var k := 1.0 / (4.0 * f);
    assert Prod(4.0 * f, k) == 1.0;
    assert Prod(4.0 * f, Prod(Prod(k, h), h)) == Prod(Prod(4.0 * f, k), Prod(h, h));
  }

  /** As written, the point is on the parabola X = Y^2 / (4 f) whenever its height is
      real, and NaN otherwise. */
  lemma HitAsWrittenOnParabola(trig: Trig, f: real, row: seq<Num>)
    requires f != 0.0 && |row| >= 3
    ensures HitAsWritten(trig, f, row)[1].Real? ==>
      && HitAsWritten(trig, f, row)[0].Real?
      && ParabolicMirrorElement.OnParabola(f, HitAsWritten(trig, f, row)[0].r, HitAsWritten(trig, f, row)[1].r)
    ensures HitAsWritten(trig, f, row)[1].NaN? ==> HitAsWritten(trig, f, row)[0].NaN?
  {
    var h := Height(trig, f, row[2], row[1]);
    if h.Real? {
      HitAsWrittenReal(trig, f, row, h.r);
      QuarterDepth(f, h.r);
    }
  }

  /** The square of the height: with s1 = sqrt(f), s2 = sqrt(a^2 f + y), the height
      2 (s1 s2 + a f) squares to 4 f (y + a Y). */
  lemma HeightSquare(f: real, a: real, y: real, s1: real, s2: real)
    requires Prod(s1, s1) == f && Prod(s2, s2) == Prod(Prod(a, a), f) + y
    ensures var h := 2.0 * (Prod(s1, s2) + Prod(a, f));
      Prod(h, h) == Prod(4.0 * f, y + Prod(a, h))
  {
    var p := Prod(s1, s2);
    var af := Prod(a, f);
    assert Prod(p, p) == Prod(Prod(s1, s1), Prod(s2, s2));
    assert Prod(p, p) == Prod(f, Prod(Prod(a, a), f) + y);
    assert Prod(f, Prod(Prod(a, a), f)) == Prod(af, af);
    var h := 2.0 * (p + af);
    assert Prod(h, h) == 4.0 * (Prod(p, p) + 2.0 * Prod(af, p) + Prod(af, af));
    assert Prod(a, h) == 2.0 * (Prod(a, p) + Prod(a, af));
    assert Prod(4.0 * f, y + Prod(a, h)) == 4.0 * (Prod(f, y) + 2.0 * Prod(af, p) + 2.0 * Prod(af, af));
  }

  /** What the formula as written solves: the point lies on X = y + a Y, the ray's line
      with the two coordinates exchanged, instead of on Y = y + a X. */
  lemma HitAsWrittenSwapsLine(trig: Trig, f: real, row: seq<Num>)
    requires f > 0.0 && |row| >= 3 && row[1].Real? && row[2].Real?
    requires Prod(Prod(row[2].r, row[2].r), f) + row[1].r >= 0.0
    requires RootLaw(trig, f) && RootLaw(trig, Prod(Prod(row[2].r, row[2].r), f) + row[1].r)
    ensures HitAsWritten(trig, f, row)[0].Real? && HitAsWritten(trig, f, row)[1].Real?
    ensures HitAsWritten(trig, f, row)[0].r == row[1].r + row[2].r * HitAsWritten(trig, f, row)[1].r
  {
    var a, y := row[2].r, row[1].r;
    var s1, s2 := trig.sqrt(f), trig.sqrt(Prod(Prod(a, a), f) + y);
    HeightReal(trig, f, a, y);
    var h := 2.0 * (Prod(s1, s2) + Prod(a, f));
    assert row[2] == Real(a) && row[1] == Real(y);
    HitAsWrittenReal(trig, f, row, h);
    QuarterDepth(f, h);
    HeightSquare(f, a, y, s1, s2);
    var x := Prod(Prod(1.0 / (4.0 * f), h), h);
    assert Prod(x, 4.0 * f) == Prod(y + Prod(a, h), 4.0 * f);
    CancelFactor(x, y + Prod(a, h), 4.0 * f);
  }

  /** The discrepancy on one ray: with f = 1 a ray parallel to the axis at height 1 is put
      at (1, 2), off its own line Y = 1. */
  lemma HitAsWrittenOffRayLine(trig: Trig)
    requires RootLaw(trig, 1.0)
    ensures var row := [Real(0.0), Real(1.0), Real(0.0)];
      && HitAsWritten(trig, 1.0, row) == [Real(1.0), Real(2.0), Real(0.0)]
      && HitAsWritten(trig, 1.0, row)[1].r != row[1].r + row[2].r * HitAsWritten(trig, 1.0, row)[0].r
  {
    UnitRoot(trig);
    HeightAtUnit(trig);
    assert Prod(Prod(1.0 / 4.0, 2.0), 2.0) == 1.0;
  }

  /** A square root that squares back takes 1 to 1. */
  lemma UnitRoot(trig: Trig)
    requires RootLaw(trig, 1.0)
    ensures trig.sqrt(1.0) == 1.0
  {
    var s := trig.sqrt(1.0);
    assert Prod(s - 1.0, s + 1.0) == Prod(s, s) - 1.0;
    assert Prod(s - 1.0, s + 1.0) == Prod(0.0, s + 1.0);
    CancelFactor(s - 1.0, 0.0, s + 1.0);
  }

  /** With f = 1, slope 0 and height 1 the height formula gives 2. */
  lemma HeightAtUnit(trig: Trig)
    requires trig.sqrt(1.0) == 1.0
    ensures Height(trig, 1.0, Real(0.0), Real(1.0)) == Real(2.0)
  {
  }
}

=== FILE: lens.dfy ===
/** `Lens` of raypy2d/elements/lens.py: a thin lens of focal length f. */
module LensElement {
  import opened Num
  import opened Linear
  import opened RayData
  import opened Outcome
  import opened ElementBase

  /** [[1, 0], [-1/f, 1]]; a zero focal length is a Python float division by zero. */
  function Matrix(f: real): (r: Result<Mat2>)
    ensures r.Err? <==> f == 0.0
    ensures r.Err? ==> r.error == ZeroDivision
    ensures r.Ok? ==> r.value.a == 1.0 && r.value.b == 0.0 && r.value.d == 1.0 && r.value.c * f == -1.0
  {
    if f == 0.0 then Err(ZeroDivision) else Ok(Mat2(1.0, 0.0, -1.0 / f, 1.0))
  }

  /** The lens does not reflect. */
  const Mirroring: bool := false

  /** Thin-lens refraction: the height stays, the slope drops by y / f, the direction
      flag stays. */
  lemma Refract(f: real, r: Ray)
    requires f != 0.0 && r.y.Real? && r.tanTheta.Real?
    ensures TransformRay(Matrix(f).value, Mirroring, r) == r.(tanTheta := Real(r.tanTheta.r - r.y.r / f))
  {
    TransformRayReal(Matrix(f).value, Mirroring, r);
    assert -1.0 / f * r.y.r == -(r.y.r / f);
  }

  /** A ray through the centre of the lens keeps its slope. */
  lemma RefractCentral(f: real, r: Ray)
    requires f != 0.0 && r.y == Real(0.0) && r.tanTheta.Real?
    ensures TransformRay(Matrix(f).value, Mirroring, r) == r
  {
    Refract(f, r);
    assert 0.0 / f == 0.0;
  }

  /** A ray parallel to the axis leaves with slope -y / f, aimed at the focal point. */
  lemma RefractParallel(f: real, r: Ray)
    requires f != 0.0 && r.y.Real? && r.tanTheta == Real(0.0)
    ensures TransformRay(Matrix(f).value, Mirroring, r).tanTheta == Real(-r.y.r / f)
  {
    Refract(f, r);
    assert -r.y.r / f == 0.0 - r.y.r / f;
  }

  /** A lens of focal length -f undoes a lens of focal length f. */
  lemma RefractInverse(f: real, b: Batch)
    requires f != 0.0
    requires forall i :: 0 <= i < |b| ==> b[i].y.Real? && b[i].tanTheta.Real?
    ensures TransformRays(Matrix(-f).value, Mirroring, TransformRays(Matrix(f).value, Mirroring, b)) == b
  {
    var once := TransformRays(Matrix(f).value, Mirroring, b);
    var twice := TransformRays(Matrix(-f).value, Mirroring, once);
    forall i | 0 <= i < |b|
      ensures twice[i] == b[i]
    {
      Refract(f, b[i]);
      Refract(-f, once[i]);
      assert b[i].y.r / -f == -(b[i].y.r / f);
    }
  }
}

=== FILE: linear.dfy ===
/** The 2x2 matrices of the paraxial (ABCD) model and of plane rotations. */
module Linear {
  import opened Num

  /** The matrix [[a, b], [c, d]]. */
  datatype Mat2 = Mat2(a: real, b: real, c: real, d: real)

  const Identity: Mat2 := Mat2(1.0, 0.0, 0.0, 1.0)

  /** A column vector of two floats. */
  datatype Pair = Pair(u: Num, v: Num)

  /** `np.dot(m, (u, v))` evaluated in float64 order: NaN in either operand reaches both
      components, since 0 * NaN is NaN. */
  function Apply(m: Mat2, p: Pair): Pair {
    Pair(Add(Mul(Real(m.a), p.u), Mul(Real(m.b), p.v)), Add(Mul(Real(m.c), p.u), Mul(Real(m.d), p.v)))
  }

  function Compose(m: Mat2, n: Mat2): Mat2 {
    Mat2(m.a * n.a + m.b * n.c, m.a * n.b + m.b * n.d,
         m.c * n.a + m.d * n.c, m.c * n.b + m.d * n.d)
  }

  /** On a real vector the product is the exact real product. */
  lemma ApplyReal(m: Mat2, u: real, v: real)
    ensures Apply(m, Pair(Real(u), Real(v))) == Pair(Real(m.a * u + m.b * v), Real(m.c * u + m.d * v))
  {
    var r := Apply(m, Pair(Real(u), Real(v)));
    assert r.u == Real(m.a * u + m.b * v);
    assert r.v == Real(m.c * u + m.d * v);
  }
}

=== FILE: mirror.dfy ===
/** `Mirror` of raypy2d/elements/mirror.py: a flat reflecting aperture. */
module MirrorElement {
  import opened Num
  import opened Linear
  import opened RayData
  import opened Transcendental
  import opened ElementBase

  /** diag(1, -1): the height stays, the slope changes sign. */
  const Matrix: Mat2 := Mat2(1.0, 0.0, 0.0, -1.0)

  const Mirroring: bool := true

  /** The mirror keeps a real height, negates a real slope and turns the ray around. */
  lemma Reflect(r: Ray)
    requires r.y.Real? && r.tanTheta.Real?
    ensures TransformRay(Matrix, Mirroring, r) == r.(tanTheta := Real(-r.tanTheta.r), forward := Neg(r.forward))
  {
    TransformRayReal(Matrix, Mirroring, r);
  }

  /** Reflecting twice gives back every ray with real (y, tan_theta), `forward` included. */
  lemma ReflectInvolution(b: Batch)
    requires forall i :: 0 <= i < |b| ==> b[i].y.Real? && b[i].tanTheta.Real?
    ensures TransformRays(Matrix, Mirroring, TransformRays(Matrix, Mirroring, b)) == b
  {
    var once := TransformRays(Matrix, Mirroring, b);
    var twice := TransformRays(Matrix, Mirroring, once);
    forall i | 0 <= i < |b|
      ensures twice[i] == b[i]
    {
      Reflect(b[i]);
      Reflect(once[i]);
    }
  }

  /** The product is a float64 product: a ray already blocked (NaN slope) also loses its
      height, because 0 * NaN is NaN. */
  lemma ReflectBlocked(r: Ray)
    requires r.tanTheta.NaN?
    ensures TransformRay(Matrix, Mirroring, r).y.NaN? && TransformRay(Matrix, Mirroring, r).tanTheta.NaN?
  {
  }

  /** `Mirror.edges`: the aperture edges in reverse order, which are the edges of the same
      element with `flipped` toggled. */
  function Edges(trig: Trig, o: RotateObject, diameter: real, flipped: bool): (e: seq<Point>)
    ensures e == ElementBase.Edges(trig, o, diameter, !flipped)
  {
    SwapToGlobal(trig, o, LocalEdges(diameter, flipped));
    Swap(ElementBase.Edges(trig, o, diameter, flipped))
  }
}

=== FILE: num.dfy ===
/** Scalars of the tracer.  Every field of a ray batch is a float64 of a NumPy array; the
    model reads it as an exact real number or as NaN, the sentinel the tracer uses both for
    "unset" (a wavelength nobody assigned yet) and for "invalidated" (a blocked ray).
    Arithmetic propagates NaN and every ordered comparison with NaN is false, as in IEEE 754.
    Infinities are not represented: a division by zero, which float64 turns into an infinity
    or NaN, yields NaN here. */
module Num {

  datatype Num = Real(r: real) | NaN

  function Add(a: Num, b: Num): Num {
    if a.Real? && b.Real? then Real(a.r + b.r) else NaN
  }

  function Sub(a: Num, b: Num): Num {
    if a.Real? && b.Real? then Real(a.r - b.r) else NaN
  }

  function Mul(a: Num, b: Num): Num {
    if a.Real? && b.Real? then Real(a.r * b.r) else NaN
  }

  function Neg(a: Num): Num {
    if a.Real? then Real(-a.r) else NaN
  }

  /** Division; a zero divisor gives NaN (float64 would give an infinity unless 0/0). */
  function Div(a: Num, b: Num): Num {
    if a.Real? && b.Real? && b.r != 0.0 then Real(a.r / b.r) else NaN
  }

  function Abs(a: Num): Num {
    if a.NaN? then NaN else if a.r < 0.0 then Real(-a.r) else a
  }

  /** `a < b`: false when either side is NaN. */
  predicate Less(a: Num, b: Num) {
    a.Real? && b.Real? && a.r < b.r
  }

  /** `a > b`: false when either side is NaN. */
  predicate Greater(a: Num, b: Num) {
    a.Real? && b.Real? && a.r > b.r
  }

  /** `a == b` on floats: NaN equals nothing, not even NaN. */
  predicate Same(a: Num, b: Num) {
    a.Real? && b.Real? && a.r == b.r
  }

  /** An upper bound that may be `float('+Inf')`, the default blocker diameter. */
  datatype Bound = Finite(v: real) | PosInf

  /** `bound > d` for a finite d. */
  predicate Exceeds(bound: Bound, d: real) {
    bound.PosInf? || bound.v > d
  }
}

=== FILE: outcome.dfy ===
/** Hard failures of the tracer: the Python exceptions its code raises. */
module Outcome {

  datatype Error =
    | AssertionFailed    // an `assert` of a constructor
    | ZeroDivision       // Python float division by zero
    | IndexOutOfRange    // indexing an empty list
    | MissingKey         // a dictionary lookup without entry
    | NegativeDimension  // a NumPy shape with a negative extent

  datatype Result<+T> = Ok(value: T) | Err(error: Error) {
    predicate IsFailure() {
      Err?
    }

    function PropagateFailure<U>(): Result<U>
      requires Err?
    {
      Err(error)
    }

    function Extract(): T
      requires Ok?
    {
      value
    }
  }
}

=== FILE: parabolic_mirror.dfy ===
/** `ParabolicMirror` of raypy2d/elements/parabolic_mirror.py: a reflecting parabola
    X = Y^2 / (4 f) in the element frame, vertex at the origin, cut off at the rim
    |Y| = D / 2.  Rays are first carried to the exact point where their line meets the
    parabola; rays that would meet it outside the rim are stopped on the blocker plane
    X = x_blocker instead. */
module ParabolicMirrorElement {
  import opened Num
  import opened Linear
  import opened RayData
  import opened Outcome
  import opened Transcendental
  import opened Frame
  import opened ElementBase
  import opened ApertureElement
  import opened Algebra
  import LensElement

  /** The lens matrix with entry [1, 1] negated: [[1, 0], [-1/f, -1]]. */
  function Matrix(f: real): (r: Result<Mat2>)
    ensures r.Err? <==> f == 0.0
    ensures r.Ok? ==> r.value == LensElement.Matrix(f).value.(d := -1.0)
  {
    var m :- LensElement.Matrix(f);
    Ok(m.(d := -m.d))
  }

  const Mirroring: bool := true

  /** The parabolic mirror reflects like a concave mirror of focal length f: the slope
      becomes -(tan_theta + y / f) and the ray turns around. */
  lemma Reflect(f: real, r: Ray)
    requires f != 0.0 && r.y.Real? && r.tanTheta.Real?
    ensures TransformRay(Matrix(f).value, Mirroring, r)
         == r.(tanTheta := Real(-(r.tanTheta.r + r.y.r / f)), forward := Neg(r.forward))
  {
    TransformRayReal(Matrix(f).value, Mirroring, r);
    assert -1.0 / f * r.y.r == -(r.y.r / f);
  }

  /** The mirror surface in the element frame: the point (X, Y) has X = Y^2 / (4 f). */
  predicate OnParabola(f: real, x: real, y: real) {
    4.0 * f * x == y * y
  }

  /** `x_blocker`: the depth of the parabola at the rim, on both ends of it. */
  function XBlocker(f: real, diameter: real): (xb: real)
    requires f != 0.0
    ensures OnParabola(f, xb, diameter / 2.0) && OnParabola(f, xb, -diameter / 2.0)
  {
    assert (-diameter / 2.0) * (-diameter / 2.0) == (diameter / 2.0) * (diameter / 2.0);
    1.0 / (4.0 * f) * ((diameter / 2.0) * (diameter / 2.0))
  }

  /** The depth x the code computes before the rim test, as written: the closed-form root
      (2 sqrt(f (f - a y)) + a y - 2 f) / a^2 of the ray line meeting the parabola, and
      y^2 / (4 f) for a slope equal to 0.  A NaN slope never equals 0. */
  function Depth(trig: Trig, f: real, a: Num, y: Num): (x: Num)
    ensures !Same(a, Real(0.0)) ==> x == RootDepth(trig, f, a, y)
    ensures Same(a, Real(0.0)) ==> (x.Real? <==> y.Real? && f != 0.0)
    ensures Same(a, Real(0.0)) && x.Real? ==> x == Real(y.r * y.r / (4.0 * f)) && OnParabola(f, x.r, y.r)
  {
    if Same(a, Real(0.0)) then
      assert y.Real? && f != 0.0 ==> Prod(4.0 * f, y.r * y.r / (4.0 * f)) == y.r * y.r;
      Div(Mul(y, y), Real(4.0 * f))
    else RootDepth(trig, f, a, y)
  }

  /** The quantity under the square root: the line Y = y + a X meets the parabola exactly
      when it is non-negative. */
  function Discriminant(f: real, a: real, y: real): real {
    f * (f - a * y)
  }

  /** The closed-form root: real exactly for a real ray with a non-zero slope whose line
      reaches the parabola, and then, with a square root that squares back, the ray line
      meets X = Y^2 / (4 f) at X = -x. */
  function RootDepth(trig: Trig, f: real, a: Num, y: Num): (x: Num)
    ensures x.Real? <==> a.Real? && y.Real? && a.r != 0.0 && Discriminant(f, a.r, y.r) >= 0.0
    ensures x.Real? ==> x == Real(RootValue(f, a.r, y.r, trig.sqrt(Discriminant(f, a.r, y.r))))
    ensures x.Real? && RootLaw(trig, Discriminant(f, a.r, y.r)) ==> OnParabola(f, -x.r, y.r - a.r * x.r)
  {
    RootFormula(trig, f, a, y);
    Div(Sub(Add(Mul(Real(2.0), Sqrt(trig, Mul(Real(f), Sub(Real(f), Mul(a, y))))), Mul(a, y)), Real(2.0 * f)), Mul(a, a))
  }

  /** The root in real arithmetic, for the square root s of the discriminant. */
  function RootValue(f: real, a: real, y: real, s: real): real
    requires a != 0.0
  {
    (2.0 * s + a * y - 2.0 * f) / (a * a)
  }

  /** What the code's root expression computes, in the terms of RootDepth's contract. */
  lemma RootFormula(trig: Trig, f: real, a: Num, y: Num)
    ensures var x := Div(Sub(Add(Mul(Real(2.0), Sqrt(trig, Mul(Real(f), Sub(Real(f), Mul(a, y))))), Mul(a, y)), Real(2.0 * f)), Mul(a, a));
      && (x.Real? <==> a.Real? && y.Real? && a.r != 0.0 && Discriminant(f, a.r, y.r) >= 0.0)
      && (x.Real? ==> x == Real(RootValue(f, a.r, y.r, trig.sqrt(Discriminant(f, a.r, y.r)))))
      && (x.Real? && RootLaw(trig, Discriminant(f, a.r, y.r)) ==> OnParabola(f, -x.r, y.r - a.r * x.r))
  {
    var x := Div(Sub(Add(Mul(Real(2.0), Sqrt(trig, Mul(Real(f), Sub(Real(f), Mul(a, y))))), Mul(a, y)), Real(2.0 * f)), Mul(a, a));
    if a.Real? && y.Real? {
      var d := Discriminant(f, a.r, y.r);
      assert Mul(a, y) == Real(a.r * y.r);
      assert Mul(Real(f), Sub(Real(f), Mul(a, y))) == Real(d);
      if a.r != 0.0 {
        SquareNonZero(a.r);
        assert Mul(a, a) == Real(a.r * a.r);
        if d >= 0.0 {
          var s := trig.sqrt(d);
          assert x == Real(RootValue(f, a.r, y.r, s));
          if RootLaw(trig, d) {
            RootSquare(trig, d);
            RootOnParabola(f, a.r, y.r, s);
          }
        }
      }
    }
  }

  /** The ray line would meet the parabola at a NaN height or outside the rim. */
  function MissesRim(diameter: real, r: Ray, x: Num): (m: bool)
    ensures m <==> (r.y.NaN? || r.tanTheta.NaN? || x.NaN? ||
                    r.y.r - r.tanTheta.r * x.r < -diameter / 2.0 || diameter / 2.0 < r.y.r - r.tanTheta.r * x.r)
  {
    Outside(Sub(r.y, Mul(r.tanTheta, x)), diameter)
  }

  /** The point (X, Y) lies on the line Y = y + a X of a ray with real height and slope. */
  predicate OnRayLine(r: Ray, x: real, y: real)
    requires r.y.Real? && r.tanTheta.Real?
  {
    y == r.y.r + r.tanTheta.r * x
  }

  /** One ray of `intersection_with`, for a given depth rule.  The code stores -x as the
      new x and y - a x as the new height; a ray missing the rim gets x = -x_blocker.
      Only the position changes; a ray with a real height and slope lands on its own line
      Y = y + a X (it left the plane x = 0 at height y), either inside the rim at X = -x
      or on the blocker plane X = x_blocker. */
  function Hit(f: real, diameter: real, r: Ray, x: Num): (h: Ray)
    requires f != 0.0
    ensures h == r.(x := h.x, y := h.y)
    ensures MissesRim(diameter, r, x) ==> h.x == Real(XBlocker(f, diameter))
    ensures !MissesRim(diameter, r, x) ==>
      h.x == Neg(x) && h.y.Real? && -diameter / 2.0 <= h.y.r <= diameter / 2.0
    ensures r.y.Real? && r.tanTheta.Real? ==>
      h.x.Real? && h.y.Real? && OnRayLine(r, h.x.r, h.y.r)
  {
    if MissesRim(diameter, r, x) then
      var xb := XBlocker(f, diameter);
      r.(x := Neg(Real(-xb)), y := Sub(r.y, Mul(r.tanTheta, Real(-xb))))
    else
      r.(x := Neg(x), y := Sub(r.y, Mul(r.tanTheta, x)))
  }

  /** `intersection_with` on one ray, as written, with the code's depth rule: only the
      position changes, a real ray stays on its own line, and it lands inside the rim or
      on the blocker plane X = x_blocker. */
  function IntersectRay(trig: Trig, f: real, diameter: real, r: Ray): (h: Ray)
    requires f != 0.0
    ensures h == r.(x := h.x, y := h.y)
    ensures r.y.Real? && r.tanTheta.Real? ==>
      h.x.Real? && h.y.Real? && OnRayLine(r, h.x.r, h.y.r)
    ensures MissesRim(diameter, r, Depth(trig, f, r.tanTheta, r.y)) ==> h.x == Real(XBlocker(f, diameter))
    ensures !MissesRim(diameter, r, Depth(trig, f, r.tanTheta, r.y)) ==>
      h.y.Real? && -diameter / 2.0 <= h.y.r <= diameter / 2.0
  {
    Hit(f, diameter, r, Depth(trig, f, r.tanTheta, r.y))
  }

  /** `intersection_with`, as written: only the positions change. */
  function Intersection(trig: Trig, f: real, diameter: real, b: Batch): (r: Batch)
    requires f != 0.0
    ensures |r| == |b|
    ensures forall i :: 0 <= i < |b| ==> r[i] == b[i].(x := r[i].x, y := r[i].y)
    ensures forall i :: 0 <= i < |b| ==> r[i] == IntersectRay(trig, f, diameter, b[i])
  {
    seq(|b|, i requires 0 <= i < |b| => IntersectRay(trig, f, diameter, b[i]))
  }

  /** The line meets X = Y^2 / (4 f) at X = -x for the root depth x. */
  lemma RootOnParabola(f: real, a: real, y: real, s: real)
    requires a != 0.0 && Prod(s, s) == Discriminant(f, a, y)
    ensures var x := (2.0 * s + a * y - 2.0 * f) / (a * a);
      OnParabola(f, -x, y - a * x)
  {
    var n := 2.0 * s + a * y - 2.0 * f;
    var x := n / (a * a);
    var yy := y - a * x;
    assert a * a != 0.0;
    assert Prod(x, a * a) == n;
    assert Prod(yy, a) == a * y - Prod(x, a * a);
    assert Prod(yy, a) == 2.0 * f - 2.0 * s;
    assert Prod(Prod(yy, a), Prod(yy, a)) == Prod(2.0 * f - 2.0 * s, 2.0 * f - 2.0 * s);
    assert Prod(2.0 * f - 2.0 * s, 2.0 * f - 2.0 * s) == 4.0 * (2.0 * f * f - 2.0 * f * s - f * a * y);
    assert Prod(Prod(yy, a), Prod(yy, a)) == Prod(yy * yy, a * a);
    assert Prod(4.0 * f * -x, a * a) == Prod(-4.0 * f, Prod(x, a * a));
    assert Prod(-4.0 * f, Prod(x, a * a)) == Prod(-4.0 * f, n);
    assert Prod(-4.0 * f, n) == 4.0 * (2.0 * f * f - 2.0 * f * s - f * a * y);
    CancelSquare(4.0 * f * -x, yy * yy, a);
  }

  /** For a non-zero slope whose line reaches the parabola (f (f - a y) >= 0) the ray
      lands on the mirror surface X = Y^2 / (4 f), unless it meets it outside the rim. */
  lemma IntersectOnParabola(trig: Trig, f: real, diameter: real, r: Ray)
    requires f != 0.0 && r.y.Real? && r.tanTheta.Real? && r.tanTheta.r != 0.0
    requires Discriminant(f, r.tanTheta.r, r.y.r) >= 0.0 && RootLaw(trig, Discriminant(f, r.tanTheta.r, r.y.r))
    requires !MissesRim(diameter, r, Depth(trig, f, r.tanTheta, r.y))
    ensures var h := IntersectRay(trig, f, diameter, r);
      h.x.Real? && h.y.Real? && OnParabola(f, h.x.r, h.y.r)
  {
    var x := Depth(trig, f, r.tanTheta, r.y);
    assert x == RootDepth(trig, f, r.tanTheta, r.y);
    assert x.Real? && OnParabola(f, -x.r, r.y.r - r.tanTheta.r * x.r);
    HitReal(f, diameter, r, x.r);
  }

  /** The square root the code takes squares back to its argument. */
  lemma RootSquare(trig: Trig, v: real)
    requires v >= 0.0 && RootLaw(trig, v)
    ensures Prod(trig.sqrt(v), trig.sqrt(v)) == v
  {
  }

  /** Inside the rim a real depth x puts the ray at (-x, y - a x). */
  lemma HitReal(f: real, diameter: real, r: Ray, x: real)
    requires f != 0.0 && r.y.Real? && r.tanTheta.Real?
    requires !MissesRim(diameter, r, Real(x))
    ensures Hit(f, diameter, r, Real(x)).x == Real(-x)
    ensures Hit(f, diameter, r, Real(x)).y == Real(r.y.r - r.tanTheta.r * x)
  {
  }

  /** A parallel ray at height y meets the parabola at depth y^2 / (4 f). */
  lemma ParallelOnParabola(f: real, y: real)
    requires f != 0.0
    ensures OnParabola(f, y * y / (4.0 * f), y)
  {
    assert Prod(4.0 * f, y * y / (4.0 * f)) == y * y;
  }

  /** Its mirror image X = -y^2 / (4 f) is off the parabola unless y = 0. */
  lemma MirrorImageOffParabola(f: real, y: real)
    requires f != 0.0 && y != 0.0
    ensures !OnParabola(f, -(y * y / (4.0 * f)), y)
  {
    ParallelOnParabola(f, y);
    SquareNonZero(y);
    assert 4.0 * f * -(y * y / (4.0 * f)) == -Prod(4.0 * f, y * y / (4.0 * f));
  }

  /** As written, a ray parallel to the axis lands at X = -y^2 / (4 f): on the mirror
      image of the parabola, off the mirror for every y other than 0. */
  lemma ZeroSlopeOffParabola(trig: Trig, f: real, diameter: real, r: Ray)
    requires f != 0.0 && r.y.Real? && r.tanTheta == Real(0.0)
    requires -diameter / 2.0 <= r.y.r <= diameter / 2.0
    ensures var h := IntersectRay(trig, f, diameter, r);
      && h.x == Real(-(r.y.r * r.y.r / (4.0 * f))) && h.y == r.y
      && (r.y.r != 0.0 ==> !OnParabola(f, h.x.r, h.y.r))
  {
    var y := r.y.r;
    var x := y * y / (4.0 * f);
    assert Mul(r.y, r.y) == Real(y * y);
    assert Depth(trig, f, r.tanTheta, r.y) == Real(x);
    assert Sub(r.y, Mul(r.tanTheta, Real(x))) == r.y;
    if y != 0.0 {
      MirrorImageOffParabola(f, y);
    }
  }

  /** The depth as evidently intended: the parallel ray meets the parabola at depth
      y^2 / (4 f) behind the vertex plane, i.e. x = -y^2 / (4 f) in the code's sign
      convention, which is also the limit of the root formula as the slope goes to 0. */
  function DepthFixed(trig: Trig, f: real, a: Num, y: Num): (x: Num)
    ensures !Same(a, Real(0.0)) ==> x == Depth(trig, f, a, y)
    ensures Same(a, Real(0.0)) ==> (x.Real? <==> y.Real? && f != 0.0)
    ensures Same(a, Real(0.0)) && x.Real? ==> x == Real(-(y.r * y.r / (4.0 * f))) && OnParabola(f, -x.r, y.r)
  {
    if Same(a, Real(0.0)) then Neg(Div(Mul(y, y), Real(4.0 * f)))
    else RootDepth(trig, f, a, y)
  }

  /** `intersection_with` on one ray, corrected. */
  function IntersectRayFixed(trig: Trig, f: real, diameter: real, r: Ray): (h: Ray)
    requires f != 0.0
    ensures !Same(r.tanTheta, Real(0.0)) ==> h == IntersectRay(trig, f, diameter, r)
  {
    Hit(f, diameter, r, DepthFixed(trig, f, r.tanTheta, r.y))
  }

  /** `intersection_with`, corrected: only the positions change. */
  function IntersectionFixed(trig: Trig, f: real, diameter: real, b: Batch): (r: Batch)
    requires f != 0.0
    ensures |r| == |b|
    ensures forall i :: 0 <= i < |b| ==> r[i] == b[i].(x := r[i].x, y := r[i].y)
    ensures forall i :: 0 <= i < |b| ==> r[i] == IntersectRayFixed(trig, f, diameter, b[i])
  {
    seq(|b|, i requires 0 <= i < |b| => IntersectRayFixed(trig, f, diameter, b[i]))
  }

  /** Corrected, every ray with a real height and slope that reaches the parabola
      inside the rim lands on it, the parallel ones included. */
  lemma IntersectFixedOnParabola(trig: Trig, f: real, diameter: real, r: Ray)
    requires f != 0.0 && r.y.Real? && r.tanTheta.Real?
    requires r.tanTheta.r != 0.0 ==>
      Discriminant(f, r.tanTheta.r, r.y.r) >= 0.0 && RootLaw(trig, Discriminant(f, r.tanTheta.r, r.y.r))
    requires !MissesRim(diameter, r, DepthFixed(trig, f, r.tanTheta, r.y))
    ensures var h := IntersectRayFixed(trig, f, diameter, r);
      h.x.Real? && h.y.Real? && OnParabola(f, h.x.r, h.y.r)
  {
    if r.tanTheta.r != 0.0 {
      IntersectOnParabola(trig, f, diameter, r);
    } else {
      var y := r.y.r;
      var x := y * y / (4.0 * f);
      assert Mul(r.y, r.y) == Real(y * y);
      assert DepthFixed(trig, f, r.tanTheta, r.y) == Real(-x);
      assert Sub(r.y, Mul(r.tanTheta, Real(-x))) == r.y;
      ParallelOnParabola(f, y);
    }
  }

  /** The local edges: the rim points (x_blocker, D/2) then (x_blocker, -D/2), swapped
      when flipped. */
  function LocalEdges(f: real, diameter: real, flipped: bool): (ps: seq<Point>)
    requires f != 0.0
    ensures |ps| == 2
    ensures ps[0] == Point(Real(XBlocker(f, diameter)), Real(if flipped then -diameter / 2.0 else diameter / 2.0))
    ensures ps[1] == Point(Real(XBlocker(f, diameter)), Real(if flipped then diameter / 2.0 else -diameter / 2.0))
    ensures OnParabola(f, ps[0].x.r, ps[0].y.r) && OnParabola(f, ps[1].x.r, ps[1].y.r)
  {
    var xb := XBlocker(f, diameter);
    var ends := [Point(Real(xb), Real(diameter / 2.0)), Point(Real(xb), Real(-diameter / 2.0))];
    if flipped then Swap(ends) else ends
  }

  /** `ParabolicMirror.edges`: the rim points in the global frame.  Read back in the
      element frame both are the ends of the mirror: on the parabola, half a diameter from
      the axis, the upper one first unless flipped. */
  function Edges(trig: Trig, o: RotateObject, f: real, diameter: real, flipped: bool): (e: seq<Point>)
    requires f != 0.0
    ensures |e| == 2
    ensures o.theta == 0.0 || RotationLaws(trig, o.theta) ==>
      var local := PointsToObject(trig, o, e);
      && local[0] == Point(Real(XBlocker(f, diameter)), Real(if flipped then -diameter / 2.0 else diameter / 2.0))
      && local[1] == Point(Real(XBlocker(f, diameter)), Real(if flipped then diameter / 2.0 else -diameter / 2.0))
      && OnParabola(f, local[0].x.r, local[0].y.r) && OnParabola(f, local[1].x.r, local[1].y.r)
  {
    var ends := LocalEdges(f, diameter, flipped);
    var e := PointsToGlobal(trig, o, ends);
    assert o.theta == 0.0 || RotationLaws(trig, o.theta) ==> PointsToObject(trig, o, e) == ends by {
      if o.theta == 0.0 || RotationLaws(trig, o.theta) {
        PointRoundTrip(trig, o, ends[0]);
        PointRoundTrip(trig, o, ends[1]);
      }
    }
    e
  }
}

=== FILE: raydata.dfy ===
/** The data model: rays, their batches, raw ray tables and placed objects. */
module RayData {
  import opened Num

  /** A position with float coordinates that are never NaN (an element origin). */
  datatype Vec = Vec(x: real, y: real)

  /** A position inside a ray batch; either coordinate may be NaN. */
  datatype Point = Point(x: Num, y: Num)

  /** One row of a ray batch, in the column order x, y, tan_theta, forward, group,
      wavelength.  `forward` is +0.5 for a ray heading into the local +x half plane and
      -0.5 otherwise; `wavelength` is in nanometres, NaN while unset. */
  datatype Ray = Ray(x: Num, y: Num, tanTheta: Num, forward: Num, group: Num, wavelength: Num) {
    /** Columns 0-1. */
    function Points(): Point {
      Point(x, y)
    }
  }

  type Batch = seq<Ray>

  /** A raw two-dimensional float array: `cols` columns, one sequence per row. */
  datatype Table = Table(cols: nat, rows: seq<seq<Num>>)

  predicate Rectangular(t: Table) {
    forall i :: 0 <= i < |t.rows| ==> |t.rows[i]| == t.cols
  }

  /** The array row a ray record stands for. */
  function RowOf(r: Ray): (row: seq<Num>)
    ensures |row| == 6
  {
    [r.x, r.y, r.tanTheta, r.forward, r.group, r.wavelength]
  }

  function AsTable(b: Batch): (t: Table)
    ensures Rectangular(t) && t.cols == 6 && |t.rows| == |b|
  {
    Table(6, seq(|b|, i requires 0 <= i < |b| => RowOf(b[i])))
  }

  /** A rotated and translated object: `theta` is in degrees from the abscissa. */
  datatype RotateObject = RotateObject(origin: Vec, theta: real)
}

=== FILE: rays.dfy ===
/** Free-space propagation and the ray fan of raypy2d/rays.py. */
module Rays {
  import opened Num
  import opened RayData
  import opened Transcendental
  import opened Outcome

  function PropagateRay(r: Ray, x: real): Ray {
    r.(x := Real(x), y := Add(r.y, Mul(r.tanTheta, Sub(Real(x), r.x))))
  }

  /** `propagate` on a ray batch: every ray moves along its own line to the plane at `x`.
      The direction check is commented out in the source, so no ray is invalidated and only
      the position changes. */
  function Propagate(b: Batch, x: real): (r: Batch)
    ensures |r| == |b|
    ensures forall i :: 0 <= i < |b| ==> r[i] == b[i].(x := Real(x), y := r[i].y)
    ensures forall i :: 0 <= i < |b| ==>
      (r[i].y.NaN? <==> b[i].x.NaN? || b[i].y.NaN? || b[i].tanTheta.NaN?)
    ensures forall i :: 0 <= i < |b| && r[i].y.Real? ==>
      r[i].y.r == b[i].y.r + b[i].tanTheta.r * (x - b[i].x.r)
  {
    seq(|b|, i requires 0 <= i < |b| => PropagateRay(b[i], x))
  }

  /** Propagating twice to the same plane is propagating once. */
  lemma PropagateIdempotent(b: Batch, x: real)
    ensures Propagate(Propagate(b, x), x) == Propagate(b, x)
  {
    var once := Propagate(b, x);
    var twice := Propagate(once, x);
    forall i | 0 <= i < |b|
      ensures twice[i] == once[i]
    {
      if once[i].y.Real? {
        assert once[i].tanTheta.r * (x - x) == 0.0;
      }
    }
  }

  /** Propagating to a then to c is propagating straight to c: the positions lie on one line. */
  lemma PropagateCompose(b: Batch, a: real, c: real)
    ensures Propagate(Propagate(b, a), c) == Propagate(b, c)
  {
    var first := Propagate(b, a);
    var both := Propagate(first, c);
    var direct := Propagate(b, c);
    forall i | 0 <= i < |b|
      ensures both[i] == direct[i]
    {
      if direct[i].y.Real? {
        var y, t, x0 := b[i].y.r, b[i].tanTheta.r, b[i].x.r;
        calc {
          both[i].y.r;
          (y + t * (a - x0)) + t * (c - a);
          y + t * ((a - x0) + (c - a));
          direct[i].y.r;
        }
      }
    }
  }

  /** A batch already standing on the plane, with real angles, does not move. */
  lemma PropagateInPlace(b: Batch, x: real)
    requires forall i :: 0 <= i < |b| ==> b[i].x == Real(x) && b[i].tanTheta.Real?
    ensures Propagate(b, x) == b
  {
    var r := Propagate(b, x);
    forall i | 0 <= i < |b|
      ensures r[i] == b[i]
    {
      if b[i].y.Real? {
        assert b[i].tanTheta.r * (x - x) == 0.0;
      }
    }
  }

  /** `propagate` on a raw array: column 0 is set to `x`, column 1 advanced by
      column 2 times the step.  `stop` is accepted and ignored. */
  function PropagateTable(t: Table, x: real, stop: int): (r: Table)
    requires Rectangular(t) && t.cols >= 3
    ensures Rectangular(r) && r.cols == t.cols && |r.rows| == |t.rows|
    ensures forall i :: 0 <= i < |t.rows| ==>
      r.rows[i] == t.rows[i][0 := Real(x)][1 := r.rows[i][1]]
    ensures forall i :: 0 <= i < |t.rows| ==>
      (r.rows[i][1].NaN? <==> t.rows[i][0].NaN? || t.rows[i][1].NaN? || t.rows[i][2].NaN?)
    ensures forall i :: 0 <= i < |t.rows| && r.rows[i][1].Real? ==>
      r.rows[i][1].r == t.rows[i][1].r + t.rows[i][2].r * (x - t.rows[i][0].r)
  {
    Table(t.cols, seq(|t.rows|, i requires 0 <= i < |t.rows| =>
      var row := t.rows[i];
      row[1 := Add(row[1], Mul(row[2], Sub(Real(x), row[0])))][0 := Real(x)]))
  }

  /** On a raw array too, propagating to a then to c is propagating straight to c, and
      in particular propagating twice to the same plane is propagating once. */
  lemma PropagateTableCompose(t: Table, a: real, c: real, stop: int)
    requires Rectangular(t) && t.cols >= 3
    ensures PropagateTable(PropagateTable(t, a, stop), c, stop) == PropagateTable(t, c, stop)
  {
    var first := PropagateTable(t, a, stop);
    var both := PropagateTable(first, c, stop);
    var direct := PropagateTable(t, c, stop);
    forall i | 0 <= i < |t.rows|
      ensures both.rows[i] == direct.rows[i]
    {
      assert first.rows[i][2] == t.rows[i][2];
      if direct.rows[i][1].Real? {
        var y, s, x0 := t.rows[i][1].r, t.rows[i][2].r, t.rows[i][0].r;
        calc {
          both.rows[i][1].r;
          (y + s * (a - x0)) + s * (c - a);
          y + s * ((a - x0) + (c - a));
          direct.rows[i][1].r;
        }
      }
      assert both.rows[i][1] == direct.rows[i][1];
    }
  }

  /** The ray-record propagation is the array propagation read through the column layout. */
  lemma PropagateMatchesTable(b: Batch, x: real, stop: int)
    ensures AsTable(Propagate(b, x)) == PropagateTable(AsTable(b), x, stop)
  {
    var lhs := AsTable(Propagate(b, x));
    var rhs := PropagateTable(AsTable(b), x, stop);
    assert |lhs.rows| == |rhs.rows|;
    forall i | 0 <= i < |b|
      ensures lhs.rows[i] == rhs.rows[i]
    {
    }
  }

  /** The k-th fan angle: angle[0] + k * (angle[1] - angle[0]) / (n + 1), in degrees. */
  function FanAngle(a0: real, a1: real, n: nat, k: nat): real {
    k as real * ((a1 - a0) / (n + 1) as real) + a0
  }

  /** The fan angles of `ray_fan`, in degrees: n equal steps strictly inside the
      interval, running from angle[0] towards angle[1].  The step divides by n + 1, a
      ZeroDivisionError for n = -1; for n below that `arange(1, n + 1)` is empty. */
  function FanAngles(a0: real, a1: real, n: int): (r: Result<seq<real>>)
    ensures r.Err? <==> n == -1
    ensures r.Err? ==> r.error == ZeroDivision
    ensures n < -1 ==> r == Ok([])
    ensures r.Ok? ==> |r.value| == if n < 0 then 0 else n
    ensures r.Ok? ==> forall i :: 0 <= i < |r.value| ==>
      r.value[i] - a0 == (i + 1) as real * (a1 - a0) / (n + 1) as real
    ensures r.Ok? && a0 < a1 ==> forall i :: 0 <= i < |r.value| ==> a0 < r.value[i] < a1
    ensures r.Ok? && a1 < a0 ==> forall i :: 0 <= i < |r.value| ==> a1 < r.value[i] < a0
    ensures r.Ok? && a0 < a1 ==> forall i, j :: 0 <= i < j < |r.value| ==> r.value[i] < r.value[j]
  {
    if n == -1 then Err(ZeroDivision)
    else if n < -1 then Ok([])
    else Ok(Steps(a0, a1, n))
  }

  /** The angles for a count n that is not negative. */
  function Steps(a0: real, a1: real, n: nat): (angles: seq<real>)
    ensures |angles| == n
    ensures forall i :: 0 <= i < n ==> angles[i] - a0 == (i + 1) as real * (a1 - a0) / (n + 1) as real
    ensures a0 < a1 ==> forall i :: 0 <= i < n ==> a0 < angles[i] < a1
    ensures a1 < a0 ==> forall i :: 0 <= i < n ==> a1 < angles[i] < a0
    ensures a0 < a1 ==> forall i, j :: 0 <= i < j < n ==> angles[i] < angles[j]
  {
    FanAngleFacts(a0, a1, n);
    seq(n, i requires 0 <= i < n => FanAngle(a0, a1, n, i + 1))
  }

  lemma FanAngleFacts(a0: real, a1: real, n: nat)
    ensures forall k :: 1 <= k <= n ==> FanAngle(a0, a1, n, k) - a0 == k as real * (a1 - a0) / (n + 1) as real
    ensures a0 < a1 ==> forall k :: 1 <= k <= n ==> a0 < FanAngle(a0, a1, n, k) < a1
    ensures a1 < a0 ==> forall k :: 1 <= k <= n ==> a1 < FanAngle(a0, a1, n, k) < a0
    ensures a0 < a1 ==> forall k, l :: 1 <= k < l <= n ==> FanAngle(a0, a1, n, k) < FanAngle(a0, a1, n, l)
  {
    forall k | 1 <= k <= n
      ensures FanAngle(a0, a1, n, k) - a0 == k as real * (a1 - a0) / (n + 1) as real
    {
      FanAngleOffset(a0, a1, n, k);
    }
    if a0 < a1 {
      forall k | 1 <= k <= n
        ensures a0 < FanAngle(a0, a1, n, k) < a1
      {
        StepInside(a1 - a0, n + 1, k);
      }
      forall k, l | 1 <= k < l <= n
        ensures FanAngle(a0, a1, n, k) < FanAngle(a0, a1, n, l)
      {
        FanAngleIncreasing(a0, a1, n, k, l);
      }
    }
    if a1 < a0 {
      forall k | 1 <= k <= n
        ensures a1 < FanAngle(a0, a1, n, k) < a0
      {
        FanAngleDown(a0, a1, n, k);
      }
    }
  }

  lemma FanAngleOffset(a0: real, a1: real, n: nat, k: nat)
    ensures FanAngle(a0, a1, n, k) - a0 == k as real * (a1 - a0) / (n + 1) as real
  {
    var m := (n + 1) as real;
    assert k as real * ((a1 - a0) / m) == k as real * (a1 - a0) / m;
  }

  lemma FanAngleIncreasing(a0: real, a1: real, n: nat, k: nat, l: nat)
    requires a0 < a1 && k < l
    ensures FanAngle(a0, a1, n, k) < FanAngle(a0, a1, n, l)
  {
    var da := (a1 - a0) / (n + 1) as real;
    assert da > 0.0;
    assert k as real * da < l as real * da;
  }

  lemma FanAngleDown(a0: real, a1: real, n: nat, k: nat)
    requires a1 < a0 && 1 <= k <= n
    ensures a1 < FanAngle(a0, a1, n, k) < a0
  {
    var m := (n + 1) as real;
    StepInside(a0 - a1, n + 1, k);
    assert k as real * ((a1 - a0) / m) == -(k as real * ((a0 - a1) / m));
  }

  /** k steps of w / m with 0 < k < m stay strictly inside (0, w) when w > 0. */
  lemma StepInside(w: real, m: nat, k: nat)
    requires w > 0.0 && 0 < k < m
    ensures 0.0 < k as real * (w / m as real) < w
  {
    var d := w / m as real;
    assert d > 0.0;
    assert k as real * d < m as real * d;
    assert m as real * d == w;
  }

  /** `ray_fan`: n rays, all starting at `origin`, whose angles are the fan angles; the
      tangent of an angle is left uninterpreted.  n = -1 fails in the step's division,
      a smaller n in `np.zeros((n, 3))`. */
  function RayFan(trig: Trig, origin: Vec, a0: real, a1: real, n: int): (r: Result<Table>)
    ensures r.Err? <==> n < 0
    ensures n == -1 ==> r == Err(ZeroDivision)
    ensures n < -1 ==> r == Err(NegativeDimension)
    ensures r.Ok? ==> Rectangular(r.value) && r.value.cols == 3 && |r.value.rows| == n
    ensures r.Ok? ==> forall i :: 0 <= i < n ==>
      r.value.rows[i][0] == Real(origin.x) && r.value.rows[i][1] == Real(origin.y)
    ensures r.Ok? ==> forall i :: 0 <= i < n ==>
      r.value.rows[i][2] == Real(trig.tanDeg(FanAngles(a0, a1, n).value[i]))
  {
    var angles :- FanAngles(a0, a1, n);
    if n < 0 then Err(NegativeDimension)
    else
      Ok(Table(3, seq(n, i requires 0 <= i < n =>
        [Real(origin.x), Real(origin.y), Real(trig.tanDeg(angles[i]))])))
  }
}

=== FILE: reading.dfy ===
/** Which reading of the code an operation follows: the code as written, or the code with
    the defects listed under Findings in the README corrected.  The composed traces take a
    reading, so that the same pipeline can be stated both ways. */
module Readings {
  datatype Reading = AsWritten | Corrected
}

=== FILE: sensor.dfy ===
/** `Sensor` of raypy2d/elements/sensor.py: a screen that records the rays reaching it.
    It is a mirror as far as its edges go, but its matrix is the identity and it does not
    reflect. */
module SensorElement {
  import opened Num
  import opened Linear
  import opened RayData
  import opened Transcendental
  import opened ElementBase
  import MirrorElement

  const Matrix: Mat2 := Identity

  const Mirroring: bool := false

  /** Every ray with a real height and slope passes the sensor's transform unchanged. */
  lemma Transparent(b: Batch)
    requires forall i :: 0 <= i < |b| ==> b[i].y.Real? && b[i].tanTheta.Real?
    ensures TransformRays(Matrix, Mirroring, b) == b
  {
    TransformIdentity(b);
  }

  /** A ray stopped earlier (NaN slope) loses its height as well: the product is a float64
      product, and 0 * NaN is NaN.  Its direction flag stays. */
  lemma BlockedLosesHeight(r: Ray)
    requires r.tanTheta.NaN?
    ensures TransformRay(Matrix, Mirroring, r) == r.(y := NaN)
  {
  }

  /** The edges are the mirror's: the aperture ends in reverse order. */
  function Edges(trig: Trig, o: RotateObject, diameter: real, flipped: bool): (e: seq<Point>)
    ensures e == ElementBase.Edges(trig, o, diameter, !flipped)
  {
    MirrorElement.Edges(trig, o, diameter, flipped)
  }
}

=== FILE: transcendental.dfy ===
/** The transcendental functions the tracer calls through NumPy.  Their values are never
    computed here: a `Trig` is any choice of the functions, and lemmas that need a law
    (a sine and cosine on the unit circle, a square root that squares back) ask for it at
    the one argument they use. */
module Transcendental {
  import opened Num

  datatype Trig = Trig(
    cosDeg: real -> real,   // np.cos(theta * np.pi / 180.)
    sinDeg: real -> real,   // np.sin(theta * np.pi / 180.)
    tanDeg: real -> real,   // np.tan(theta * np.pi / 180.)
    atanDeg: real -> real,  // np.arctan(t) * 180. / np.pi
    sin: real -> real,      // np.sin, radians
    asin: real -> real,     // np.arcsin on [-1, 1], radians
    tan: real -> real,      // np.tan, radians
    atan: real -> real,     // np.arctan, radians
    sqrt: real -> real)     // np.sqrt on [0, +Inf)

  function Lift(f: real -> real, a: Num): Num {
    if a.Real? then Real(f(a.r)) else NaN
  }

  /** `np.sqrt`: NaN below zero. */
  function Sqrt(t: Trig, a: Num): Num {
    if a.Real? && a.r >= 0.0 then Real(t.sqrt(a.r)) else NaN
  }

  /** `np.arcsin`: NaN outside [-1, 1]. */
  function Asin(t: Trig, a: Num): Num {
    if a.Real? && -1.0 <= a.r <= 1.0 then Real(t.asin(a.r)) else NaN
  }

  /** cos and sin of theta degrees lie on the unit circle, cos is even and sin is odd there. */
  predicate RotationLaws(t: Trig, theta: real) {
    && t.cosDeg(-theta) == t.cosDeg(theta)
    && t.sinDeg(-theta) == -t.sinDeg(theta)
    && t.cosDeg(theta) * t.cosDeg(theta) + t.sinDeg(theta) * t.sinDeg(theta) == 1.0
  }

  /** The square root of v is a non-negative number whose square is v. */
  predicate RootLaw(t: Trig, v: real) {
    v >= 0.0 ==> t.sqrt(v) >= 0.0 && t.sqrt(v) * t.sqrt(v) == v
  }
}

=== FILE: utils.dfy ===
/** Array and placement helpers of raypy2d/utils.py. */
module Utils {
  import opened Num
  import opened Linear
  import opened RayData
  import opened Transcendental
  import opened Outcome

  /** `rotation_matrix(theta)`: [[cos, -sin], [sin, cos]] of theta degrees. */
  function RotationMatrix(trig: Trig, theta: real): Mat2 {
    Mat2(trig.cosDeg(theta), -trig.sinDeg(theta), trig.sinDeg(theta), trig.cosDeg(theta))
  }

  /** The rotations by theta and by -theta undo each other, on either side. */
  lemma RotationInverse(trig: Trig, theta: real)
    requires RotationLaws(trig, theta)
    ensures Compose(RotationMatrix(trig, -theta), RotationMatrix(trig, theta)) == Identity
    ensures Compose(RotationMatrix(trig, theta), RotationMatrix(trig, -theta)) == Identity
  {
    var c, s := trig.cosDeg(theta), trig.sinDeg(theta);
    assert RotationMatrix(trig, -theta) == Mat2(c, s, -s, c);
    var p := Compose(RotationMatrix(trig, -theta), RotationMatrix(trig, theta));
    assert p.a == c * c + s * s && p.b == -(c * s) + s * c;
    assert p.c == -(s * c) + c * s && p.d == s * s + c * c;
    var q := Compose(RotationMatrix(trig, theta), RotationMatrix(trig, -theta));
    assert q.a == c * c + s * s && q.b == c * s - s * c;
    assert q.c == s * c - c * s && q.d == s * s + c * c;
  }

  /** `assure_number_of_columns`: pads every row with NaN up to `n` columns; a table that
      is already wide enough comes back unchanged. */
  function AssureColumns(t: Table, n: int): (r: Table)
    requires Rectangular(t)
    ensures Rectangular(r) && |r.rows| == |t.rows|
    ensures r.cols == if n > t.cols then n else t.cols
    ensures forall i :: 0 <= i < |t.rows| ==> r.rows[i][..t.cols] == t.rows[i]
    ensures forall i, j :: 0 <= i < |r.rows| && t.cols <= j < r.cols ==> r.rows[i][j] == NaN
  {
    if n - t.cols > 0 then
      var pad := seq(n - t.cols, _ => NaN);
      Table(n, seq(|t.rows|, i requires 0 <= i < |t.rows| => t.rows[i] + pad))
    else
      t
  }

  /** Padding columns twice is padding them once. */
  lemma AssureColumnsIdempotent(t: Table, n: int)
    requires Rectangular(t)
    ensures AssureColumns(AssureColumns(t, n), n) == AssureColumns(t, n)
  {
  }

  /** `assure_number_of_rows`: appends rows of NaN up to `n` rows, keeping every row
      that is there. */
  function AssureRows(t: Table, n: int): (r: Table)
    requires Rectangular(t)
    ensures Rectangular(r) && r.cols == t.cols
    ensures |r.rows| == if n > |t.rows| then n else |t.rows|
    ensures r.rows[..|t.rows|] == t.rows
    ensures forall i, j :: |t.rows| <= i < |r.rows| && 0 <= j < r.cols ==> r.rows[i][j] == NaN
  {
    if n - |t.rows| > 0 then
      Table(t.cols, t.rows + seq(n - |t.rows|, _ => seq(t.cols, _ => NaN)))
    else
      t
  }

  /** Padding rows twice is padding them once. */
  lemma AssureRowsIdempotent(t: Table, n: int)
    requires Rectangular(t)
    ensures AssureRows(AssureRows(t, n), n) == AssureRows(t, n)
  {
  }

  /** `rolling_window` along the leading axis: window i holds a[i], ..., a[i + w - 1].
      A window longer than the axis plus one, or a negative one, makes NumPy reject the
      negative shape. */
  function RollingWindow<T>(a: seq<T>, w: int): (r: Result<seq<seq<T>>>)
    ensures r.Ok? <==> 0 <= w <= |a| + 1
    ensures r.Ok? ==> |r.value| == |a| - w + 1
    ensures r.Ok? ==> forall i :: 0 <= i < |r.value| ==> |r.value[i]| == w
    ensures r.Ok? ==> forall i, j :: 0 <= i < |r.value| && 0 <= j < w ==> r.value[i][j] == a[i + j]
  {
    if w < 0 || w > |a| + 1 then Err(NegativeDimension)
    else Ok(seq(|a| - w + 1, i requires 0 <= i < |a| - w + 1 => a[i..i + w]))
  }

  /** Neighbouring windows overlap in all but one element. */
  lemma RollingWindowOverlap<T>(a: seq<T>, w: int, i: nat)
    requires 1 <= w <= |a| && i + 1 < |a| - w + 1
    ensures RollingWindow(a, w).Ok?
    ensures RollingWindow(a, w).value[i + 1][..w - 1] == RollingWindow(a, w).value[i][1..]
  {
    var ws := RollingWindow(a, w).value;
    assert ws[i + 1][..w - 1] == a[i + 1..i + w];
    assert ws[i][1..] == a[i + 1..i + w];
  }

  /** The origins of both objects after a placement. */
  datatype Placed = Placed(reference: RotateObject, element: RotateObject)

  /** The offset (distance, 0) as `np.dot(diff, rotation_matrix(-theta))` computes it; no
      rotation when theta is 0. */
  function PlacementOffset(trig: Trig, distance: real, theta: real): Vec {
    if theta != 0.0 then
      var m := RotationMatrix(trig, -theta);
      Vec(distance * m.a + 0.0 * m.c, distance * m.b + 0.0 * m.d)
    else
      Vec(distance, 0.0)
  }

  /** The element's own origin, rotated by `np.dot(origin, rotation_matrix(-theta))` when
      theta is not 0. */
  function RotatedOrigin(trig: Trig, o: Vec, theta: real): Vec {
    if theta != 0.0 then
      var m := RotationMatrix(trig, -theta);
      Vec(o.x * m.a + o.y * m.c, o.x * m.b + o.y * m.d)
    else
      o
  }

  /** `place_relative_to` as written.  `offset` is the reference's own origin array, so
      `offset += diff` moves the reference element too; the element then lands at its
      (rotated) origin plus the moved reference origin, and its angle grows by theta. */
  function PlaceRelativeTo(trig: Trig, reference: RotateObject, element: RotateObject,
                           distance: real, theta: real): (p: Placed)
    ensures p.reference.theta == reference.theta
    ensures p.element.theta == element.theta + theta
    ensures theta == 0.0 ==>
      && p.reference.origin == Vec(reference.origin.x + distance, reference.origin.y)
      && p.element.origin == Vec(element.origin.x + reference.origin.x + distance,
                                 element.origin.y + reference.origin.y)
    ensures theta != 0.0 && RotationLaws(trig, theta) ==>
      var c, s := trig.cosDeg(theta), trig.sinDeg(theta);
      && p.reference.origin == Vec(reference.origin.x + distance * c, reference.origin.y + distance * s)
      && p.element.origin == Vec(element.origin.x * c - element.origin.y * s + reference.origin.x + distance * c,
                                 element.origin.x * s + element.origin.y * c + reference.origin.y + distance * s)
  {
    var diff := PlacementOffset(trig, distance, theta);
    var moved := Vec(reference.origin.x + diff.x, reference.origin.y + diff.y);
    var own := RotatedOrigin(trig, element.origin, theta);
    Placed(reference.(origin := moved),
           RotateObject(Vec(own.x + moved.x, own.y + moved.y), element.theta + theta))
  }

  /** The aliasing shows: a non-zero distance along the reference axis moves the
      reference element itself. */
  lemma PlaceRelativeToMovesReference(trig: Trig, reference: RotateObject, element: RotateObject,
                                      distance: real)
    requires distance != 0.0
    ensures PlaceRelativeTo(trig, reference, element, distance, 0.0).reference != reference
  {
    var p := PlaceRelativeTo(trig, reference, element, distance, 0.0);
    assert p.reference.origin.x == reference.origin.x + distance;
  }

  /** `place_relative_to` as evidently intended: the element lands where the code puts
      it, measured from the reference's original origin, and the reference stays put. */
  function PlaceRelativeToFixed(trig: Trig, reference: RotateObject, element: RotateObject,
                                distance: real, theta: real): (p: Placed)
    ensures p.reference == reference
    ensures p.element == PlaceRelativeTo(trig, reference, element, distance, theta).element
    ensures theta == 0.0 ==>
      p.element.origin == Vec(element.origin.x + reference.origin.x + distance,
                              element.origin.y + reference.origin.y)
  {
    var diff := PlacementOffset(trig, distance, theta);
    var own := RotatedOrigin(trig, element.origin, theta);
    Placed(reference, RotateObject(Vec(own.x + reference.origin.x + diff.x,
                                       own.y + reference.origin.y + diff.y),
                                   element.theta + theta))
  }
}

=== FILE: wavelengths.dfy ===
/** The wavelength split shared by `DiffractionGrating.transform_rays` and
    `DiffractionPrism.transform_rays` (raypy2d/elements/diffraction_grating.py and
    diffraction_prism.py): a dispersive element needs a wavelength on every ray, so each
    ray whose wavelength is unset is given the first default wavelength and one copy of it
    is appended per further default wavelength. */
module Wavelengths {
  import opened Num
  import opened RayData
  import opened Outcome

  predicate Unset(r: Ray) {
    r.wavelength.NaN?
  }

  /** `np.isnan(rays.wavelength)` as the ascending list of the row numbers it selects. */
  function UnsetIndices(b: Batch): (ix: seq<nat>)
    ensures forall m :: 0 <= m < |ix| ==> ix[m] < |b| && Unset(b[ix[m]])
    ensures forall m, n :: 0 <= m < n < |ix| ==> ix[m] < ix[n]
    ensures forall i :: 0 <= i < |b| && Unset(b[i]) ==> i in ix
    ensures (forall i :: 0 <= i < |b| ==> !Unset(b[i])) ==> ix == []
  {
    if |b| == 0 then []
    else
      var front := UnsetIndices(b[..|b| - 1]);
      assert forall m :: 0 <= m < |front| ==> b[..|b| - 1][front[m]] == b[front[m]];
      if Unset(b[|b| - 1]) then front + [|b| - 1] else front
  }

  /** Which rows are unset depends on the wavelength column alone: a transform that keeps
      every wavelength keeps the selection. */
  lemma {:induction false} UnsetIndicesByWavelength(a: Batch, b: Batch)
    requires |a| == |b|
    requires forall i :: 0 <= i < |a| ==> a[i].wavelength == b[i].wavelength
    ensures UnsetIndices(a) == UnsetIndices(b)
  {
    if |a| > 0 {
      UnsetIndicesByWavelength(a[..|a| - 1], b[..|b| - 1]);
    }
  }

  /** `rays.wavelength[I_split] = w`. */
  function Fill(b: Batch, w: real): (r: Batch)
    ensures |r| == |b|
    ensures forall i :: 0 <= i < |b| ==> r[i] == if Unset(b[i]) then b[i].(wavelength := Real(w)) else b[i]
  {
    seq(|b|, i requires 0 <= i < |b| => if Unset(b[i]) then b[i].(wavelength := Real(w)) else b[i])
  }

  /** The rows of `b` the indices select, in their order. */
  function Select(b: Batch, ix: seq<nat>): (r: Batch)
    requires forall m :: 0 <= m < |ix| ==> ix[m] < |b|
    ensures |r| == |ix|
    ensures forall m :: 0 <= m < |ix| ==> r[m] == b[ix[m]]
  {
    seq(|ix|, m requires 0 <= m < |ix| => b[ix[m]])
  }

  /** `new_rays = Rays(original_rays); new_rays.wavelength = w`. */
  function Relabel(src: Batch, w: real): (r: Batch)
    ensures |r| == |src|
    ensures forall m :: 0 <= m < |src| ==> r[m] == src[m].(wavelength := Real(w))
  {
    seq(|src|, m requires 0 <= m < |src| => src[m].(wavelength := Real(w)))
  }

  /** Where copy j starts among copies of n rows each: j n, counted block by block. */
  function BlockStart(n: nat, j: nat): nat {
    if j == 0 then 0 else BlockStart(n, j - 1) + n
  }

  lemma {:induction false} BlockStartIsProduct(n: nat, j: nat)
    ensures BlockStart(n, j) == j * n
  {
    if j > 0 {
      BlockStartIsProduct(n, j - 1);
      assert (j - 1) * n + n == j * n;
    }
  }

  /** The loop over the further default wavelengths: one relabelled copy of `src` per
      wavelength, appended in order. */
  function Copies(src: Batch, ws: seq<real>): (r: Batch)
    ensures |r| == BlockStart(|src|, |ws|)
  {
    if |ws| == 0 then [] else Relabel(src, ws[0]) + Copies(src, ws[1..])
  }

  /** Shifting every block start by one block. */
  lemma {:induction false} BlockStartShift(n: nat, j: nat)
    ensures BlockStart(n, j + 1) == n + BlockStart(n, j)
  {
  }

  /** Row m of copy j is source row m with wavelength ws[j]. */
  lemma {:induction false} CopiesAt(src: Batch, ws: seq<real>, j: nat, m: nat)
    requires j < |ws| && m < |src|
    ensures BlockStart(|src|, j) + m < |Copies(src, ws)|
    ensures Copies(src, ws)[BlockStart(|src|, j) + m] == src[m].(wavelength := Real(ws[j]))
  {
    if j > 0 {
      CopiesAt(src, ws[1..], j - 1, m);
      BlockStartShift(|src|, j - 1);
      assert ws[1..][j - 1] == ws[j];
    }
  }

  /** Conversely every row of the copies is a source row relabelled with one of the
      wavelengths. */
  lemma {:induction false} CopiesIndex(src: Batch, ws: seq<real>, k: nat)
    requires k < |Copies(src, ws)|
    ensures exists j, m ::
      && 0 <= j < |ws| && 0 <= m < |src| && k == BlockStart(|src|, j) + m
      && Copies(src, ws)[k] == src[m].(wavelength := Real(ws[j]))
  {
    if k < |src| {
      assert Copies(src, ws)[k] == src[k].(wavelength := Real(ws[0]));
      assert k == BlockStart(|src|, 0) + k;
    } else {
      CopiesIndex(src, ws[1..], k - |src|);
      var j, m :| 0 <= j < |ws[1..]| && 0 <= m < |src| && k - |src| == BlockStart(|src|, j) + m &&
        Copies(src, ws[1..])[k - |src|] == src[m].(wavelength := Real(ws[1..][j]));
      BlockStartShift(|src|, j);
      assert Copies(src, ws)[k] == src[m].(wavelength := Real(ws[j + 1]));
    }
  }

  /** The split: nothing happens when every wavelength is set; otherwise the unset rays
      get `defaults[0]` in place and the copies for `defaults[1:]` follow the batch.
      Reading `defaults[0]` from an empty list is an IndexError. */
  function Split(b: Batch, defaults: seq<real>): (r: Result<Batch>)
    ensures r.Err? <==> |UnsetIndices(b)| > 0 && |defaults| == 0
    ensures r.Err? ==> r.error == IndexOutOfRange
    ensures |UnsetIndices(b)| == 0 ==> r == Ok(b)
    ensures r.Ok? && |UnsetIndices(b)| > 0 ==>
      |r.value| == |b| + BlockStart(|UnsetIndices(b)|, |defaults| - 1)
  {
    var ix := UnsetIndices(b);
    if |ix| == 0 then Ok(b)
    else if |defaults| == 0 then Err(IndexOutOfRange)
    else
      var filled := Fill(b, defaults[0]);
      Ok(filled + Copies(Select(filled, ix), defaults[1..]))
  }

  /** The split adds |defaults| - 1 rows per unset ray. */
  lemma SplitLength(b: Batch, defaults: seq<real>)
    requires Split(b, defaults).Ok? && |UnsetIndices(b)| > 0
    ensures |Split(b, defaults).value| == |b| + (|defaults| - 1) * |UnsetIndices(b)|
  {
    var n, j := |UnsetIndices(b)|, |defaults| - 1;
    assert |Split(b, defaults).value| == |b| + BlockStart(n, j);
    BlockStartIsProduct(n, j);
  }

  /** The first |b| rows of the split are the input rays, the unset ones now carrying the
      first default wavelength. */
  lemma SplitPrefix(b: Batch, defaults: seq<real>)
    requires Split(b, defaults).Ok?
    ensures var r := Split(b, defaults).value;
      |r| >= |b| &&
      forall i :: 0 <= i < |b| ==>
        r[i] == if Unset(b[i]) then b[i].(wavelength := Real(defaults[0])) else b[i]
  {
  }

  /** Behind them come the copies: block j - 1 holds every unset ray, in order, with the
      j-th default wavelength. */
  lemma SplitCopyAt(b: Batch, defaults: seq<real>, j: nat, m: nat)
    requires Split(b, defaults).Ok?
    requires 1 <= j < |defaults| && m < |UnsetIndices(b)|
    ensures |b| + BlockStart(|UnsetIndices(b)|, j - 1) + m < |Split(b, defaults).value|
    ensures Split(b, defaults).value[|b| + BlockStart(|UnsetIndices(b)|, j - 1) + m]
         == b[UnsetIndices(b)[m]].(wavelength := Real(defaults[j]))
  {
    var ix := UnsetIndices(b);
    var filled := Fill(b, defaults[0]);
    var src := Select(filled, ix);
    SplitShape(b, defaults);
    CopiesAt(src, defaults[1..], j - 1, m);
    assert defaults[1..][j - 1] == defaults[j];
    assert src[m] == b[ix[m]].(wavelength := Real(defaults[0]));
  }

  /** After the split every ray has a wavelength. */
  lemma SplitComplete(b: Batch, defaults: seq<real>)
    requires Split(b, defaults).Ok?
    ensures forall i :: 0 <= i < |Split(b, defaults).value| ==> !Unset(Split(b, defaults).value[i])
  {
    var ix := UnsetIndices(b);
    var r := Split(b, defaults).value;
    if |ix| > 0 {
      var filled := Fill(b, defaults[0]);
      var src := Select(filled, ix);
      var tail := Copies(src, defaults[1..]);
      assert r == filled + tail;
      forall i | |b| <= i < |r|
        ensures !Unset(r[i])
      {
        var k := i - |b|;
        CopiesIndex(src, defaults[1..], k);
      }
    }
  }

  /** The split is idempotent: a second dispersive element sees no unset wavelength and
      changes nothing. */
  lemma SplitIdempotent(b: Batch, defaults: seq<real>)
    requires Split(b, defaults).Ok?
    ensures Split(Split(b, defaults).value, defaults) == Split(b, defaults)
  {
    var r := Split(b, defaults).value;
    SplitComplete(b, defaults);
  }

  /** No ray is invented: every row of the result is an input ray, possibly with a default
      wavelength in place of an unset one, and a ray with a set wavelength appears as it
      was. */
  lemma SplitOrigin(b: Batch, defaults: seq<real>)
    requires Split(b, defaults).Ok?
    ensures var r := Split(b, defaults).value;
      forall i :: 0 <= i < |r| ==> exists k ::
        && 0 <= k < |b|
        && r[i] == b[k].(wavelength := r[i].wavelength)
        && (!Unset(b[k]) ==> r[i] == b[k])
        && (Unset(b[k]) ==> r[i].wavelength.Real?)
  {
    var r := Split(b, defaults).value;
    SplitComplete(b, defaults);
    forall i | 0 <= i < |r|
      ensures exists k ::
        && 0 <= k < |b|
        && r[i] == b[k].(wavelength := r[i].wavelength)
        && (!Unset(b[k]) ==> r[i] == b[k])
        && (Unset(b[k]) ==> r[i].wavelength.Real?)
    {
      var k := SplitSource(b, defaults, i);
    }
  }

  /** The input ray that row i of the split comes from. */
  lemma SplitSource(b: Batch, defaults: seq<real>, i: nat) returns (k: nat)
    requires Split(b, defaults).Ok? && i < |Split(b, defaults).value|
    ensures k < |b|
    ensures Split(b, defaults).value[i] == b[k].(wavelength := Split(b, defaults).value[i].wavelength)
    ensures !Unset(b[k]) ==> Split(b, defaults).value[i] == b[k]
  {
    var ix := UnsetIndices(b);
    var r := Split(b, defaults).value;
    k := i;
    if |ix| > 0 {
      var filled := Fill(b, defaults[0]);
      var src := Select(filled, ix);
      SplitShape(b, defaults);
      if i >= |b| {
        var m := CopiesSource(src, defaults[1..], i - |b|);
        k := ix[m];
        assert r[i] == src[m].(wavelength := r[i].wavelength);
      }
    }
  }

  lemma SplitShape(b: Batch, defaults: seq<real>)
    requires Split(b, defaults).Ok? && |UnsetIndices(b)| > 0
    ensures Split(b, defaults).value ==
      Fill(b, defaults[0]) + Copies(Select(Fill(b, defaults[0]), UnsetIndices(b)), defaults[1..])
  {
  }

  /** The source row that row k of the copies relabels. */
  lemma CopiesSource(src: Batch, ws: seq<real>, k: nat) returns (m: nat)
    requires k < |Copies(src, ws)|
    ensures m < |src| && Copies(src, ws)[k] == src[m].(wavelength := Copies(src, ws)[k].wavelength)
  {
    CopiesIndex(src, ws, k);
    var j, m' :| 0 <= j < |ws| && 0 <= m' < |src| && k == BlockStart(|src|, j) + m' &&
      Copies(src, ws)[k] == src[m'].(wavelength := Real(ws[j]));
    m := m';
  }
}
